=== FILE: README.md ===
# AI trip planner: a Dafny model of its rules

The AI trip planner is a Go REST backend with a React client. It lets
travellers generate trip plans, save them, browse agency travel packages
and leave feedback. Agencies can register and manage their packages.

This project models the rules inside that plumbing and proves properties
about them. It has one Dafny module per source file it models, plus a few
shared modules.

**Backend**
- `AuthHandlers` (`backend/handlers/auth.go`): the password rule, the six-digit reset code, the reset-code checks and their order, and a password-reset service that stores codes and marks them used.
- `AgencyHandlers` (`backend/handlers/agency.go`): the agency sign-up code and the registration gate, the form readers (`getInt`, `getBool`), the package field checks, and the owner-scoped update and delete.
- `OneTimeCodes`: the code store both handlers use. It is a sequence of `(email, code, expiry, used)` records.
- `FeedbackHandlers` and `Words` (`backend/handlers/feedback.go`): the feedback validation chain and its word splitter, the stored values, the owner-scoped delete, and the review count and average.
- `AuthMiddleware` (`backend/middleware/auth.go`): stripping the bearer token, the context built from the claims, and the role gate.
- `Weather` (`backend/utils/weather.go`): the loop that keeps the first midday forecast of each date, and the error branches.
- `Groq` (`backend/utils/groq.go`): the trip length, the companions text, the mood-to-activities mapping and the day ranges of the prompt.

**Client**
- `FeedbackPage`, `AgencyPackagesPage`, `PackageDetailsPage`, `TripMapView`, `GenerateTripPage`, `SavedTripsPage`, `TravelPackagesPage`, `RegisterPage`, `AgencyRegisterPage`, `LocationSearchBox` and `ResetPasswordPage`: one per component in `frontend/src/components/`.
- `PdfExport` (`frontend/src/utils/pdfGenerator.js`): line classification, bold markers and the file name.

**Shared modules**
- `Text`: character classes, JavaScript `trim`, `toLowerCase`, `split`, `join` and `replace`, and the two string lengths. Go's `len` counts UTF-8 bytes; JavaScript's `length` counts UTF-16 units.
- `Decimal`: Go's `strconv.Atoi`, JavaScript's `parseInt` and decimal formatting.
- `Seqs`: filtering and subsequences.
- `Http`: status codes, replies and the error line the client pages show.

**How state is modelled**
- The server's tables are `seq` fields of classes whose methods change them.
- Each React component's state is a class whose methods are its handlers.
- The clock, the random draw, bcrypt, JWT validation, the outcome of sending an email and every HTTP reply are parameters.

## Model

| member | source | states |
|---|---|---|
| Text.Utf8Len | backend/handlers/auth.go:295 | Go's `len` counts UTF-8 bytes, never fewer than the characters |
| Text.JsLength | frontend/src/components/Register.js:27 | JavaScript's `length` counts UTF-16 units, between one and two per character |
| Text.AsciiLengths | backend/handlers/auth.go:295 | on ASCII text both runtimes count one per character |
| Text.Trim | frontend/src/utils/pdfGenerator.js:81 | `trim` removes only the outer white space: the result sits in the text with nothing but white space before and after it, its ends are not white space, and it is empty exactly for blank text |
| Text.TrimUnique | frontend/src/utils/pdfGenerator.js:81 | any slice with non-space ends and only white space around it is the trimmed text, so `trim` keeps everything between the first and last non-space character |
| Text.Lower | frontend/src/components/TripMap.js:125 | `toLowerCase` keeps the length and maps each letter on its own |
| Text.JoinSplitOn | frontend/src/utils/pdfGenerator.js:77 | joining the pieces of a split with the same separator gives the text back |
| Decimal.Atoi | backend/handlers/agency.go:278 | `strconv.Atoi`: 0 with an error unless a sign and all digits follow, or the leading digits overflow first; MaxInt64 or MinInt64 with an error when the signed value of the leading digits leaves the 64-bit range; otherwise that value with no error |
| Decimal.ScanSpec | backend/handlers/agency.go:278 | `ParseUint`'s digit loop gives a range error exactly when the leading digits exceed 2^64 - 1, else a syntax error unless every byte is a digit, else the value of the digits |
| Decimal.AtoiOverflowClamps | backend/handlers/agency.go:278 | leading digits past 2^64 - 1 give MaxInt64, or MinInt64 after a minus sign, whatever follows them |
| Decimal.AtoiOverflowBeforeJunk | backend/handlers/agency.go:278 | digits that overflow, then a non-digit, read as the clamped bound and not as 0 |
| Decimal.AtoiJunkBeforeOverflow | backend/handlers/agency.go:278 | digits that fit in 64 bits, then a non-digit, read as 0 with or without a minus sign |
| Decimal.AtoiIntToString | backend/handlers/agency.go:278 | the decimal text of a 64-bit integer parses back to it |
| Decimal.AtoiRejectsEmpty | backend/handlers/agency.go:278 | a missing form value, and a lone sign, read as 0 with an error |
| Decimal.JsParseIntNatToString | frontend/src/components/PackageDetails.js:26 | `parseInt(String(n), 10)` gives n back |
| OneTimeCodes.SixDigitCode | backend/handlers/auth.go:137 | for every draw in [0, 900000) the code is six ASCII digits with no leading zero, whose value is 100000 + draw and so lies in [100000, 999999] |
| OneTimeCodes.SixDigitCodeInjective | backend/handlers/auth.go:137 | two draws give the same code exactly when they are equal |
| OneTimeCodes.LatestMatch | backend/handlers/auth.go:183-186 | the row found is the most recently inserted row with that email and code; nothing is found exactly when no row has both |
| OneTimeCodes.LatestMatchUnique | backend/handlers/auth.go:183-186 | the latest matching row is unique |
| OneTimeCodes.CheckCode | backend/handlers/auth.go:188-201 | the verdict is "no such code" iff no row matches, "already used" iff the latest match is used, "expired" iff it is unused and the instant is after its expiry, and valid (with that row's index) otherwise |
| OneTimeCodes.MarkUsed | backend/handlers/auth.go:267 | only the used flag of the chosen row changes; every other row, and every email and code, stays |
| OneTimeCodes.ReuseAfterUse | backend/handlers/auth.go:242-267 | after the valid code is marked used, every later check of the same email and code, at any instant, says "already used" |
| OneTimeCodes.FreshCodeValid | backend/handlers/auth.go:137-149 | a freshly inserted unused code is the valid one until it expires, whatever the table held before |
| OneTimeCodes.OtherEmailUnaffected | backend/handlers/auth.go:140-149 | inserting a row for one email leaves every check for another email unchanged |
| AuthHandlers.IsValidPassword | backend/handlers/auth.go:294-305 | the rule needs eight UTF-8 bytes and one character of each class, hence at least four characters, and eight on ASCII text |
| AuthHandlers.FourClassesFourChars | backend/handlers/auth.go:299-304 | the four classes are disjoint, so a password holding all of them has at least four characters |
| AuthHandlers.BytesNotCharacters | backend/handlers/auth.go:294-305 | the length test counts UTF-8 bytes: a six-character password with two accented letters passes the rule |
| AuthHandlers.ForgotPasswordReply | backend/handlers/auth.go:122-164 | an unknown email always gets the success status; a known one gets it exactly when the email was sent |
| AuthHandlers.UnknownEmailReplyDiffers | backend/handlers/auth.go:122-129 | the unknown-email reply has the success status of a real send but different wording |
| AuthHandlers.ResetCodeReply | backend/handlers/auth.go:188-206 | the reply is 200 exactly for a valid code and 400 for each of the three refusals |
| AuthHandlers.SetPassword | backend/handlers/auth.go:260 | only the named user's hash changes; no user is added or removed, and an unknown email changes nothing |
| AuthHandlers.PasswordResetService.ForgotPassword | backend/handlers/auth.go:108-165 | an unknown email stores nothing; a known one appends an unused six-digit code that expires an hour later; users never change; the reply is the one above |
| AuthHandlers.PasswordResetService.VerifyResetCode | backend/handlers/auth.go:167-207 | changes no state, so a valid code keeps verifying; the reply is 200 iff the latest matching row is unused and not expired |
| AuthHandlers.PasswordResetService.ResetPassword | backend/handlers/auth.go:209-276 | the password rule is checked before the code, and the code before the hash; any refusal changes nothing; success replaces that user's hash and marks exactly the found code used |
| AgencyHandlers.OtpReply | backend/handlers/agency.go:110-134 | the reply is 200 exactly for a valid code and 400 for "Invalid OTP", "already used" and "expired" |
| AgencyHandlers.VerifyOpensGate | backend/handlers/agency.go:126-157 | marking a verified code used makes the registration gate pass for that email |
| AgencyHandlers.OtpVerified | backend/handlers/agency.go:151-160 | the registration gate holds when some code row for the email is marked used |
| AgencyHandlers.GateStaysOpen | backend/handlers/agency.go:151-160 | marking any code used never closes an open gate |
| AgencyHandlers.SendKeepsGate | backend/handlers/agency.go:59-62 | storing a new unused code neither opens nor closes the registration gate |
| AgencyHandlers.FormValue | backend/handlers/agency.go:276 | a missing form key reads as "" |
| AgencyHandlers.GetInt | backend/handlers/agency.go:277-280 | `getInt` keeps Atoi's value and drops its error: 0 for a syntax error, the clamped bound when the leading digits leave the int64 range (junk after them included), else their signed value |
| AgencyHandlers.OverflowingCountPasses | backend/handlers/agency.go:277-280 | a count of overflowing digits followed by junk reads as MaxInt64, so it passes the `> 0` check of agency.go:300-301 |
| AgencyHandlers.GetBool | backend/handlers/agency.go:285-288 | `getBool` is true exactly for "true", "1" and "on" |
| AgencyHandlers.FieldsValid | backend/handlers/agency.go:300-304 | every text field is non-empty and the duration, the price and the traveller count are positive |
| AgencyHandlers.ReadFields | backend/handlers/agency.go:290-298 | is_active is `getBool` of its field, the two counts are `getInt` of theirs, and the price is the parsed price field |
| AgencyHandlers.ParsePackageRequest | backend/handlers/agency.go:300-314 | an invalid field gives 400 before the locations are looked at; an empty locations field gives []; a non-empty one that does not decode gives 400; a draft that proceeds has valid fields |
| AgencyHandlers.AgencyFromContext | backend/handlers/agency.go:264-268 | the request proceeds iff the context holds a non-zero agency id, and with that id; otherwise 401 |
| AgencyHandlers.PackageIdFromPath | backend/handlers/agency.go:427-432 | the request proceeds iff the path variable is an int numeral, and with its value; otherwise 400 |
| AgencyHandlers.UpdateOwned | backend/handlers/agency.go:493-501 | the length is kept; exactly the rows matching both the package id and the agency id are replaced, and every other row is unchanged |
| AgencyHandlers.RemoveOwned | backend/handlers/agency.go:524-525 | the rows left are exactly those not matching both ids, in their order; the length is kept iff nothing matched |
| AgencyHandlers.RemoveOwnedKeepsOthers | backend/handlers/agency.go:524 | a row of another agency survives the delete |
| AgencyHandlers.AgencyService.SendRegistrationOtp | backend/handlers/agency.go:26-87 | an empty email gives 400 and a registered one 409, both storing nothing; otherwise an unused six-digit code expiring 15 minutes later is appended, and the reply depends on the email outcome |
| AgencyHandlers.AgencyService.VerifyRegistrationOtp | backend/handlers/agency.go:89-135 | the reply follows the check of the latest matching code; only a valid code is marked used, and nothing else changes |
| AgencyHandlers.AgencyService.Register | backend/handlers/agency.go:137-206 | the gate (some used code for the email) is checked before the required fields and the password rule; the insert happens exactly when those pass, the password is hashed and the email is free, and appends one agency with the next id; a signing failure after the insert still stores the agency but replies 500; 200 exactly when the agency is inserted and the token signed |
| AgencyHandlers.AgencyService.CreatePackage | backend/handlers/agency.go:263-367 | 401, then field and locations errors, in that order; success appends one row owned by the caller with the next id; a refusal stores nothing |
| AgencyHandlers.AgencyService.UpdatePackage | backend/handlers/agency.go:421-508 | 401, then 400 for a bad id, then field errors; otherwise only rows with both ids are replaced, with 404 when there is none |
| AgencyHandlers.AgencyService.DeletePackage | backend/handlers/agency.go:510-541 | 401, then 400 for a bad id; otherwise only rows with both ids are removed, with 404 when there was none |
| AuthMiddleware.StripBearerPrefix | backend/middleware/auth.go:18 | a header "Bearer " + t yields the token t |
| AuthMiddleware.StripBearerAbsent | backend/middleware/auth.go:18 | a header without "Bearer " is passed on unchanged |
| AuthMiddleware.ContextFor | backend/middleware/auth.go:26-31 | role, username and user id equal the claims; the agency id is set iff the role is "agency", and then it is the claims' user id |
| AuthMiddleware.Authenticate | backend/middleware/auth.go:12-33 | a missing header gives 401 "Authorization header required", a token that does not validate gives 401 "Invalid token", and the request goes on iff neither happens, with the context built from the claims |
| AuthMiddleware.ContextRole | backend/middleware/auth.go:45 | a missing role reads as "" |
| AuthMiddleware.BuildRoleMap | backend/middleware/auth.go:38-41 | the set built by the loop holds exactly the listed roles |
| AuthMiddleware.RoleGate | backend/middleware/auth.go:44-51 | the request is forwarded, unchanged, iff its role is in the set; otherwise 403 |
| AuthMiddleware.MissingRoleForbidden | backend/middleware/auth.go:45-48 | a request without a role is refused when "" is not a listed role |
| AuthMiddleware.AgencyTokenPasses | backend/middleware/auth.go:10-53 | a valid agency token passes both the middleware and an "agency" gate, and the context carries its user id as the agency id |
| FeedbackHandlers.SplitWords | backend/handlers/feedback.go:367-384 | the loop computes exactly the maximal runs of characters other than ' ', '\n' and '\t', in order |
| FeedbackHandlers.FlushAtSeparator | backend/handlers/feedback.go:371-375 | a separator after a non-empty word emits that word and keeps the loop invariant |
| FeedbackHandlers.SkipSeparator | backend/handlers/feedback.go:371-374 | a separator with no pending word emits nothing and keeps the loop invariant |
| FeedbackHandlers.ExtendWord | backend/handlers/feedback.go:376-377 | any other character extends the pending word and keeps the loop invariant |
| FeedbackHandlers.FlushAtEnd | backend/handlers/feedback.go:380-383 | at the end of the input the pending word, if any, completes the word list |
| FeedbackHandlers.TakeWordBeforeSeparator | backend/handlers/feedback.go:370-377 | the word taken from w + t is w when w has no separator and t starts with one or is empty |
| FeedbackHandlers.ValidateFeedback | backend/handlers/feedback.go:37-77 | the request passes iff the type is one of the two, the rating and any hotel rating are in [0, 5], the text has at most 25 words, a trip plan names a district and an agency feedback names an agency; a bad type is reported first, then the rating, then the word count, then the district, then the hotel rating, then the missing agency; the agency message is given exactly when every earlier check passes on an agency feedback without an agency |
| FeedbackHandlers.StoredText | backend/handlers/feedback.go:80-83 | empty text is stored as "No additional comments", other text unchanged |
| FeedbackHandlers.NullString | backend/handlers/feedback.go:519-524 | NULL exactly for "", else the string itself |
| FeedbackHandlers.NullInt | backend/handlers/feedback.go:527-532 | NULL exactly for a missing value or 0, so a hotel rating of 0 is never stored as a value |
| FeedbackHandlers.StoredRow | backend/handlers/feedback.go:88-123 | the stored row carries the stored text, the rating and the nulled hotel fields; an agency feedback with an agency keeps the agency and no district, any other keeps the nulled district and no agency |
| FeedbackHandlers.AcceptedRowRated | backend/handlers/feedback.go:44-48 | every row stored from an accepted request has a rating in [0, 5] |
| FeedbackHandlers.ReviewSummary | backend/handlers/feedback.go:309-322 | total_reviews is the number of feedbacks; the average is the sum of ratings over that number, and 0 when there are none |
| FeedbackHandlers.SumRatingsBounds | backend/handlers/feedback.go:310-312 | with every rating in [0, 5] the sum lies in [0, 5n] |
| FeedbackHandlers.AverageInRange | backend/handlers/feedback.go:314-316 | over accepted rows the average lies in [0, 5] |
| FeedbackHandlers.DivBounds | backend/handlers/feedback.go:315 | a sum in [0, 5n] divided by n > 0 lies in [0, 5] |
| FeedbackHandlers.FeedbackStore.constructor | backend/handlers/feedback.go:24-135 | the table starts empty |
| FeedbackHandlers.FeedbackStore.Submit | backend/handlers/feedback.go:24-135 | a refused request gives 400 with the first failing check's message and stores nothing; an accepted one appends exactly its stored row with the next id |
| FeedbackHandlers.FeedbackStore.Delete | backend/handlers/feedback.go:326-361 | a missing id and a non-numeric id give 400 and change nothing; otherwise only the caller's row with that id is removed, and 404 is given when there was none |
| FeedbackHandlers.FeedbackStore.AgencySummary | backend/handlers/feedback.go:264-323 | the count is the number of that agency's rows, the average is their average, and it lies in [0, 5] |
| FeedbackHandlers.RemoveOwnFeedback | backend/handlers/feedback.go:348-350 | the rows left are exactly those not matching both the feedback id and the user id, in order; nothing changes iff nothing matched |
| Words.TakeWord | backend/handlers/feedback.go:370-377 | the word is the longest separator-free prefix: it is followed by a separator or the end |
| Words.DropSeps | backend/handlers/feedback.go:371-375 | what is dropped is a run of separators, and what remains does not start with one |
| Words.WordsOf | backend/handlers/feedback.go:367-384 | no word is empty and no word holds a separator |
| Words.ConcatWordsOf | backend/handlers/feedback.go:367-384 | the words, concatenated, are the input with every separator removed |
| Words.WordsOfCount | backend/handlers/feedback.go:51 | the number of words is the number of places where a word starts |
| Words.AllSepNoWords | backend/handlers/feedback.go:380-383 | an input of separators only has no words |
| Words.SplitRunsWords | frontend/src/components/Feedback.js:87-89 | splitting at separator runs and dropping empty pieces gives the same words |
| Words.TrimSplitWords | frontend/src/components/Feedback.js:87-89 | trimming and then splitting on `\s+` gives exactly the maximal runs of non-space characters |
| FeedbackPage.CountWordsRuns | frontend/src/components/Feedback.js:87-89 | the count is the number of maximal runs of non-white-space characters |
| FeedbackPage.CountWordsBlank | frontend/src/components/Feedback.js:87-89 | empty and white-space-only text counts 0 words |
| FeedbackPage.ClientCheck | frontend/src/components/Feedback.js:96-118 | more than 25 words is refused first, then a trip plan without a district, then a rating of 0, then an agency feedback without an agency; the form passes iff none applies |
| FeedbackPage.BuildPayload | frontend/src/components/Feedback.js:124-139 | the hotel rating is sent only when positive; empty hotel texts are sent as null; the district is sent iff the type is a trip plan and the agency id (parsed with `parseInt`) only for an agency feedback |
| FeedbackPage.Decode | backend/handlers/feedback.go:29-30 | the server reads each field of the body; a null or absent string reads as "" |
| FeedbackPage.ClientAcceptedServerAccepts | frontend/src/components/Feedback.js:96-143 | a form the page accepts, with a valid type and ratings and a text whose white space is only ' ', '\n' or '\t', passes the server's whole validation chain |
| FeedbackPage.ClientRejectsRatingZero | frontend/src/components/Feedback.js:109-112 | the page refuses a rating of 0 |
| FeedbackPage.ServerStoresRatingZero | backend/handlers/feedback.go:44-48 | the server accepts a trip-plan feedback with a rating of 0 |
| FeedbackPage.HotelRatingZeroNull | frontend/src/components/Feedback.js:130 | an untouched hotel rating of 0 ends up NULL in the stored row |
| FeedbackPage.CarriageReturnWords | backend/handlers/feedback.go:371 | n copies of "\r " are n words for the server and none for the page |
| FeedbackPage.LetterCarriageReturnWords | frontend/src/components/Feedback.js:88 | n copies of "a\r" are n words for the page and one word for the server |
| FeedbackPage.JsWordsOfLetters | frontend/src/components/Feedback.js:88 | n copies of "a\r" hold n runs of non-white-space characters |
| FeedbackPage.WordCountsDisagree | frontend/src/components/Feedback.js:96-100 | the two word counts disagree in both directions: there is text the page lets through and the server refuses, and text the page refuses and the server accepts |
| FeedbackPage.Stars | frontend/src/components/Feedback.js:192-195 | exactly five stars; star i is filled iff i <= rating |
| FeedbackPage.StarsFilled | frontend/src/components/Feedback.js:192-195 | the filled stars form a prefix whose length is the rating clamped to [0, 5] |
| FeedbackPage.MessageOf | frontend/src/components/Feedback.js:93-118 | the message is empty exactly when no check refused |
| FeedbackPage.FeedbackForm.constructor | frontend/src/components/Feedback.js:21-37 | the page opens on the type choice with no type and the default form |
| FeedbackPage.FeedbackForm.SelectType | frontend/src/components/Feedback.js:64-76 | sets the type, moves to the form step and resets all seven fields |
| FeedbackPage.FeedbackForm.ClickRating | frontend/src/components/Feedback.js:83-85 | only the named rating field changes |
| FeedbackPage.FeedbackForm.Submit | frontend/src/components/Feedback.js:91-141 | nothing is sent iff a check refuses, and then its message is shown; otherwise the payload built from the form is sent |
| FeedbackPage.ClickedRatingAccepted | frontend/src/components/Feedback.js:196 | clicking star k in [1, 5] on a fresh trip-plan form with a district makes it acceptable |
| Weather.ToForecast | backend/utils/weather.go:102-113 | a kept forecast has the item's date and humidity, and the description and icon of its first condition |
| Weather.SelectFromStep | backend/utils/weather.go:96-116 | one pass of the loop: an in-window item of an unseen date is kept and its date marked seen; any other item is skipped |
| Weather.ScanStep | backend/utils/weather.go:96-116 | each turn of the loop keeps the promise that the forecasts kept so far, followed by the selection of the remaining items, are the whole selection |
| Weather.SelectMidday | backend/utils/weather.go:94-117 | the loop over the items with the `processedDates` map returns exactly the midday selection |
| Weather.SelectFromDistinct | backend/utils/weather.go:101-115 | no kept forecast has a date already seen, and no two kept forecasts share a date |
| Weather.MiddayDistinctDates | backend/utils/weather.go:94-115 | the output holds at most one forecast per date |
| Weather.SelectFromInWindow | backend/utils/weather.go:98-101 | every kept forecast comes from an item whose hour is in [11, 14] |
| Weather.MiddayInWindow | backend/utils/weather.go:98-101 | every forecast in the output comes from an in-window item |
| Weather.SelectFromKeepsFirst | backend/utils/weather.go:101-115 | the first in-window item of an unseen date is kept |
| Weather.MiddayKeepsFirst | backend/utils/weather.go:101-115 | for each date, the first in-window item in input order is the one kept |
| Weather.FirstIndex | backend/utils/weather.go:96-101 | every in-window item has a first in-window item of its date at or before it |
| Weather.MiddayComplete | backend/utils/weather.go:96-116 | every date with at least one in-window item appears in the output |
| Weather.SelectFromInOrder | backend/utils/weather.go:96-116 | the kept forecasts are a subsequence of the items' forecasts |
| Weather.Forecasts | backend/utils/weather.go:96-113 | one forecast per item, in order |
| Weather.MiddayInOrder | backend/utils/weather.go:96-116 | output order follows input order |
| Weather.GetWeatherForecast | backend/utils/weather.go:58-120 | a missing API key, a failed request, an unreadable body, a non-200 status and unparsable JSON each give their own error message together with an error; otherwise city, country and the midday selection, with no error |
| Weather.FormatWeatherForTrip | backend/utils/weather.go:122-131 | an error gives the warning naming the destination; an error message without an error gives a warning with that message; only otherwise is the report built, from the kept forecasts |
| Weather.FailureWarnsByDestination | backend/utils/weather.go:122-130 | since an error and a message come together, every failure gives the warning naming the destination |
| Groq.DayOrZero | backend/utils/groq.go:39-40 | a date `time.Parse` rejects counts as the zero time |
| Groq.DayDifference | backend/utils/groq.go:41 | the whole-day difference of the two dates, saturated at the largest span a `time.Duration` holds |
| Groq.Duration | backend/utils/groq.go:41 | the day difference plus one, within the saturated bounds |
| Groq.DurationCountsDays | backend/utils/groq.go:39-41 | for valid dates within the bound the duration is the number of days from start to end inclusive, and at least 2 exactly when the end is after the start |
| Groq.UnparsableStart | backend/utils/groq.go:39-41 | an unparsable start counts from the zero time, so the duration saturates |
| Groq.Companions | backend/utils/groq.go:48-57 | 1 is "solo" and only 1; 2 is "couple" and only 2; any other n <= 5 (zero and negatives included) is "group of n"; above 5 it is "large group of n" |
| Groq.CompanionsInjective | backend/utils/groq.go:48-57 | different traveller counts give different texts |
| Groq.CompanionsFirstLetter | backend/utils/groq.go:53-56 | for counts other than 1 and 2 the text starts with "g" exactly when the count is at most 5 |
| Groq.IntToStringInjective | backend/utils/groq.go:54-56 | `%d` gives different numerals for different numbers |
| Groq.Activities | backend/utils/groq.go:61-74 | each of the five moods maps to its own text, and the default text is given exactly for every other mood |
| Groq.ClientDefaultMood | frontend/src/components/GenerateTrip.js:160-174 | of the moods the page offers, "culture" (its default), "food", "beach" and "shopping" get the default text; only "adventure" and "relaxation" get their own |
| Groq.TripPrompt | backend/utils/groq.go:32-74 | a missing key fails before anything else; otherwise the prompt states the duration, explores up to duration - 1, returns on day duration, and uses the companions and activities texts |
| Groq.SameDayTrip | backend/utils/groq.go:157-169 | a trip that starts and ends on the same day is one day long, with an empty exploration range and the return on day 1 |
| GenerateTripPage.FormatTripDetails | frontend/src/components/GenerateTrip.js:68-84 | one element per '\n'-separated line, each the classification of its line, in order |
| GenerateTripPage.ElementPerLine | frontend/src/components/GenerateTrip.js:69 | the number of elements is the number of '\n' plus one, and the lines joined back with '\n' are the text |
| GenerateTripPage.HeadingDropsLeadingMarker | frontend/src/components/GenerateTrip.js:70-71 | "##" is checked before "#", and only the leading "##" is removed |
| GenerateTripPage.TitleDropsLeadingMarker | frontend/src/components/GenerateTrip.js:72-73 | a line with a single leading "#" loses only that first "#" |
| GenerateTripPage.BoldOnlyBetweenMarkers | frontend/src/components/GenerateTrip.js:74-75 | a line is bold iff it is not a heading and both starts and ends with "**", and then every "**" is removed |
| GenerateTripPage.ListItemDropsBullet | frontend/src/components/GenerateTrip.js:76-77 | a line starting "- " or "* " becomes a list item without its first two characters |
| GenerateTripPage.PlainIsVerbatim | frontend/src/components/GenerateTrip.js:78-82 | a break comes only from a white-space-only line; plain text is the line verbatim; any line with a non-space character and none of the markers is plain |
| GenerateTripPage.CarriageReturnDefeatsBold | frontend/src/components/GenerateTrip.js:69-81 | a bold line followed by '\r' (text with "\r\n" line ends) is shown as plain text with its markers |
| GenerateTripPage.Submit | frontend/src/components/GenerateTrip.js:43-47 | the date error is set and nothing is sent iff both dates are valid and the start is not before the end; otherwise the dates are sent |
| GenerateTripPage.SentTripsLastTwoDays | frontend/src/components/GenerateTrip.js:43-47 | every trip with two valid dates the page sends lasts at least two days on the server, and a same-day trip is refused |
| SavedTripsPage.Preview | frontend/src/components/SavedTrips.js:142 | the card shows the whole text up to 100 characters, and otherwise its first 100 characters |
| SavedTripsPage.WithoutKeepsOthers | frontend/src/components/SavedTrips.js:55 | the trips left are exactly those with another id, in their order; nothing changes when no trip has the id |
| SavedTripsPage.SavedTrips.constructor | frontend/src/components/SavedTrips.js:7-10 | no trips and no selection before loading |
| SavedTripsPage.SavedTrips.Loaded | frontend/src/components/SavedTrips.js:23-39 | a loaded list replaces the trips; a failed load keeps them |
| SavedTripsPage.SavedTrips.Select | frontend/src/components/SavedTrips.js:126 | a click opens that trip |
| SavedTripsPage.SavedTrips.Close | frontend/src/components/SavedTrips.js:153 | the close button clears the selection |
| SavedTripsPage.SavedTrips.Delete | frontend/src/components/SavedTrips.js:41-62 | without confirmation or after a failed request nothing changes; otherwise the trips with that id go and the selection is cleared iff it was that trip |
| TravelPackagesPage.Filtered | frontend/src/components/TravelPackages.js:30-37 | a blank search returns the list unchanged; otherwise a package is kept iff the lowered search occurs in its lowered "title location initial_destination agency_name", and it is kept as many times as it occurs in the list; the result is an order-preserving subsequence |
| TravelPackagesPage.BlankSearchShowsAll | frontend/src/components/TravelPackages.js:31 | an empty or white-space-only search shows every package |
| TravelPackagesPage.LowerAppend | frontend/src/components/TravelPackages.js:33-34 | lowering distributes over concatenation |
| TravelPackagesPage.LoweredPrefixContains | frontend/src/components/TravelPackages.js:33-35 | text found in the lowered start of the haystack is found in the whole |
| TravelPackagesPage.TitleMatchKept | frontend/src/components/TravelPackages.js:32-35 | a package whose title holds the search, ignoring case, is kept |
| TravelPackagesPage.SearchSpansFields | frontend/src/components/TravelPackages.js:33 | the fields are searched as one text, so a search can run across two fields |
| TravelPackagesPage.UntrimmedSearch | frontend/src/components/TravelPackages.js:31-35 | the search is trimmed only for the blank test: " goa" misses a package that "goa" finds |
| RegisterPage.Score | frontend/src/components/Register.js:23-35 | at most five checks hold, and all five exactly when upper, lower, digit, special and length >= 8 all hold |
| RegisterPage.StrengthOf | frontend/src/components/Register.js:29-39 | no rating exactly for the empty password; otherwise Weak iff at most two checks hold, Medium iff three or four, Strong iff all five |
| RegisterPage.OkIffStrong | frontend/src/components/Register.js:29-41 | the password is accepted iff the meter reads Strong; the empty password is refused and leaves the meter blank |
| RegisterPage.Utf8AtLeastUtf16 | frontend/src/components/Register.js:27 | no text takes fewer UTF-8 bytes than UTF-16 units |
| RegisterPage.ClientRuleImpliesServerRule | frontend/src/components/Register.js:22-42 | every password the page accepts, the server's `isValidPassword` accepts; on ASCII text the two rules agree |
| RegisterPage.ServerAcceptsWhatClientRefuses | frontend/src/components/Register.js:27 | the converse fails: a six-character password with two accented letters is long enough for the server (eight bytes) and too short for the page (six units) |
| RegisterPage.RegisterForm.constructor | frontend/src/components/Register.js:15-17 | empty fields, no rating, no error |
| RegisterPage.RegisterForm.EditPassword | frontend/src/components/Register.js:44-55 | the meter follows the typed password and the error is cleared |
| RegisterPage.RegisterForm.EditConfirmPassword | frontend/src/components/Register.js:44-50 | the confirmation changes and the error is cleared |
| RegisterPage.RegisterForm.Submit | frontend/src/components/Register.js:57-72 | a mismatch is reported before the strength check and leaves the meter; the password is sent iff both match and it passes the rule |
| AgencyRegisterPage.DigitsOnly | frontend/src/components/AgencyRegister.js:151 | only ASCII digits are kept, each digit as many times as it occurs in the input, so no digit is dropped or added |
| AgencyRegisterPage.DigitsOnlyInOrder | frontend/src/components/AgencyRegister.js:151 | the digits come out in the order they were typed |
| AgencyRegisterPage.DigitsOnlyIsFilter | frontend/src/components/AgencyRegister.js:151 | removing every non-digit is the order-preserving filter on digits |
| AgencyRegisterPage.DigitsOnlyKeepsDigits | frontend/src/components/AgencyRegister.js:151 | a string of digits passes through unchanged |
| AgencyRegisterPage.SanitizeOtp | frontend/src/components/AgencyRegister.js:151 | the code keeps only digits, at most six of them: the first six digits typed |
| AgencyRegisterPage.SanitizeIdempotent | frontend/src/components/AgencyRegister.js:151 | sanitising twice is sanitising once, and a code of at most six digits is kept as typed |
| Http.FailureText | frontend/src/components/AgencyRegister.js:75-76 | the server's non-empty text when there is one, else the fallback message |
| AgencyRegisterPage.SendRefusal | frontend/src/components/AgencyRegister.js:46-62 | missing fields are refused first, then a mismatch, then a weak password; nothing is refused iff all three pass |
| AgencyRegisterPage.AgencyRegisterFlow.constructor | frontend/src/components/AgencyRegister.js:7-16 | the page opens on the form step with no code and no error |
| AgencyRegisterPage.AgencyRegisterFlow.SendOtp | frontend/src/components/AgencyRegister.js:41-80 | the request is sent iff no check refuses; the code step opens only when it succeeds; a failure keeps the step and shows the server's text |
| AgencyRegisterPage.AgencyRegisterFlow.EditOtp | frontend/src/components/AgencyRegister.js:151 | the code field holds the sanitised input and the error is cleared |
| AgencyRegisterPage.AgencyRegisterFlow.VerifyOtp | frontend/src/components/AgencyRegister.js:82-135 | a code that is not six units long is refused without a request; registration is asked for iff verification succeeded; a failed registration shows the server's text or "Invalid OTP" |
| AgencyRegisterPage.AgencyRegisterFlow.Back | frontend/src/components/AgencyRegister.js:171-173 | back to step 1 with the code and the error cleared |
| AgencyRegisterPage.SanitizedOtpSent | frontend/src/components/AgencyRegister.js:87-151 | a sanitised code is six units long exactly when at least six digits were typed (the code's digits are every typed digit, in order) |
| ResetPasswordPage.ResetFlow.constructor | frontend/src/components/ResetPassword.js:6-12 | the flow starts at step 1 with every field empty |
| ResetPasswordPage.ResetFlow.EditEmail | frontend/src/components/ResetPassword.js:93 | the address field holds the typed value |
| ResetPasswordPage.ResetFlow.EditCode | frontend/src/components/ResetPassword.js:121 | the code field holds the typed value |
| ResetPasswordPage.ResetFlow.EditNewPassword | frontend/src/components/ResetPassword.js:9 | the new-password field holds the typed value |
| ResetPasswordPage.ResetFlow.EditConfirmPassword | frontend/src/components/ResetPassword.js:10 | the confirmation field holds the typed value |
| ResetPasswordPage.ResetFlow.SendCode | frontend/src/components/ResetPassword.js:17-35 | step 2 is reached only when the send-code request succeeds, with the server's message; a failure keeps the step and shows the server's text or "Failed to send code" |
| ResetPasswordPage.ResetFlow.VerifyCode | frontend/src/components/ResetPassword.js:37-53 | step 3 is reached only when the verify request succeeds; a failure keeps the step and shows the server's text or "Invalid code" |
| ResetPasswordPage.ResetFlow.Resend | frontend/src/components/ResetPassword.js:134 | "Resend Code" goes back to step 1 and keeps the address |
| ResetPasswordPage.ResetFlow.ResetPassword | frontend/src/components/ResetPassword.js:55-78 | a mismatch sets its error and sends no request; otherwise the reply's message or error is shown, and the step stays |
| LocationSearchBox.Locality | frontend/src/components/LocationSearch.js:74-76 | the first present of city, town and village, and nothing when none is present |
| LocationSearchBox.DisplayParts | frontend/src/components/LocationSearch.js:72-82 | at most three parts, none of them empty |
| LocationSearchBox.JoinNonEmpty | frontend/src/components/LocationSearch.js:84 | joining parts whose first is non-empty gives a non-empty name that starts with that part |
| LocationSearchBox.DisplayNameLayout | frontend/src/components/LocationSearch.js:71-85 | the locality comes first; a present state that differs from the locality is included; a state equal to the locality is not repeated; the country comes last; the result's own display name is used only when there are no parts |
| LocationSearchBox.OrEmpty | frontend/src/components/LocationSearch.js:56-57 | `field \|\| ''`: the field when present, else "" |
| LocationSearchBox.ToSuggestion | frontend/src/components/LocationSearch.js:53-59 | the city is the first present of city, town and village, else ""; the display name is the formatted one; the name is the result's own |
| LocationSearchBox.ToSuggestions | frontend/src/components/LocationSearch.js:53 | one suggestion per result, in order |
| LocationSearchBox.SelectedValue | frontend/src/components/LocationSearch.js:94 | the suggestion's city, or else the first comma-separated piece of its display name |
| LocationSearchBox.SplitOnFirstPiece | frontend/src/components/LocationSearch.js:94 | the first piece of a split is the text before the first separator |
| LocationSearchBox.SelectWithoutLocality | frontend/src/components/LocationSearch.js:84-94 | picking a suggestion with no locality yields the first part of its display name (the state, or else the country) when that part holds no comma |
| LocationSearchBox.SearchBox.constructor | frontend/src/components/LocationSearch.js:5-7 | the input starts with the given value and a closed, empty list |
| LocationSearchBox.SearchBox.Input | frontend/src/components/LocationSearch.js:87-91 | the typed text goes into the input and to the parent |
| LocationSearchBox.SearchBox.QuerySettled | frontend/src/components/LocationSearch.js:26-69 | a search runs iff the query is at least 3 units long; a shorter query and a failed search clear the list; results replace it and open it |
| LocationSearchBox.SearchBox.Select | frontend/src/components/LocationSearch.js:93-99 | the chosen value goes into the input and to the parent; the list closes and empties |
| LocationSearchBox.SearchBox.ClickOutside | frontend/src/components/LocationSearch.js:17-21 | a press outside closes the list |
| LocationSearchBox.SearchBox.Focus | frontend/src/components/LocationSearch.js:101-105 | focusing reopens the list only when it has items |
| PackageDetailsPage.NextIndex | frontend/src/components/PackageDetails.js:67-73 | from a valid index the next one is valid: one on, or back to 0 after the last photo |
| PackageDetailsPage.PrevIndex | frontend/src/components/PackageDetails.js:59-65 | from a valid index the previous one is valid: one back, or the last photo from 0 |
| PackageDetailsPage.PrevNextInverse | frontend/src/components/PackageDetails.js:59-73 | next then previous, and previous then next, return to the same photo |
| PackageDetailsPage.ForwardPosition | frontend/src/components/PackageDetails.js:67-73 | k presses of next (k at most the photo count) move k places on, wrapping once |
| PackageDetailsPage.FullCircle | frontend/src/components/PackageDetails.js:67-73 | as many presses of next as there are photos come back to the first photo shown |
| PackageDetailsPage.Gallery.constructor | frontend/src/components/PackageDetails.js:13 | the gallery opens on the first photo |
| PackageDetailsPage.Gallery.Next | frontend/src/components/PackageDetails.js:67-73 | with photos the index moves to the next one and stays valid; without photos nothing changes |
| PackageDetailsPage.Gallery.Show | frontend/src/components/PackageDetails.js:142 | a thumbnail click makes its photo the large one |
| PackageDetailsPage.Gallery.Prev | frontend/src/components/PackageDetails.js:59-65 | with photos the index moves to the previous one and stays valid; without photos nothing changes |
| PackageDetailsPage.FindPackage | frontend/src/components/PackageDetails.js:25-27 | the index of the first package whose id equals `parseInt(id, 10)`, and none exactly when no package has that id |
| PackageDetailsPage.FindFrom | frontend/src/components/PackageDetails.js:25-27 | the first match at or after a position, and none exactly when there is none |
| PackageDetailsPage.LoadPackage | frontend/src/components/PackageDetails.js:19-52 | a failed request shows "Failed to load package details"; no match shows "Package not found"; otherwise the first match is shown |
| PackageDetailsPage.LinkFindsPackage | frontend/src/components/PackageDetails.js:25-29 | the page for the decimal id of a package shows that package when no earlier package has the same id |
| PackageDetailsPage.StarString | frontend/src/components/PackageDetails.js:301 | five stars for a rating from 0 to 5; any other rating makes `repeat` throw |
| PackageDetailsPage.StarStringMatchesForm | frontend/src/components/PackageDetails.js:288-301 | star i is filled exactly when the review form fills it, and r stars are filled |
| PackageDetailsPage.CountRun | frontend/src/components/PackageDetails.js:301 | a run of n copies of a character holds n of it and none of any other |
| PackageDetailsPage.CountCharAppend | frontend/src/components/PackageDetails.js:301 | counting a character in a concatenation adds the two counts |
| PackageDetailsPage.StoredTextShown | frontend/src/components/PackageDetails.js:304 | a stored review shows its text exactly when its author wrote a text other than the default sentence |
| PackageDetailsPage.StoredHotelRatingShown | frontend/src/components/PackageDetails.js:307-315 | a stored review shows hotel stars exactly when its author named a hotel and gave a non-zero hotel rating |
| PackageDetailsPage.HotelNameRead | backend/handlers/feedback.go:271 | a NULL hotel name is read as the empty string, any other as stored |
| PackageDetailsPage.UnnamedHotelRatingHidden | frontend/src/components/PackageDetails.js:307-311 | a hotel rating sent without a hotel name is stored but its stars are never shown |
| PackageDetailsPage.Connectors | frontend/src/components/PackageDetails.js:175-179 | one entry per stop |
| PackageDetailsPage.CountTrueAll | frontend/src/components/PackageDetails.js:179 | a list that is true exactly on its first k entries has k true entries |
| PackageDetailsPage.ConnectorCount | frontend/src/components/PackageDetails.js:175-179 | n stops are joined by n - 1 lines, and the last stop has none |
| AgencyPackagesPage.RemoveAt | frontend/src/components/AgencyPackages.js:88-90 | `filter((_, i) => i !== idx)`: the list without the entry at idx, and the same list for an index out of range |
| AgencyPackagesPage.RemoveAtLength | frontend/src/components/AgencyPackages.js:109-113 | removing the same index from two lists of equal length leaves equal lengths, one shorter when the index is in range |
| AgencyPackagesPage.RemoveAtKeeps | frontend/src/components/AgencyPackages.js:88-90 | every other entry keeps its order, one place earlier when it came after the removed one |
| AgencyPackagesPage.NumberText | frontend/src/components/AgencyPackages.js:125-126 | the text `String(n)` gives is read back to n by the server's integer parse, for every n of magnitude at most 2^53 |
| AgencyPackagesPage.FormOf | frontend/src/components/AgencyPackages.js:168-180 | the edit prefill copies the text fields and the flag, and its number texts read back to the stored numbers when these are at most 2^53 in magnitude |
| AgencyPackagesPage.BoolTextRoundTrip | frontend/src/components/AgencyPackages.js:129 | the server's flag parse reads back the flag the form sends |
| AgencyPackagesPage.Body | frontend/src/components/AgencyPackages.js:119-130 | each form field is sent under its own key, the flag as text the server reads back, and the stops as their JSON text |
| AgencyPackagesPage.EditSaveRoundTrip | frontend/src/components/AgencyPackages.js:119-180 | saving a stored, valid package without changes, whose counts are at most 2^53, makes the server read back the same fields and stops |
| AgencyPackagesPage.PreviewOf | frontend/src/components/AgencyPackages.js:453-458 | at most the first three stops are shown, in order, and the rest are counted as "+k more" |
| AgencyPackagesPage.PackageEditor.constructor | frontend/src/components/AgencyPackages.js:19-31 | the editor opens empty, with the default form and no package being edited |
| AgencyPackagesPage.PackageEditor.Fetched | frontend/src/components/AgencyPackages.js:36-53 | a loaded list replaces the packages; a failed load keeps them and sets "Failed to load packages" |
| AgencyPackagesPage.PackageEditor.ResetForm | frontend/src/components/AgencyPackages.js:63-70 | no package is edited and the form, stops, stop input, files and previews are back to their defaults |
| AgencyPackagesPage.PackageEditor.AddLocation | frontend/src/components/AgencyPackages.js:81-86 | a non-blank input is added trimmed at the end and the input clears; a blank one changes nothing |
| AgencyPackagesPage.PackageEditor.RemoveLocation | frontend/src/components/AgencyPackages.js:88-90 | the stop at idx leaves the list |
| AgencyPackagesPage.PackageEditor.AddPhotos | frontend/src/components/AgencyPackages.js:100-107 | the chosen files are appended, each with its preview at the same index |
| AgencyPackagesPage.PackageEditor.RemovePhoto | frontend/src/components/AgencyPackages.js:109-113 | a file and its preview leave together, so files and previews stay paired |
| AgencyPackagesPage.PackageEditor.Edit | frontend/src/components/AgencyPackages.js:168-186 | the package's id is the one edited, the form is its prefill, its stops are loaded and no files are chosen |
| AgencyPackagesPage.PackageEditor.SaveRequest | frontend/src/components/AgencyPackages.js:115-159 | the error line is cleared; a PUT to the edited id when that id is present and not 0, else a POST; the body is the form's and the files are the chosen ones |
| AgencyPackagesPage.PackageEditor.SaveFailed | frontend/src/components/AgencyPackages.js:162-165 | the server's non-empty text, else "Failed to save package" |
| AgencyPackagesPage.PackageEditor.Delete | frontend/src/components/AgencyPackages.js:188-205 | on success only the packages with that id leave the list; on failure the list stays and "Failed to delete package" is set |
| AgencyPackagesPage.DeleteKeepsOthers | frontend/src/components/AgencyPackages.js:201 | a package stays after a delete exactly when its id differs from the deleted one |
| TripMapView.FamousKeys | frontend/src/components/TripMap.js:127-128 | the famous places' names, in table order, as written |
| TripMapView.DistrictKeys | frontend/src/components/TripMap.js:133-134 | the district names, in table order, lowered |
| TripMapView.FirstMatch | frontend/src/components/TripMap.js:127-136 | the first key at or after a position that contains the place or is contained in it, and none exactly when no key does |
| TripMapView.PlaceCoordinates | frontend/src/components/TripMap.js:123-140 | a missing or empty name has no coordinates; otherwise the first famous place whose key matches the lowered, trimmed name wins; with no famous match the first matching district gives the coordinates; nothing exactly when neither table matches |
| TripMapView.Locate | frontend/src/components/TripMap.js:127-139 | over any two tables: the first matching famous entry, else the first matching district entry, else nothing exactly when no key of either matches |
| TripMapView.ScanKeys | frontend/src/components/TripMap.js:127-136 | the early-returning scan finds the first matching key, or none |
| TripMapView.GetPlaceCoordinates | frontend/src/components/TripMap.js:123-140 | the famous places are scanned first, then the districts, on the lowered and trimmed name |
| TripMapView.BlankNameFindsFirstFamous | frontend/src/components/TripMap.js:124-128 | a name of white space only trims to the empty string, which every key contains, so it lands on the first famous place |
| TripMapView.MysoreNormalised | frontend/src/components/TripMap.js:125 | "Mysore" lowered and trimmed is "mysore" |
| TripMapView.MysoreDistrictKey | frontend/src/components/TripMap.js:134 | "mysore" matches the district key "mysuru (mysore)" |
| TripMapView.MysoreFamousKey | frontend/src/components/TripMap.js:128 | "mysore" matches the first famous place |
| TripMapView.FamousHit | frontend/src/components/TripMap.js:127-130 | a name whose first famous match is known lands on that place |
| TripMapView.FamousBeforeDistrict | frontend/src/components/TripMap.js:123-140 | a name that lowers and trims to "mysore" matches a district too, but lands on the palace because the famous places come first |
| TripMapView.DistrictAt | frontend/src/components/TripMap.js:145-146 | an exact key lookup finds a value exactly when the table has that key |
| TripMapView.DistrictFrom | frontend/src/components/TripMap.js:145-146 | the lookup from a position on finds the value stored under the key |
| TripMapView.SourceCoords | frontend/src/components/TripMap.js:145 | the source district's coordinates, or the Bengaluru default when the source is not in the table |
| TripMapView.DestinationCoords | frontend/src/components/TripMap.js:146 | the destination district's coordinates, or the source's when the destination is not in the table |
| TripMapView.Lookups | frontend/src/components/TripMap.js:158-159 | one lookup per listed place, in order |
| TripMapView.MarkerFor | frontend/src/components/TripMap.js:159-169 | a place gets a marker exactly when the lookup found it |
| TripMapView.HitsIncreasing | frontend/src/components/TripMap.js:158-169 | the places found are listed in increasing order |
| TripMapView.HitsFound | frontend/src/components/TripMap.js:158-169 | a place is among the hits exactly when the lookup found it |
| TripMapView.PlaceMarkersHits | frontend/src/components/TripMap.js:158-169 | there is one place marker per hit, and marker k belongs to hit k |
| TripMapView.BuildMarkers | frontend/src/components/TripMap.js:143-181 | the pushes build the source marker, the place markers and the destination marker |
| TripMapView.MarkersEnds | frontend/src/components/TripMap.js:143-181 | the markers are the source marker, the place markers and the destination marker, two more than the hits |
| TripMapView.MarkerBetween | frontend/src/components/TripMap.js:157-170 | each marker between the ends is a place marker at the coordinates found for its hit, labelled with that place's position counted from 1 |
| TripMapView.PushPlaceMarkers | frontend/src/components/TripMap.js:157-170 | the `forEach` loop pushes the marker of each found place, in list order |
| TripMapView.MarkersLayout | frontend/src/components/TripMap.js:143-181 | the source comes first and the destination last; between them each found place in list order, labelled with its position in the whole list |
| TripMapView.NoPlacesTwoMarkers | frontend/src/components/TripMap.js:157 | without places, or with an empty list, only the two end markers are made |
| TripMapView.Positions | frontend/src/components/TripMap.js:184-187 | the markers' positions, in order |
| TripMapView.Center | frontend/src/components/TripMap.js:236-241 | the first marker's position, or the Karnataka default when there are no markers |
| TripMapView.CenterIsSource | frontend/src/components/TripMap.js:143-241 | the map is centred on the source, which is also the first bound |
| TripMapView.Route | frontend/src/components/TripMap.js:190-233 | with a key and two markers the service's geometry with each pair swapped, the previous route for an answer without geometry, else the straight line through the markers |
| TripMapView.RouteWithoutKey | frontend/src/components/TripMap.js:197-224 | a trip always has two markers; without a key the route is the straight line from the source |
| PdfExport.LeadingDigits | frontend/src/utils/pdfGenerator.js:197 | the digits a line starts with: all of them are digits and the next character is not |
| PdfExport.BlockCount | frontend/src/utils/pdfGenerator.js:77-81 | splitting the text on line breaks gives one block more than there are line breaks |
| PdfExport.RenderLines | frontend/src/utils/pdfGenerator.js:77-216 | the loop yields the blocks of the text, one more than the number of line breaks |
| PdfExport.ConcatAppend | frontend/src/utils/pdfGenerator.js:169 | appending a piece to the output extends it by that piece |
| PdfExport.JoinPieces | frontend/src/utils/pdfGenerator.js:159-171 | the output is every piece in order, and the font left set is bold exactly when the number of pieces is even |
| PdfExport.RenderBold | frontend/src/utils/pdfGenerator.js:156-178 | the drawn text is the line with every `**` removed, and the font in force is the one set for the last piece |
| PdfExport.HeadingLevels | frontend/src/utils/pdfGenerator.js:93-144 | one, two or three `#` followed by a space give that heading level with the marker dropped; four `#` give no heading |
| PdfExport.NoHeadingMarker | frontend/src/utils/pdfGenerator.js:93-130 | a line that does not start with `#` starts no heading marker |
| PdfExport.MarkersBeforeBullets | frontend/src/utils/pdfGenerator.js:147-181 | a rule is checked before bold markers, and bold markers before bullets, so a bullet with bold text is drawn as a bold line |
| PdfExport.BulletText | frontend/src/utils/pdfGenerator.js:181-185 | a bullet holds no bold markers and drops its two-character marker |
| PdfExport.SplitOnStarFree | frontend/src/utils/pdfGenerator.js:160 | a piece without asterisks followed by a marker splits off whole |
| PdfExport.SplitOnStarless | frontend/src/utils/pdfGenerator.js:160 | text without asterisks is a single piece |
| PdfExport.BalancedPieces | frontend/src/utils/pdfGenerator.js:156-171 | a line with one balanced pair of markers splits into three pieces and is drawn without the markers |
| PdfExport.BalancedMarkersDrawnNormal | frontend/src/utils/pdfGenerator.js:159-174 | with one bold piece between balanced markers, the whole line is drawn in the normal font, since the font is set per piece but the text is drawn once |
| PdfExport.IndentedHeadingKept | frontend/src/utils/pdfGenerator.js:81-127 | lines are trimmed first, so an indented heading is drawn as a heading |
| PdfExport.IndentedHeadingPlainOnPage | frontend/src/components/GenerateTrip.js:68-84 | the page showing the same text does not trim, so there the indented heading is plain text |
| PdfExport.SpacingOnlyForBlank | frontend/src/utils/pdfGenerator.js:81-85 | a line is a gap exactly when it is blank |
| PdfExport.NumbersAndTextVerbatim | frontend/src/utils/pdfGenerator.js:197-215 | a numbered item and plain text keep the trimmed line as it is |
| PdfExport.CleanChar | frontend/src/utils/pdfGenerator.js:243 | an ASCII letter or digit is kept; any other character becomes one underscore per UTF-16 unit, so the UTF-16 length is kept |
| PdfExport.CleanOutsideBasicPlane | frontend/src/utils/pdfGenerator.js:243 | a character outside the basic plane becomes two underscores |
| PdfExport.CleanText | frontend/src/utils/pdfGenerator.js:243 | the sanitised text holds only ASCII letters, digits and underscores |
| PdfExport.CleanKeepsLength | frontend/src/utils/pdfGenerator.js:243 | sanitising keeps the length in UTF-16 units, and the number of characters for text inside the basic plane |
| PdfExport.JsLengthAppend | frontend/src/utils/pdfGenerator.js:243 | UTF-16 length adds over concatenation |
| PdfExport.CleanTextOnAlnum | frontend/src/utils/pdfGenerator.js:243 | text of letters and digits is kept as it is |
| PdfExport.CleanDestination | frontend/src/utils/pdfGenerator.js:242-244 | a missing or empty destination gives "Destination"; any other is sanitised |
| PdfExport.SlashesToDashes | frontend/src/utils/pdfGenerator.js:249 | every slash of the date becomes a dash and nothing else changes |
| PdfExport.FileName | frontend/src/utils/pdfGenerator.js:246-249 | the name is "Trip_to_", the cleaned destination, "_", the date with its slashes turned into dashes, and ".pdf"; it holds no slash |
| PdfExport.CleanTextAppend | frontend/src/utils/pdfGenerator.js:243 | sanitising works character by character |
| PdfExport.CleanTwoWords | frontend/src/utils/pdfGenerator.js:242-244 | two words with one separator keep the words and have the separator replaced by an underscore |

## Left out

- SQL: queries run on tables modelled as sequences of records. Ordering, `LIMIT`, joins, cascades and database errors are not modelled.
- HTTP and JSON plumbing: the router, CORS and JSON decoding are not modelled. Neither is the multipart parsing or the file writes for package photos (`backend/handlers/agency.go:316-335`). A decoded request is a parameter.
- `GetAgencyPackages`, `GetPublicTravelPackages` and the other listing handlers only read the database, so they are not modelled.
- The admin handlers and `backend/handlers/trip.go` are plain database CRUD and are not part of this model. Neither are the screens that only call HTTP (login, admin, navigation and static pages).
- `backend/utils/travelCost.go` is floating-point distance and cost arithmetic plus a call to a routing service. It is not part of this model.
- Floating point:
  - weather readings are dropped;
  - package prices are `real`, read by a `parseFloat` parameter;
  - the review average is a `real`, and its display rounding is not modelled.
- bcrypt hashing, JWT signing and validation, and email sending are parameters or outcomes. So are `time.Now` and `rand.Intn`. The timezone behaviour of `time.Unix` is not modelled: dates and hours are inputs.
- The Groq API call and the wording of the prompt are not modelled. Only the values computed for the prompt are.
- The drawing is not modelled: Leaflet's map, jsPDF's coordinates, text wrapping, page breaks and footers. The page's `yPosition` bookkeeping is left out too.
- The geometry of the routing service's answer is taken as given. Coordinates are opaque pairs of reals.
- Timers, requests and listeners are not modelled: the location box's debounce timer, its geocoder request and its click-outside listener. The request's outcome is a parameter.
- `toLowerCase` is modelled on ASCII letters only. Other letters are left unchanged, whereas JavaScript maps them too.
- On the agency sign-up and package pages, a failure reply whose body is not a string is modelled as `None`. Those pages test the type and show their fallback message, as they do when there is no reply.
- ResetPasswordPage.ResetFlow: the page stores `err.response?.data || fallback` without testing its type, so a non-string body would be stored unchanged; the model covers string bodies only. Every refusal of the reset handlers in `backend/handlers/auth.go` is `http.Error` text.
- `DISTRICT_COORDS[name]` in `TripMap.js` is an object lookup. Names of `Object.prototype` members such as `toString` find a function there. The model looks up only the table's own keys.
- `Weather.SelectMidday` and `Weather.GetWeatherForecast` require that the first kept item of each date has a non-empty `weather` list. The source indexes `Weather[0]` without checking, and would panic otherwise.
- `AgencyPackagesPage.PackageEditor` has no method for `handleChange`, which copies one input into the form by field name.
- `SavedTripsPage.Preview` counts characters. JavaScript's `substring(0, 100)` counts UTF-16 units, so the two differ on text outside the basic plane.
- `SavedTripsPage.PanelElements` and `AgencyPackagesPage.PreviewText` have no contract of their own. The first is `GenerateTripPage.FormatTripDetails`; the second is stated through `AgencyPackagesPage.PreviewOf`.
- `PackageDetailsPage.StarString` is defined for ratings from 0 to 5. For a rating outside that range one of the two `repeat` counts is negative and JavaScript throws; the model gives `None`.
- JavaScript's `parseInt` is modelled without the loss of precision above 2^53.
- AgencyPackagesPage.NumberText: the package page reads its counts from JSON as doubles. A count above 2^53 in magnitude is rounded in the browser, and `String` then prints the shortest decimal of that double. The model keeps the exact numeral and promises the read-back only up to 2^53.
- AgencyPackagesPage.FormOf: the number texts of the edit prefill are promised to read back only for counts up to 2^53, for the reason given for NumberText.
- AgencyPackagesPage.EditSaveRoundTrip: the round trip is proved only for counts up to 2^53. Above that the browser sends a rounded count, which the server stores.
- AgencyPackagesPage.PackageEditor.SaveRequest: the PUT target is the edited id as an integer. A package id above 2^53 would be rounded in the browser's URL, which the model does not capture.

=== FILE: AgencyHandlers.dfy ===
/** Agency registration by one-time password and the owner-scoped package
    handlers of backend/handlers/agency.go. */
module AgencyHandlers {
  import opened Text
  import opened Maybe
  import opened Decimal
  import opened Http
  import opened OneTimeCodes
  import opened Seqs
  import AuthHandlers

  /** Registration codes live for 15 minutes; instants are counted in seconds. */
  const OtpLifetime := 900

  const FieldsMessage := "All fields are required and must be valid"

  /** The reply of `VerifyAgencyRegistrationOTP`; the password-reset check
      has its own texts, in `AuthHandlers.ResetCodeReply`. */
  function OtpReply(st: CodeStatus): (r: Response)
    ensures r.status == StatusOK <==> st.Valid?
    ensures !st.Valid? ==> r.status == StatusBadRequest
  {
    match st
    case NoSuchCode => Response(StatusBadRequest, "Invalid OTP")
    case AlreadyUsed => Response(StatusBadRequest, "OTP already used")
    case Expired => Response(StatusBadRequest, "OTP expired")
    case Valid(_) => Response(StatusOK, "OTP verified successfully")
  }

  /** A row of `travel_agencies`. */
  datatype AgencyRow = AgencyRow(agencyId: int, name: string, email: string, phone: string,
                                 website: string, passwordHash: string)

  predicate EmailRegistered(agencies: seq<AgencyRow>, email: string) {
    exists i :: 0 <= i < |agencies| && agencies[i].email == email
  }

  /** `AgencyRegister` reaches its insert: the gate is open, the fields are
      present, the password passes the rule, it could be hashed, and the
      email is not taken yet. */
  predicate Inserted(agencies: seq<AgencyRow>, otps: seq<CodeRow>, name: string, email: string,
                     password: string, hashed: Option<string>) {
    OtpVerified(otps, email) && name != "" && email != "" && AuthHandlers.IsValidPassword(password) &&
    hashed.Some? && !EmailRegistered(agencies, email)
  }

  /** The registration gate: some agency code for the email has been used. */
  predicate OtpVerified(otps: seq<CodeRow>, email: string) {
    exists i :: 0 <= i < |otps| && otps[i].email == email && otps[i].used
  }

  /** Verifying a code opens the gate for that email. */
  lemma {:induction false} VerifyOpensGate(otps: seq<CodeRow>, email: string, otp: string, now: int)
    requires CheckCode(otps, email, otp, now).Valid?
    ensures OtpVerified(MarkUsed(otps, CheckCode(otps, email, otp, now).index), email)
  {
    var i := CheckCode(otps, email, otp, now).index;
    assert MarkUsed(otps, i)[i].email == email && MarkUsed(otps, i)[i].used;
  }

  /** Once open, the gate stays open: marking any code used keeps every used
      row used. */
  lemma GateStaysOpen(otps: seq<CodeRow>, i: nat, email: string)
    requires i < |otps| && OtpVerified(otps, email)
    ensures OtpVerified(MarkUsed(otps, i), email)
  {
    var j :| 0 <= j < |otps| && otps[j].email == email && otps[j].used;
    assert MarkUsed(otps, i)[j].email == email && MarkUsed(otps, i)[j].used;
  }

  /** Sending a code does not open the gate: only verification does. */
  lemma {:induction false} SendKeepsGate(otps: seq<CodeRow>, row: CodeRow, email: string)
    requires !row.used
    ensures OtpVerified(otps + [row], email) <==> OtpVerified(otps, email)
  {
    var r := otps + [row];
    if OtpVerified(r, email) {
      var i :| 0 <= i < |r| && r[i].email == email && r[i].used;
      assert i < |otps| && otps[i] == r[i];
    }
    if OtpVerified(otps, email) {
      var i :| 0 <= i < |otps| && otps[i].email == email && otps[i].used;
      assert r[i] == otps[i];
    }
  }

  // ---------------------------------------------------------------------------
  // Package form fields

  /** `r.FormValue(key)`: the empty string for a missing key. */
  function FormValue(form: map<string, string>, key: string): (v: string)
    ensures key !in form ==> v == ""
  {
    if key in form then form[key] else ""
  }

  /** `getBool`: true exactly for "true", "1" and "on". */
  predicate GetBool(v: string) {
    v == "true" || v == "1" || v == "on"
  }

  /** `getInt`: `strconv.Atoi` with its error dropped, so a malformed value
      reads as 0 and an out-of-range one as the clamped int64 bound. */
  function GetInt(v: string): (n: int)
    ensures MinInt64 <= n <= MaxInt64
    ensures !Numeric(v) ==> n == 0
    ensures Numeric(v) && PrefixValue(v) > MaxInt64 ==> n == MaxInt64
    ensures Numeric(v) && PrefixValue(v) < MinInt64 ==> n == MinInt64
    ensures Numeric(v) && MinInt64 <= PrefixValue(v) <= MaxInt64 ==> n == PrefixValue(v)
  {
    Atoi(v).value
  }

  /** A count whose leading digits overflow passes the `> 0` check even
      when junk follows them, because the range error comes first and its
      value is kept. */
  lemma OverflowingCountPasses(digits: string, junk: char)
    requires AllDigits(digits) && DigitsValue(digits) > MaxUint64 && !IsDigit(junk)
    ensures GetInt(digits + [junk]) == MaxInt64 && GetInt(digits + [junk]) > 0
  {
    AtoiOverflowBeforeJunk(digits, junk);
  }

  /** The package fields a create or update request carries. */
  datatype PackageFields = PackageFields(
    title: string, description: string, location: string, initialDestination: string,
    durationDays: int, numTravelers: int, transportMode: string, price: real, isActive: bool)

  /** The fields read from the form; `parseFloat` is `strconv.ParseFloat`
      with its error dropped (0 on a malformed value). */
  function ReadFields(form: map<string, string>, parseFloat: string -> real): (f: PackageFields)
    ensures f.isActive == GetBool(FormValue(form, "is_active"))
    ensures f.durationDays == GetInt(FormValue(form, "duration_days"))
    ensures f.numTravelers == GetInt(FormValue(form, "num_travelers"))
    ensures f.price == parseFloat(FormValue(form, "price"))
  {
    PackageFields(
      FormValue(form, "title"), FormValue(form, "description"), FormValue(form, "location"),
      FormValue(form, "initial_destination"), GetInt(FormValue(form, "duration_days")),
      GetInt(FormValue(form, "num_travelers")), FormValue(form, "transport_mode"),
      parseFloat(FormValue(form, "price")), GetBool(FormValue(form, "is_active")))
  }

  /** Every text field is non-empty and every number is positive. */
  predicate FieldsValid(f: PackageFields) {
    f.title != "" && f.description != "" && f.location != "" && f.initialDestination != "" &&
    f.durationDays > 0 && f.price > 0.0 && f.numTravelers > 0 && f.transportMode != ""
  }

  /** A validated request: its fields and its ordered stop list. */
  datatype PackageDraft = PackageDraft(fields: PackageFields, locations: seq<string>)

  /** The checks shared by create and update. `decoded` is what
      `json.Unmarshal` makes of a non-empty `locations` value: None when it is
      not a JSON array of strings. */
  function ParsePackageRequest(form: map<string, string>, parseFloat: string -> real,
                               decoded: Option<seq<string>>): (r: Outcome<PackageDraft>)
    ensures !FieldsValid(ReadFields(form, parseFloat)) ==> r == Stop(Response(StatusBadRequest, FieldsMessage))
    ensures FieldsValid(ReadFields(form, parseFloat)) && FormValue(form, "locations") == "" ==>
      r == Proceed(PackageDraft(ReadFields(form, parseFloat), []))
    ensures FieldsValid(ReadFields(form, parseFloat)) && FormValue(form, "locations") != "" ==>
      r == if decoded.None? then Stop(Response(StatusBadRequest, "Invalid locations format"))
           else Proceed(PackageDraft(ReadFields(form, parseFloat), decoded.value))
    ensures r.Proceed? ==> FieldsValid(r.value.fields)
  {
    var f := ReadFields(form, parseFloat);
    if !FieldsValid(f) then Stop(Response(StatusBadRequest, FieldsMessage))
    else if FormValue(form, "locations") == "" then Proceed(PackageDraft(f, []))
    else if decoded.None? then Stop(Response(StatusBadRequest, "Invalid locations format"))
    else Proceed(PackageDraft(f, decoded.value))
  }

  /** The agency id in the request context: present and non-zero, else 401. */
  function AgencyFromContext(agencyId: Option<int>): (r: Outcome<int>)
    ensures r.Proceed? <==> agencyId.Some? && agencyId.value != 0
    ensures r.Proceed? ==> r.value == agencyId.value
    ensures r.Stop? ==> r.reply == Response(StatusUnauthorized, "Unauthorized")
  {
    if agencyId.None? || agencyId.value == 0 then Stop(Response(StatusUnauthorized, "Unauthorized"))
    else Proceed(agencyId.value)
  }

  /** The `packageid` path variable: an int64 numeral, else 400. */
  function PackageIdFromPath(text: string): (r: Outcome<int>)
    ensures r.Proceed? <==> Atoi(text).ok
    ensures r.Proceed? ==> r.value == Atoi(text).value
    ensures r.Stop? ==> r.reply == Response(StatusBadRequest, "Invalid package ID")
  {
    if Atoi(text).ok then Proceed(Atoi(text).value) else Stop(Response(StatusBadRequest, "Invalid package ID"))
  }

  // ---------------------------------------------------------------------------
  // Owner-scoped package rows

  /** A row of `travel_packages`. */
  datatype PackageRow = PackageRow(packageId: int, agencyId: int, fields: PackageFields,
                                   locations: seq<string>, photos: seq<string>)

  predicate Owned(row: PackageRow, packageId: int, agencyId: int) {
    row.packageId == packageId && row.agencyId == agencyId
  }

  predicate AnyOwned(rows: seq<PackageRow>, packageId: int, agencyId: int) {
    exists i :: 0 <= i < |rows| && Owned(rows[i], packageId, agencyId)
  }

  /** The `UPDATE ... WHERE package_id = $13 AND agency_id = $14`. */
  function UpdateOwned(rows: seq<PackageRow>, packageId: int, agencyId: int, d: PackageDraft, photos: seq<string>)
    : (r: seq<PackageRow>)
    ensures |r| == |rows|
    ensures forall i :: 0 <= i < |rows| && !Owned(rows[i], packageId, agencyId) ==> r[i] == rows[i]
    ensures forall i :: 0 <= i < |rows| && Owned(rows[i], packageId, agencyId) ==>
      r[i] == PackageRow(packageId, agencyId, d.fields, d.locations, photos)
  {
    seq(|rows|, i requires 0 <= i < |rows| =>
      if Owned(rows[i], packageId, agencyId) then PackageRow(packageId, agencyId, d.fields, d.locations, photos)
      else rows[i])
  }

  /** The `DELETE ... WHERE package_id = $1 AND agency_id = $2`: the owned rows
      go, every other row stays, in order. */
  function RemoveOwned(rows: seq<PackageRow>, packageId: int, agencyId: int): (r: seq<PackageRow>)
    ensures forall x :: x in r <==> x in rows && !Owned(x, packageId, agencyId)
    ensures |r| == |rows| <==> !AnyOwned(rows, packageId, agencyId)
    ensures !AnyOwned(rows, packageId, agencyId) ==> r == rows
    ensures IsSubsequence(r, rows)
  {
    FilterIsSubsequence(rows, (x: PackageRow) => !Owned(x, packageId, agencyId));
    Filter(rows, (x: PackageRow) => !Owned(x, packageId, agencyId))
  }

  /** Deleting one agency's package never touches another agency's rows. */
  lemma RemoveOwnedKeepsOthers(rows: seq<PackageRow>, packageId: int, agencyId: int, x: PackageRow)
    requires x in rows && x.agencyId != agencyId
    ensures x in RemoveOwned(rows, packageId, agencyId)
  {
  }

  /** The tables the agency handlers use, with the serial ids the database
      would hand out next. The clock, the random draw, the email outcome, the
      bcrypt hash, `ParseFloat`, the JSON decoding of `locations` and the names
      of the stored photo files are parameters. */
  class AgencyService {
    var agencies: seq<AgencyRow>
    var otps: seq<CodeRow>
    var packages: seq<PackageRow>
    var nextAgencyId: int
    var nextPackageId: int

    constructor()
      ensures agencies == [] && otps == [] && packages == []
      ensures nextAgencyId == 1 && nextPackageId == 1
    {
      agencies, otps, packages := [], [], [];
      nextAgencyId, nextPackageId := 1, 1;
    }

    /** `SendAgencyRegistrationOTP`. */
    method SendRegistrationOtp(email: string, draw: int, now: int, emailSent: bool) returns (resp: Response)
      requires 0 <= draw < 900000
      modifies this
      ensures agencies == old(agencies) && packages == old(packages)
      ensures nextAgencyId == old(nextAgencyId) && nextPackageId == old(nextPackageId)
      ensures email == "" ==> resp == Response(StatusBadRequest, "Email is required") && otps == old(otps)
      ensures email != "" && EmailRegistered(agencies, email) ==>
        resp == Response(StatusConflict, "Email already registered") && otps == old(otps)
      ensures email != "" && !EmailRegistered(agencies, email) ==>
        otps == old(otps) + [CodeRow(email, SixDigitCode(draw), now + OtpLifetime, false)] &&
        resp == if emailSent then Response(StatusOK, "OTP has been sent to your email")
                else Response(StatusInternalServerError, "Failed to send OTP email. Please try again.")
    {
      if email == "" {
        return Response(StatusBadRequest, "Email is required");
      }
      if EmailRegistered(agencies, email) {
        return Response(StatusConflict, "Email already registered");
      }
      otps := otps + [CodeRow(email, SixDigitCode(draw), now + OtpLifetime, false)];
      if !emailSent {
        return Response(StatusInternalServerError, "Failed to send OTP email. Please try again.");
      }
      return Response(StatusOK, "OTP has been sent to your email");
    }

    /** `VerifyAgencyRegistrationOTP`: on success the code is marked used. */
    method VerifyRegistrationOtp(email: string, otp: string, now: int) returns (resp: Response)
      modifies this
      ensures agencies == old(agencies) && packages == old(packages)
      ensures nextAgencyId == old(nextAgencyId) && nextPackageId == old(nextPackageId)
      ensures resp == OtpReply(CheckCode(old(otps), email, otp, now))
      ensures otps == match CheckCode(old(otps), email, otp, now)
                      case Valid(i) => MarkUsed(old(otps), i)
                      case _ => old(otps)
    {
      var st := CheckCode(otps, email, otp, now);
      if st.Valid? {
        otps := MarkUsed(otps, st.index);
      }
      resp := OtpReply(st);
    }

    /** `AgencyRegister`: the OTP gate first, then the required fields, then
        the password rule, then hashing; an email already in the table is a
        conflict. `tokenIssued` says whether the JWT could be signed; a
        signing failure comes after the row is inserted, so the agency is
        stored although the reply is 500. */
    method Register(name: string, email: string, phone: string, website: string, password: string,
                    hashed: Option<string>, tokenIssued: bool) returns (resp: Response)
      modifies this
      ensures otps == old(otps) && packages == old(packages) && nextPackageId == old(nextPackageId)
      ensures !OtpVerified(otps, email) ==>
        resp == Response(StatusBadRequest, "Please verify your email with OTP first")
      ensures OtpVerified(otps, email) && (name == "" || email == "" || password == "") ==>
        resp == Response(StatusBadRequest, "Name, email, and password are required")
      ensures OtpVerified(otps, email) && name != "" && email != "" && password != "" &&
              !AuthHandlers.IsValidPassword(password) ==>
        resp == Response(StatusBadRequest, AuthHandlers.PasswordRuleMessage)
      ensures Inserted(old(agencies), otps, name, email, password, hashed) ==>
        agencies == old(agencies) + [AgencyRow(old(nextAgencyId), name, email, phone, website, hashed.value)] &&
        nextAgencyId == old(nextAgencyId) + 1
      ensures !Inserted(old(agencies), otps, name, email, password, hashed) ==>
        agencies == old(agencies) && nextAgencyId == old(nextAgencyId)
      ensures Inserted(old(agencies), otps, name, email, password, hashed) && !tokenIssued ==>
        resp == Response(StatusInternalServerError, "Error generating token")
      ensures resp.status == StatusOK <==> Inserted(old(agencies), otps, name, email, password, hashed) && tokenIssued
    {
      if !OtpVerified(otps, email) {
        return Response(StatusBadRequest, "Please verify your email with OTP first");
      }
      if name == "" || email == "" || password == "" {
        return Response(StatusBadRequest, "Name, email, and password are required");
      }
      if !AuthHandlers.IsValidPassword(password) {
        return Response(StatusBadRequest, AuthHandlers.PasswordRuleMessage);
      }
      if hashed.None? {
        return Response(StatusInternalServerError, "Error processing password");
      }
      if EmailRegistered(agencies, email) {
        return Response(StatusConflict, "Agency with that email already exists");
      }
      agencies := agencies + [AgencyRow(nextAgencyId, name, email, phone, website, hashed.value)];
      nextAgencyId := nextAgencyId + 1;
      if !tokenIssued {
        return Response(StatusInternalServerError, "Error generating token");
      }
      return Response(StatusOK, "Agency registered successfully");
    }

    /** `CreateTravelPackage`: the new row belongs to the caller's agency; the
        body of the success reply is the row itself, not a message. */
    method CreatePackage(agencyId: Option<int>, form: map<string, string>, parseFloat: string -> real,
                         decoded: Option<seq<string>>, photos: seq<string>) returns (resp: Response)
      modifies this
      ensures agencies == old(agencies) && otps == old(otps) && nextAgencyId == old(nextAgencyId)
      ensures AgencyFromContext(agencyId).Stop? ==> resp == AgencyFromContext(agencyId).reply
      ensures AgencyFromContext(agencyId).Proceed? && ParsePackageRequest(form, parseFloat, decoded).Stop? ==>
        resp == ParsePackageRequest(form, parseFloat, decoded).reply
      ensures resp.status == StatusOK <==>
        AgencyFromContext(agencyId).Proceed? && ParsePackageRequest(form, parseFloat, decoded).Proceed?
      ensures resp.status == StatusOK ==>
        var d := ParsePackageRequest(form, parseFloat, decoded).value;
        packages == old(packages) + [PackageRow(old(nextPackageId), agencyId.value, d.fields, d.locations, photos)] &&
        nextPackageId == old(nextPackageId) + 1
      ensures resp.status != StatusOK ==> packages == old(packages) && nextPackageId == old(nextPackageId)
    {
      var who := AgencyFromContext(agencyId);
      if who.Stop? {
        return who.reply;
      }
      var req := ParsePackageRequest(form, parseFloat, decoded);
      if req.Stop? {
        return req.reply;
      }
      packages := packages + [PackageRow(nextPackageId, who.value, req.value.fields, req.value.locations, photos)];
      nextPackageId := nextPackageId + 1;
      return Response(StatusOK, "");
    }

    /** `UpdateTravelPackage`: only a row with both the package id and the
        caller's agency id changes; its photo list is replaced by the photos
        of this request. */
    method UpdatePackage(agencyId: Option<int>, packageIdText: string, form: map<string, string>,
                         parseFloat: string -> real, decoded: Option<seq<string>>, photos: seq<string>)
      returns (resp: Response)
      modifies this
      ensures agencies == old(agencies) && otps == old(otps)
      ensures nextAgencyId == old(nextAgencyId) && nextPackageId == old(nextPackageId)
      ensures AgencyFromContext(agencyId).Stop? ==> resp == AgencyFromContext(agencyId).reply
      ensures AgencyFromContext(agencyId).Proceed? && PackageIdFromPath(packageIdText).Stop? ==>
        resp == PackageIdFromPath(packageIdText).reply
      ensures AgencyFromContext(agencyId).Proceed? && PackageIdFromPath(packageIdText).Proceed? &&
              ParsePackageRequest(form, parseFloat, decoded).Stop? ==>
        resp == ParsePackageRequest(form, parseFloat, decoded).reply
      ensures AgencyFromContext(agencyId).Proceed? && PackageIdFromPath(packageIdText).Proceed? &&
              ParsePackageRequest(form, parseFloat, decoded).Proceed? ==>
        var pid := PackageIdFromPath(packageIdText).value;
        var d := ParsePackageRequest(form, parseFloat, decoded).value;
        packages == UpdateOwned(old(packages), pid, agencyId.value, d, photos) &&
        resp == if AnyOwned(old(packages), pid, agencyId.value) then Response(StatusOK, "Package updated successfully")
                else Response(StatusNotFound, "Package not found or not owned by agency")
      ensures resp.status != StatusOK ==> packages == old(packages)
    {
      var who := AgencyFromContext(agencyId);
      if who.Stop? {
        return who.reply;
      }
      var pid := PackageIdFromPath(packageIdText);
      if pid.Stop? {
        return pid.reply;
      }
      var req := ParsePackageRequest(form, parseFloat, decoded);
      if req.Stop? {
        return req.reply;
      }
      if !AnyOwned(packages, pid.value, who.value) {
        assert UpdateOwned(packages, pid.value, who.value, req.value, photos) == packages;
        return Response(StatusNotFound, "Package not found or not owned by agency");
      }
      packages := UpdateOwned(packages, pid.value, who.value, req.value, photos);
      return Response(StatusOK, "Package updated successfully");
    }

    /** `DeleteTravelPackage`: removes the caller's row with that id; 404 when
        there is none. */
    method DeletePackage(agencyId: Option<int>, packageIdText: string) returns (resp: Response)
      modifies this
      ensures agencies == old(agencies) && otps == old(otps)
      ensures nextAgencyId == old(nextAgencyId) && nextPackageId == old(nextPackageId)
      ensures AgencyFromContext(agencyId).Stop? ==> resp == AgencyFromContext(agencyId).reply
      ensures AgencyFromContext(agencyId).Proceed? && PackageIdFromPath(packageIdText).Stop? ==>
        resp == PackageIdFromPath(packageIdText).reply
      ensures AgencyFromContext(agencyId).Proceed? && PackageIdFromPath(packageIdText).Proceed? ==>
        var pid := PackageIdFromPath(packageIdText).value;
        packages == RemoveOwned(old(packages), pid, agencyId.value) &&
        resp == if AnyOwned(old(packages), pid, agencyId.value) then Response(StatusOK, "Package deleted successfully")
                else Response(StatusNotFound, "Package not found or not owned by agency")
      ensures resp.status != StatusOK ==> packages == old(packages)
    {
      var who := AgencyFromContext(agencyId);
      if who.Stop? {
        return who.reply;
      }
      var pid := PackageIdFromPath(packageIdText);
      if pid.Stop? {
        return pid.reply;
      }
      var owned := AnyOwned(packages, pid.value, who.value);
      packages := RemoveOwned(packages, pid.value, who.value);
      if !owned {
        return Response(StatusNotFound, "Package not found or not owned by agency");
      }
      return Response(StatusOK, "Package deleted successfully");
    }
  }
}

=== FILE: AgencyPackagesPage.dfy ===
/** The agency's package editor, frontend/src/components/AgencyPackages.js:
    the stop list, the photo file and preview lists, the form reset and the
    edit prefill, the multipart body a save sends, the local list after a
    delete and the stop preview on each card. */
module AgencyPackagesPage {
  import opened Text
  import opened Maybe
  import opened Decimal
  import opened Seqs
  import opened Http
  import opened AgencyHandlers

  /** `formData`. The number inputs hold what `String(...)` of their value
      gives, which is also what the form sends. */
  datatype PackageForm = PackageForm(
    title: string, description: string, location: string, initialDestination: string,
    durationDays: string, numTravelers: string, transportMode: string, price: string, isActive: bool)

  /** `defaultForm`. */
  const DefaultForm := PackageForm("", "", "", "", "3", "1", "flight", "1000", true)

  /** A package as the list endpoint returns it; `locations` is None for a
      JSON `null`. */
  datatype PackageView = PackageView(
    packageId: int, fields: PackageFields, locations: Option<seq<string>>, photos: seq<string>)

  /** A chosen photo file, and its object URL. */
  datatype PhotoFile = PhotoFile(name: string)

  /** `xs.filter((_, i) => i !== idx)`. */
  function RemoveAt<T>(xs: seq<T>, idx: int): (r: seq<T>)
    ensures 0 <= idx < |xs| ==> r == xs[..idx] + xs[idx + 1..]
    ensures !(0 <= idx < |xs|) ==> r == xs
    decreases |xs|
  {
    if xs == [] then []
    else
      var rest := RemoveAt(xs[1..], idx - 1);
      assert 0 < idx < |xs| ==> xs[1..][..idx - 1] + xs[1..][idx..] == xs[1..idx] + xs[idx + 1..];
      assert idx == 0 ==> xs[..0] + xs[1..] == xs[1..];
      assert 0 < idx < |xs| ==> xs[..idx] == [xs[0]] + xs[1..idx];
      (if idx == 0 then [] else [xs[0]]) + rest
  }

  /** Removing an index shortens a list by one exactly when the index is in
      range, so two lists of one length stay of one length. */
  lemma RemoveAtLength<T, U>(xs: seq<T>, ys: seq<U>, idx: int)
    requires |xs| == |ys|
    ensures |RemoveAt(xs, idx)| == |RemoveAt(ys, idx)|
    ensures |RemoveAt(xs, idx)| == if 0 <= idx < |xs| then |xs| - 1 else |xs|
  {
  }

  /** Every other element is kept, in order. */
  lemma RemoveAtKeeps<T>(xs: seq<T>, idx: int, j: int)
    requires 0 <= idx < |xs| && 0 <= j < |xs| && j != idx
    ensures RemoveAt(xs, idx)[if j < idx then j else j - 1] == xs[j]
  {
  }

  /** The text `String(n)` gives for a count decoded from the server's JSON.
      The decoded value is a double, exact for |n| <= 2^53, and the model is
      the decimal numeral there; larger counts are rounded by the browser,
      which this function does not model. */
  function NumberText(n: int): (s: string)
    ensures -MaxExactDouble <= n <= MaxExactDouble ==> GetInt(s) == n
  {
    AtoiIntToString(if MinInt64 <= n <= MaxInt64 then n else 0);
    IntToString(n)
  }

  /** `handleEdit`'s copy of the nine fields; `showPrice` is JavaScript's
      `String` of the price. */
  function FormOf(f: PackageFields, showPrice: real -> string): (form: PackageForm)
    ensures form.title == f.title && form.description == f.description && form.location == f.location
    ensures form.initialDestination == f.initialDestination && form.transportMode == f.transportMode
    ensures form.isActive == f.isActive
    ensures -MaxExactDouble <= f.durationDays <= MaxExactDouble ==> GetInt(form.durationDays) == f.durationDays
    ensures -MaxExactDouble <= f.numTravelers <= MaxExactDouble ==> GetInt(form.numTravelers) == f.numTravelers
    ensures form.price == showPrice(f.price)
  {
    PackageForm(f.title, f.description, f.location, f.initialDestination, NumberText(f.durationDays),
                NumberText(f.numTravelers), f.transportMode, showPrice(f.price), f.isActive)
  }

  /** `formData.is_active ? 'true' : 'false'`. */
  function BoolText(b: bool): (s: string) {
    if b then "true" else "false"
  }

  /** The server's `getBool` reads the sent flag back. */
  lemma BoolTextRoundTrip(b: bool)
    ensures GetBool(BoolText(b)) == b
  {
  }

  /** The text fields of the multipart body `handleSubmit` builds; `encoded`
      is `JSON.stringify(locations)`. */
  function Body(form: PackageForm, encoded: string): (body: map<string, string>)
    ensures FormValue(body, "title") == form.title && FormValue(body, "description") == form.description
    ensures FormValue(body, "location") == form.location
    ensures FormValue(body, "initial_destination") == form.initialDestination
    ensures FormValue(body, "duration_days") == form.durationDays
    ensures FormValue(body, "num_travelers") == form.numTravelers
    ensures FormValue(body, "transport_mode") == form.transportMode
    ensures FormValue(body, "price") == form.price
    ensures GetBool(FormValue(body, "is_active")) == form.isActive
    ensures FormValue(body, "locations") == encoded
  {
    map["title" := form.title, "description" := form.description, "location" := form.location,
        "initial_destination" := form.initialDestination, "duration_days" := form.durationDays,
        "num_travelers" := form.numTravelers, "transport_mode" := form.transportMode,
        "price" := form.price, "is_active" := BoolText(form.isActive), "locations" := encoded]
  }

  /** Editing a stored package and saving it without changes sends back the
      same fields and stops, given that `parseFloat` reads back the price
      text and the server decodes the JSON stop list to the list sent. The
      counts are bounded by 2^53, beyond which the browser's copy is a
      rounded double. */
  lemma {:induction false} EditSaveRoundTrip(
    f: PackageFields, locations: seq<string>, showPrice: real -> string, parseFloat: string -> real,
    encoded: string)
    requires FieldsValid(f)
    requires f.durationDays <= MaxExactDouble && f.numTravelers <= MaxExactDouble
    requires parseFloat(showPrice(f.price)) == f.price
    requires encoded != ""
    ensures ParsePackageRequest(Body(FormOf(f, showPrice), encoded), parseFloat, Some(locations))
      == Proceed(PackageDraft(f, locations))
  {
    var body := Body(FormOf(f, showPrice), encoded);
    assert ReadFields(body, parseFloat) == f;
  }

  /** The stops a card shows and how many it summarises as "+k more". */
  datatype StopPreview = StopPreview(shown: seq<string>, more: nat)

  function PreviewOf(locations: seq<string>): (p: StopPreview)
    ensures |p.shown| <= 3 && |p.shown| <= |locations| && p.shown == locations[..|p.shown|]
    ensures |p.shown| + p.more == |locations|
    ensures p.more > 0 ==> |p.shown| == 3
  {
    var shown := if |locations| <= 3 then locations else locations[..3];
    StopPreview(shown, |locations| - |shown|)
  }

  /** `slice(0, 3).join(' → ')` followed by ` +k more` when there are more than three. */
  function PreviewText(locations: seq<string>): (s: string) {
    var p := PreviewOf(locations);
    Join(p.shown, " → ") + (if |locations| > 3 then " +" + IntToString(|locations| - 3) + " more" else "")
  }

  /** The editor's state. */
  class PackageEditor {
    var packages: seq<PackageView>
    var editingId: Option<int>
    var form: PackageForm
    var locations: seq<string>
    var locationInput: string
    var photoFiles: seq<PhotoFile>
    var photoPreviews: seq<string>
    var error: string

    /** Each chosen file has its preview at the same index. */
    ghost predicate Valid()
      reads this
    {
      |photoFiles| == |photoPreviews|
    }

    constructor()
      ensures Valid() && packages == [] && editingId.None? && form == DefaultForm
      ensures locations == [] && locationInput == "" && photoFiles == [] && error == ""
    {
      packages := [];
      editingId := None;
      form := DefaultForm;
      locations := [];
      locationInput := "";
      photoFiles := [];
      photoPreviews := [];
      error := "";
    }

    /** `fetchPackages`: the agency's own packages replace the list; a failed
        request keeps it and sets the error. */
    method Fetched(response: Option<seq<PackageView>>)
      modifies this`packages, this`error
      ensures response.Some? ==> packages == response.value && error == old(error)
      ensures response.None? ==> packages == old(packages) && error == "Failed to load packages"
    {
      if response.Some? {
        packages := response.value;
      } else {
        error := "Failed to load packages";
      }
    }

    /** `resetForm`. */
    method ResetForm()
      modifies this`editingId, this`form, this`locations, this`locationInput, this`photoFiles, this`photoPreviews
      ensures Valid()
      ensures editingId.None? && form == DefaultForm && locations == [] && locationInput == ""
      ensures photoFiles == [] && photoPreviews == []
    {
      editingId := None;
      form := DefaultForm;
      locations := [];
      locationInput := "";
      photoFiles := [];
      photoPreviews := [];
    }

    /** `handleAddLocation`: the trimmed input is appended, and the input
        cleared, only when it is not blank. */
    method AddLocation()
      modifies this`locations, this`locationInput
      ensures Trim(old(locationInput)) != "" ==>
        locations == old(locations) + [Trim(old(locationInput))] && locationInput == ""
      ensures Trim(old(locationInput)) == "" ==>
        locations == old(locations) && locationInput == old(locationInput)
    {
      var trimmed := Trim(locationInput);
      if trimmed != "" {
        locations := locations + [trimmed];
        locationInput := "";
      }
    }

    /** `handleRemoveLocation`. */
    method RemoveLocation(idx: int)
      modifies this`locations
      ensures locations == RemoveAt(old(locations), idx)
    {
      locations := RemoveAt(locations, idx);
    }

    /** `handlePhotoChange`: the files are appended, and their object URLs
        (`createUrl`) to the previews. */
    method AddPhotos(files: seq<PhotoFile>, createUrl: PhotoFile -> string)
      requires Valid()
      modifies this`photoFiles, this`photoPreviews
      ensures Valid()
      ensures photoFiles == old(photoFiles) + files
      ensures photoPreviews == old(photoPreviews) + seq(|files|, i requires 0 <= i < |files| => createUrl(files[i]))
    {
      photoFiles := photoFiles + files;
      photoPreviews := photoPreviews + seq(|files|, i requires 0 <= i < |files| => createUrl(files[i]));
    }

    /** `handleRemovePhoto`: the same index goes from both lists. */
    method RemovePhoto(idx: int)
      requires Valid()
      modifies this`photoFiles, this`photoPreviews
      ensures Valid()
      ensures photoFiles == RemoveAt(old(photoFiles), idx) && photoPreviews == RemoveAt(old(photoPreviews), idx)
    {
      RemoveAtLength(photoFiles, photoPreviews, idx);
      photoFiles := RemoveAt(photoFiles, idx);
      photoPreviews := RemoveAt(photoPreviews, idx);
    }

    /** `handleEdit`: the package's fields, its stops (none for `null`), no
        new photos. The location input is left as it was. */
    method Edit(pkg: PackageView, showPrice: real -> string)
      modifies this`editingId, this`form, this`locations, this`photoFiles, this`photoPreviews
      ensures Valid()
      ensures editingId == Some(pkg.packageId) && form == FormOf(pkg.fields, showPrice)
      ensures locations == pkg.locations.GetOr([]) && photoFiles == [] && photoPreviews == []
    {
      editingId := Some(pkg.packageId);
      form := FormOf(pkg.fields, showPrice);
      locations := pkg.locations.GetOr([]);
      photoFiles := [];
      photoPreviews := [];
    }

    /** `handleSubmit`'s request: the error is cleared first; then a PUT to
        the edited package when `editingId` is truthy (present and not 0),
        else a POST; the body and the chosen files. */
    method SaveRequest(encodeLocations: seq<string> -> string)
      returns (put: Option<int>, body: map<string, string>, files: seq<PhotoFile>)
      modifies this`error
      ensures error == ""
      ensures put.Some? <==> editingId.Some? && editingId.value != 0
      ensures put.Some? ==> put == editingId
      ensures body == Body(form, encodeLocations(locations)) && files == photoFiles
    {
      error := "";
      put := if editingId.Some? && editingId.value != 0 then editingId else None;
      body := Body(form, encodeLocations(locations));
      files := photoFiles;
    }

    /** A failed save: the server's text when it is a non-empty string, or
        the fixed message. */
    method SaveFailed(data: Option<string>)
      modifies this`error
      ensures error == FailureText(data, "Failed to save package")
    {
      error := FailureText(data, "Failed to save package");
    }

    /** `handleDelete` after the confirmation: on success only the package
        with that id leaves the list; on failure the list stays and the error
        is set. */
    method Delete(packageId: int, succeeded: bool)
      modifies this`packages, this`error
      ensures succeeded ==> packages == Filter(old(packages), (p: PackageView) => p.packageId != packageId)
      ensures succeeded ==> error == old(error)
      ensures !succeeded ==> packages == old(packages) && error == "Failed to delete package"
    {
      if succeeded {
        packages := Filter(packages, (p: PackageView) => p.packageId != packageId);
      } else {
        error := "Failed to delete package";
      }
    }
  }

  /** After a delete the list holds every other package and none with that id. */
  lemma DeleteKeepsOthers(packages: seq<PackageView>, packageId: int, p: PackageView)
    requires p in packages
    ensures p in Filter(packages, (q: PackageView) => q.packageId != packageId) <==> p.packageId != packageId
  {
  }
}

=== FILE: AgencyRegisterPage.dfy ===
/** The agency sign-up page, frontend/src/components/AgencyRegister.js: a
    form step that asks the server for a one-time code, and a code step that
    verifies it and then registers the agency. Server replies are
    parameters. */
module AgencyRegisterPage {
  import opened Text
  import opened Maybe
  import RegisterPage
  import opened Http
  import opened Seqs

  // ---------------------------------------------------------------------------
  // The code input

  /** `value.replace(/\D/g, '')`: the ASCII digits, in order, each digit
      kept as many times as it is typed. */
  function DigitsOnly(s: string): (r: string)
    ensures AllDigits(r) && |r| <= |s|
    ensures forall c :: multiset(r)[c] == if IsDigit(c) then multiset(s)[c] else 0
  {
    assert s != [] ==> s == [s[0]] + s[1..];
    if s == [] then []
    else if IsDigit(s[0]) then [s[0]] + DigitsOnly(s[1..])
    else DigitsOnly(s[1..])
  }

  /** The digits come out in the order they were typed. */
  lemma {:induction false} DigitsOnlyInOrder(s: string)
    ensures IsSubsequence(DigitsOnly(s), s)
  {
    if s != [] {
      DigitsOnlyInOrder(s[1..]);
      if IsDigit(s[0]) {
        assert DigitsOnly(s)[1..] == DigitsOnly(s[1..]);
      } else {
        SubsequenceOfTail(DigitsOnly(s), s);
      }
    }
  }

  /** The regular-expression replace is the order-preserving filter on digits. */
  lemma {:induction false} DigitsOnlyIsFilter(s: string)
    ensures DigitsOnly(s) == Filter(s, IsDigit)
  {
    if s != [] {
      DigitsOnlyIsFilter(s[1..]);
    }
  }

  /** A string of digits passes through unchanged. */
  lemma {:induction false} DigitsOnlyKeepsDigits(s: string)
    requires AllDigits(s)
    ensures DigitsOnly(s) == s
  {
    if s != [] {
      assert AllDigits(s[1..]) by {
        forall i | 0 <= i < |s[1..]| ensures IsDigit(s[1..][i]) { assert s[1..][i] == s[i + 1]; }
      }
      DigitsOnlyKeepsDigits(s[1..]);
    }
  }

  /** The code field's `onChange`: digits only, at most six of them. */
  function SanitizeOtp(value: string): (otp: string)
    ensures AllDigits(otp) && |otp| <= 6
    ensures otp == Prefix(DigitsOnly(value), 6)
  {
    Prefix(DigitsOnly(value), 6)
  }

  /** Sanitising twice changes nothing more, and a code of at most six
      digits is kept as typed. */
  lemma SanitizeIdempotent(value: string)
    ensures SanitizeOtp(SanitizeOtp(value)) == SanitizeOtp(value)
    ensures AllDigits(value) && |value| <= 6 ==> SanitizeOtp(value) == value
  {
    var otp := SanitizeOtp(value);
    DigitsOnlyKeepsDigits(otp);
    assert Prefix(otp, 6) == otp;
    if AllDigits(value) && |value| <= 6 {
      DigitsOnlyKeepsDigits(value);
      assert Prefix(value, 6) == value;
    }
  }

  // ---------------------------------------------------------------------------
  // The flow

  /** How a request ends: success, or failure with the server's reply body
      when it is a string (`None` for no response or a body of another type). */
  datatype Reply = Succeeded | Failed(data: Option<string>)

  const RequiredMessage := "Name, email, and password are required"
  const MismatchMessage := "Passwords do not match"
  const RuleMessage := "Password must be 8+ chars and include uppercase, lowercase, number, and special character"
  const SendFailedMessage := "Failed to send OTP. Please try again."
  const BadOtpMessage := "Please enter a valid 6-digit OTP"
  const InvalidOtpMessage := "Invalid OTP. Please try again."

  /** The refusal `handleSendOTP` makes before any request, in its order. */
  function SendRefusal(name: string, email: string, password: string, confirmPassword: string): (r: Option<string>)
    ensures r.None? <==>
      name != "" && email != "" && password != "" && password == confirmPassword && RegisterPage.PasswordOk(password)
    ensures name == "" || email == "" || password == "" ==> r == Some(RequiredMessage)
    ensures name != "" && email != "" && password != "" && password != confirmPassword ==> r == Some(MismatchMessage)
    ensures (name != "" && email != "" && password != "" && password == confirmPassword &&
             !RegisterPage.PasswordOk(password)) ==> r == Some(RuleMessage)
  {
    if name == "" || email == "" || password == "" then Some(RequiredMessage)
    else if password != confirmPassword then Some(MismatchMessage)
    else if !RegisterPage.PasswordOk(password) then Some(RuleMessage)
    else None
  }

  /** The page's state: the form, the code field, the step and the error line. */
  class AgencyRegisterFlow {
    var name: string
    var email: string
    var password: string
    var confirmPassword: string
    var otp: string
    var step: int
    var error: string

    /** The page shows the form or the code step. */
    ghost predicate Valid()
      reads this
    {
      step == 1 || step == 2
    }

    constructor(name: string, email: string, password: string, confirmPassword: string)
      ensures Valid() && step == 1 && otp == "" && error == ""
      ensures this.name == name && this.email == email
      ensures this.password == password && this.confirmPassword == confirmPassword
    {
      this.name, this.email := name, email;
      this.password, this.confirmPassword := password, confirmPassword;
      otp, step, error := "", 1, "";
    }

    /** `handleSendOTP`: the request is sent only after the three checks
        pass, and the code step opens only when it succeeds. */
    method SendOtp(reply: Reply) returns (requested: bool)
      requires Valid()
      modifies this`step, this`error
      ensures Valid()
      ensures requested <==> SendRefusal(name, email, password, confirmPassword).None?
      ensures !requested ==> error == SendRefusal(name, email, password, confirmPassword).value && step == old(step)
      ensures requested && reply.Succeeded? ==> step == 2 && error == ""
      ensures requested && reply.Failed? ==> step == old(step) && error == FailureText(reply.data, SendFailedMessage)
    {
      error := "";
      var refusal := SendRefusal(name, email, password, confirmPassword);
      if refusal.Some? {
        error := refusal.value;
        return false;
      }
      if reply.Succeeded? {
        step := 2;
        error := "";
      } else {
        error := FailureText(reply.data, SendFailedMessage);
      }
      return true;
    }

    /** The code field's `onChange`. */
    method EditOtp(value: string)
      modifies this`otp, this`error
      ensures otp == SanitizeOtp(value) && error == ""
    {
      otp := SanitizeOtp(value);
      error := "";
    }

    /** `handleVerifyOTP` with `handleRegister`: a code that is not six
        units long is refused locally; registration is asked for only after
        the code is verified. A failed registration sets its own message and
        rethrows, and the verify handler's catch then overwrites it, so the
        user reads the server's text or "Invalid OTP" even when the code was
        right. */
    method VerifyOtp(verify: Reply, register: Reply) returns (verifyRequested: bool, registerRequested: bool)
      modifies this`error
      ensures verifyRequested <==> otp != "" && JsLength(otp) == 6
      ensures !verifyRequested ==> error == BadOtpMessage
      ensures registerRequested <==> verifyRequested && verify.Succeeded?
      ensures verifyRequested && verify.Failed? ==> error == FailureText(verify.data, InvalidOtpMessage)
      ensures registerRequested && register.Succeeded? ==> error == ""
      ensures registerRequested && register.Failed? ==> error == FailureText(register.data, InvalidOtpMessage)
    {
      error := "";
      if otp == "" || JsLength(otp) != 6 {
        error := BadOtpMessage;
        return false, false;
      }
      match verify
      case Failed(data) =>
        error := FailureText(data, InvalidOtpMessage);
        return true, false;
      case Succeeded =>
      match register
      case Succeeded =>
        return true, true;
      case Failed(data) =>
        error := FailureText(data, "Registration failed. Please try again.");
        error := FailureText(data, InvalidOtpMessage);
        return true, true;
    }

    /** "Back to form". */
    method Back()
      modifies this`step, this`otp, this`error
      ensures Valid() && step == 1 && otp == "" && error == ""
    {
      step, otp, error := 1, "", "";
    }
  }

  /** A sanitised code is six units long exactly when it holds six digits,
      so whatever is typed, the code step sends the first six digits once
      there are six. */
  lemma SanitizedOtpSent(value: string)
    ensures JsLength(SanitizeOtp(value)) == 6 <==> |DigitsOnly(value)| >= 6
  {
    var otp := SanitizeOtp(value);
    assert IsAscii(otp) by {
      forall i | 0 <= i < |otp| ensures otp[i] as int < 0x80 { assert IsDigit(otp[i]); }
    }
    AsciiLengths(otp);
  }
}

=== FILE: AuthHandlers.dfy ===
/** The password rule and the password-reset flow of backend/handlers/auth.go. */
module AuthHandlers {
  import opened Text
  import opened Maybe
  import opened Http
  import opened OneTimeCodes

  /** `isValidPassword`: at least 8 bytes (Go's `len` counts UTF-8 bytes) and
      at least one match of each of `[A-Z]`, `[a-z]`, `[0-9]` and
      ``[!@#$%^&*(),.?":{}|<>]``. */
  predicate IsValidPassword(password: string): (ok: bool)
    ensures ok ==> |password| >= 4
    ensures ok && IsAscii(password) ==> |password| >= 8
  {
    PasswordLength(password);
    Utf8Len(password) >= 8 &&
    HasUpper(password) && HasLower(password) && HasDigit(password) && HasSpecial(password)
  }

  lemma PasswordLength(s: string)
    ensures HasUpper(s) && HasLower(s) && HasDigit(s) && HasSpecial(s) ==> |s| >= 4
    ensures IsAscii(s) ==> Utf8Len(s) == |s|
  {
    if HasUpper(s) && HasLower(s) && HasDigit(s) && HasSpecial(s) { FourClassesFourChars(s); }
    if IsAscii(s) { AsciiLengths(s); }
  }

  /** The four classes are disjoint, so a password holding all of them has
      at least four characters. */
  lemma FourClassesFourChars(s: string)
    requires HasUpper(s) && HasLower(s) && HasDigit(s) && HasSpecial(s)
    ensures |s| >= 4
  {
    var a :| 0 <= a < |s| && IsUpper(s[a]);
    var b :| 0 <= b < |s| && IsLower(s[b]);
    var c :| 0 <= c < |s| && IsDigit(s[c]);
    var d :| 0 <= d < |s| && IsSpecial(s[d]);
    SpecialIsNotAlnum(s[d]);
    assert a != b && a != c && b != c && a != d && b != d && c != d;
  }

  lemma SpecialIsNotAlnum(c: char)
    requires IsSpecial(c)
    ensures !IsUpper(c) && !IsLower(c) && !IsDigit(c)
  {
  }

  /** The length is measured in bytes, so six characters can already be long enough. */
  lemma {:induction false} BytesNotCharacters()
    ensures IsValidPassword("Ab1!\U{00E9}\U{00E9}") && |"Ab1!\U{00E9}\U{00E9}"| == 6
  {
    var p := "Ab1!\U{00E9}\U{00E9}";
    assert Utf8Len(p) == 8;
    assert IsUpper(p[0]) && IsLower(p[1]) && IsDigit(p[2]) && IsSpecial(p[3]);
  }

  const PasswordRuleMessage := "Password must be at least 8 characters and contain uppercase, lowercase, special character, and digit"
  const UnknownEmailMessage := "If the email exists, a password reset code has been sent"
  const CodeSentMessage := "Password reset code has been sent to your email"
  const SendFailedMessage := "Failed to send email. Please try again."

  /** Reset codes live for one hour; instants are counted in seconds. */
  const ResetCodeLifetime := 3600

  /** The reply `ForgotPassword` gives, by whether the email belongs to a
      user and whether the email could be sent. */
  function ForgotPasswordReply(known: bool, emailSent: bool): (r: Response)
    ensures !known ==> r.status == StatusOK
    ensures known ==> (r.status == StatusOK <==> emailSent)
  {
    if !known then Response(StatusOK, UnknownEmailMessage)
    else if emailSent then Response(StatusOK, CodeSentMessage)
    else Response(StatusInternalServerError, SendFailedMessage)
  }

  /** The unknown-email reply has the success status but a wording of its own,
      so it is distinguishable from the reply for a registered email. */
  lemma UnknownEmailReplyDiffers()
    ensures ForgotPasswordReply(false, true).status == ForgotPasswordReply(true, true).status
    ensures ForgotPasswordReply(false, true) != ForgotPasswordReply(true, true)
  {
  }

  /** The reply of `VerifyResetCode` and of the code check in `ResetPassword`.
      It has the shape of `AgencyHandlers.OtpReply` but its own texts, as the
      two handlers spell them separately. */
  function ResetCodeReply(st: CodeStatus): (r: Response)
    ensures r.status == StatusOK <==> st.Valid?
    ensures !st.Valid? ==> r.status == StatusBadRequest
  {
    match st
    case NoSuchCode => Response(StatusBadRequest, "Invalid reset code")
    case AlreadyUsed => Response(StatusBadRequest, "Reset code already used")
    case Expired => Response(StatusBadRequest, "Reset code expired")
    case Valid(_) => Response(StatusOK, "Code verified successfully")
  }

  /** A row of `users`, keyed by email in `PasswordResetService.users`. */
  datatype UserRecord = UserRecord(username: string, passwordHash: string)

  /** `UPDATE users SET password = $1 WHERE email = $2`: no row changes when
      the email is unknown. */
  function SetPassword(users: map<string, UserRecord>, email: string, hash: string): (r: map<string, UserRecord>)
    ensures r.Keys == users.Keys
    ensures email in users ==> r[email] == users[email].(passwordHash := hash)
    ensures forall e :: e in users && e != email ==> r[e] == users[e]
  {
    if email in users then users[email := users[email].(passwordHash := hash)] else users
  }

  /** The `users` and `password_resets` tables as the three reset handlers see
      them. The clock, the random draw, the outcome of sending an email and
      the bcrypt hash are parameters of the handlers. */
  class PasswordResetService {
    var users: map<string, UserRecord>
    var resets: seq<CodeRow>

    constructor(users0: map<string, UserRecord>)
      ensures users == users0 && resets == []
    {
      users := users0;
      resets := [];
    }

    /** `ForgotPassword`: an unknown email gets a success status and stores
        nothing; a known one gets a fresh code that expires an hour later,
        stored before the email is sent. */
    method ForgotPassword(email: string, draw: int, now: int, emailSent: bool) returns (resp: Response)
      requires 0 <= draw < 900000
      modifies this
      ensures users == old(users)
      ensures email !in old(users) ==> resets == old(resets)
      ensures email in old(users) ==>
        resets == old(resets) + [CodeRow(email, SixDigitCode(draw), now + ResetCodeLifetime, false)]
      ensures resp == ForgotPasswordReply(email in old(users), emailSent)
    {
      if email !in users {
        return Response(StatusOK, UnknownEmailMessage);
      }
      var code := SixDigitCode(draw);
      resets := resets + [CodeRow(email, code, now + ResetCodeLifetime, false)];
      if !emailSent {
        return Response(StatusInternalServerError, SendFailedMessage);
      }
      return Response(StatusOK, CodeSentMessage);
    }

    /** `VerifyResetCode` only reads the table: it never marks the code used. */
    method VerifyResetCode(email: string, code: string, now: int) returns (resp: Response)
      ensures resp == ResetCodeReply(CheckCode(resets, email, code, now))
      ensures resp.status == StatusOK <==>
        exists i :: IsLatestMatch(resets, email, code, i) && !resets[i].used && now <= resets[i].expiresAt
    {
      var st := CheckCode(resets, email, code, now);
      resp := ResetCodeReply(st);
    }

    /** `ResetPassword`: the password rule first, then the code check, then
        the hash; on success the password is replaced and the code marked used. */
    method ResetPassword(email: string, code: string, newPassword: string, now: int, hashed: Option<string>)
      returns (resp: Response)
      modifies this
      ensures !IsValidPassword(newPassword) ==>
        resp == Response(StatusBadRequest, PasswordRuleMessage) &&
        users == old(users) && resets == old(resets)
      ensures IsValidPassword(newPassword) && !CheckCode(old(resets), email, code, now).Valid? ==>
        resp == ResetCodeReply(CheckCode(old(resets), email, code, now)) &&
        users == old(users) && resets == old(resets)
      ensures IsValidPassword(newPassword) && CheckCode(old(resets), email, code, now).Valid? && hashed.None? ==>
        resp == Response(StatusInternalServerError, "Error processing password") &&
        users == old(users) && resets == old(resets)
      ensures IsValidPassword(newPassword) && CheckCode(old(resets), email, code, now).Valid? && hashed.Some? ==>
        resp == Response(StatusOK, "Password reset successful") &&
        users == SetPassword(old(users), email, hashed.value) &&
        resets == MarkUsed(old(resets), CheckCode(old(resets), email, code, now).index)
    {
      if !IsValidPassword(newPassword) {
        return Response(StatusBadRequest, PasswordRuleMessage);
      }
      var st := CheckCode(resets, email, code, now);
      if !st.Valid? {
        return ResetCodeReply(st);
      }
      if hashed.None? {
        return Response(StatusInternalServerError, "Error processing password");
      }
      users := SetPassword(users, email, hashed.value);
      resets := MarkUsed(resets, st.index);
      return Response(StatusOK, "Password reset successful");
    }
  }
}

=== FILE: AuthMiddleware.dfy ===
/** The authentication and role-gate middleware of backend/middleware/auth.go. */
module AuthMiddleware {
  import opened Text
  import opened Maybe
  import opened Http

  /** The JWT claims that `utils.ValidateJWT` returns. */
  datatype Claims = Claims(userId: int, username: string, role: string)

  /** The values a request context carries; a key never set is None. */
  datatype RequestContext = RequestContext(
    role: Option<string>, username: Option<string>, userId: Option<int>, agencyId: Option<int>)

  const EmptyContext := RequestContext(None, None, None, None)

  /** `strings.Replace(authHeader, "Bearer ", "", 1)`. */
  function StripBearer(header: string): string {
    ReplaceFirst(header, "Bearer ", "")
  }

  /** A well-formed header loses exactly its "Bearer " prefix. */
  lemma StripBearerPrefix(token: string)
    ensures StripBearer("Bearer " + token) == token
  {
    assert StartsWith("Bearer " + token, "Bearer ");
    ReplaceFirstAtStart("Bearer " + token, "Bearer ");
    assert ("Bearer " + token)[|"Bearer "|..] == token;
  }

  /** A header without "Bearer " is passed on as the token unchanged. */
  lemma StripBearerAbsent(header: string)
    requires !Contains(header, "Bearer ")
    ensures StripBearer(header) == header
  {
    ReplaceFirstAbsent(header, "Bearer ", "");
  }

  /** The context `AuthMiddleware` hands to the next handler. */
  function ContextFor(c: Claims): (ctx: RequestContext)
    ensures ctx.role == Some(c.role) && ctx.username == Some(c.username) && ctx.userId == Some(c.userId)
    ensures ctx.agencyId.Some? <==> c.role == "agency"
    ensures ctx.agencyId.Some? ==> ctx.agencyId.value == c.userId
  {
    RequestContext(Some(c.role), Some(c.username), Some(c.userId),
                   if c.role == "agency" then Some(c.userId) else None)
  }

  /** `AuthMiddleware`: a missing header or a token `validate` rejects ends
      the request with 401; otherwise the claims are copied into the context.
      `validate` stands for `utils.ValidateJWT`, None being its error. */
  function Authenticate(header: string, validate: string -> Option<Claims>): (r: Outcome<RequestContext>)
    ensures header == "" ==> r == Stop(Response(StatusUnauthorized, "Authorization header required"))
    ensures header != "" && validate(StripBearer(header)).None? ==>
      r == Stop(Response(StatusUnauthorized, "Invalid token"))
    ensures r.Proceed? <==> header != "" && validate(StripBearer(header)).Some?
    ensures r.Proceed? ==> r.value == ContextFor(validate(StripBearer(header)).value)
  {
    if header == "" then Stop(Response(StatusUnauthorized, "Authorization header required"))
    else
      match validate(StripBearer(header))
      case None => Stop(Response(StatusUnauthorized, "Invalid token"))
      case Some(c) => Proceed(ContextFor(c))
  }

  /** `role, _ := r.Context().Value("role").(string)`: "" when unset. */
  function ContextRole(ctx: RequestContext): (role: string)
    ensures ctx.role.None? ==> role == ""
    ensures ctx.role.Some? ==> role == ctx.role.value
  {
    ctx.role.GetOr("")
  }

  /** The `roleMap` loop of `RequireRole`. */
  method BuildRoleMap(roles: seq<string>) returns (roleMap: set<string>)
    ensures forall r :: r in roleMap <==> r in roles
  {
    roleMap := {};
    var i := 0;
    while i < |roles|
      invariant 0 <= i <= |roles|
      invariant forall r :: r in roleMap <==> r in roles[..i]
    {
      assert roles[..i + 1] == roles[..i] + [roles[i]];
      roleMap := roleMap + {roles[i]};
      i := i + 1;
    }
    assert roles[..i] == roles;
  }

  /** The handler `RequireRole` wraps around the next one. */
  function RoleGate(roleMap: set<string>, ctx: RequestContext): (r: Outcome<RequestContext>)
    ensures r.Proceed? <==> ContextRole(ctx) in roleMap
    ensures r.Proceed? ==> r.value == ctx
    ensures r.Stop? ==> r.reply == Response(StatusForbidden, "Forbidden")
  {
    if ContextRole(ctx) in roleMap then Proceed(ctx) else Stop(Response(StatusForbidden, "Forbidden"))
  }

  /** A request whose context has no role is refused unless "" is listed. */
  lemma MissingRoleForbidden(roleMap: set<string>, ctx: RequestContext)
    requires ctx.role.None? && "" !in roleMap
    ensures RoleGate(roleMap, ctx) == Stop(Response(StatusForbidden, "Forbidden"))
  {
  }

  /** Behind both middlewares, a valid agency token reaches the handler with
      its user id as the agency id. */
  lemma {:induction false} AgencyTokenPasses(header: string, validate: string -> Option<Claims>,
                                             roleMap: set<string>)
    requires header != "" && validate(StripBearer(header)).Some?
    requires validate(StripBearer(header)).value.role == "agency" && "agency" in roleMap
    ensures Authenticate(header, validate).Proceed?
    ensures RoleGate(roleMap, Authenticate(header, validate).value).Proceed?
    ensures Authenticate(header, validate).value.agencyId == Some(validate(StripBearer(header)).value.userId)
  {
    var ctx := Authenticate(header, validate).value;
    assert ContextRole(ctx) == "agency";
  }
}

=== FILE: Decimal.dfy ===
/** An optional value, the model of JavaScript's `null`/`undefined`/`NaN`
    and of Go's nil values and SQL NULL. */
module Maybe {
  datatype Option<+T> = None | Some(value: T) {
    function GetOr(default: T): T {
      if Some? then value else default
    }
  }
}

/** Decimal numerals: formatting (`%d`, `%06d`, `String(n)`), Go's
    `strconv.Atoi` and JavaScript's `parseInt`. */
module Decimal {
  import opened Text
  import opened Maybe

  const MaxInt64: int := 0x7FFF_FFFF_FFFF_FFFF
  const MinInt64: int := -0x8000_0000_0000_0000
  /** 2^53: every integer of at most this magnitude is exactly a JavaScript
      number, so it survives `JSON.parse` and `String` unchanged. */
  const MaxExactDouble: int := 0x20_0000_0000_0000

  function DigitValue(c: char): (d: nat)
    requires IsDigit(c)
    ensures d < 10
  {
    c as int - '0' as int
  }

  function DigitChar(d: nat): (c: char)
    requires d < 10
    ensures IsDigit(c) && DigitValue(c) == d
  {
    ('0' as int + d) as char
  }

  /** The value of a string of ASCII digits, most significant first. */
  function DigitsValue(s: string): nat
    requires AllDigits(s)
  {
    if s == [] then 0 else DigitsValue(s[..|s| - 1]) * 10 + DigitValue(s[|s| - 1])
  }

  function Pow10(k: nat): (p: nat)
    ensures p >= 1
  {
    if k == 0 then 1 else 10 * Pow10(k - 1)
  }

  /** The shortest decimal numeral of `n` (Go's `%d`, JavaScript's `String`). */
  function NatToString(n: nat): (r: string)
    ensures |r| >= 1 && AllDigits(r)
    ensures r[0] == '0' ==> n == 0
    ensures DigitsValue(r) == n
    ensures n < Pow10(|r|) && (|r| > 1 ==> Pow10(|r| - 1) <= n)
  {
    if n < 10 then [DigitChar(n)]
    else
      var p := NatToString(n / 10);
      var r := p + [DigitChar(n % 10)];
      assert r[..|r| - 1] == p;
      r
  }

  /** `%d` / `String(n)` of any integer. */
  function IntToString(n: int): (r: string)
    ensures |r| >= 1
    ensures n >= 0 ==> r == NatToString(n)
    ensures n < 0 ==> r == "-" + NatToString(-n)
  {
    if n < 0 then "-" + NatToString(-n) else NatToString(n)
  }

  /** The number of digits of `n` is exactly `k` when `n` lies in [10^(k-1), 10^k). */
  lemma NatToStringLength(n: nat, k: nat)
    requires k >= 1 && Pow10(k - 1) <= n < Pow10(k)
    ensures |NatToString(n)| == k
  {
    var r := NatToString(n);
    if |r| < k { PowMonotone(|r|, k - 1); }
    if |r| > k { PowMonotone(k, |r| - 1); }
  }

  lemma {:induction false} PowMonotone(a: nat, b: nat)
    requires a <= b
    ensures Pow10(a) <= Pow10(b)
    decreases b
  {
    if a < b { PowMonotone(a, b - 1); }
  }

  /** Go's `fmt.Sprintf("%0<w>d", n)` for a natural number: zeros in front
      up to width `w`, never truncated. */
  function ZeroPadded(n: nat, w: nat): (r: string)
    ensures AllDigits(r) && DigitsValue(r) == n
    ensures |r| == if |NatToString(n)| >= w then |NatToString(n)| else w
  {
    var s := NatToString(n);
    if |s| >= w then s else ZeroPrefixValue(w - |s|, s); seq(w - |s|, _ => '0') + s
  }

  lemma {:induction false} ZeroPrefixValue(z: nat, s: string)
    requires AllDigits(s)
    ensures AllDigits(seq(z, _ => '0') + s) && DigitsValue(seq(z, _ => '0') + s) == DigitsValue(s)
    decreases |s|
  {
    var t := seq(z, _ => '0') + s;
    if s == [] {
      assert t == seq(z, _ => '0');
      AllZeros(z);
    } else {
      assert t[..|t| - 1] == seq(z, _ => '0') + s[..|s| - 1];
      ZeroPrefixValue(z, s[..|s| - 1]);
    }
  }

  lemma {:induction false} AllZeros(z: nat)
    ensures AllDigits(seq(z, _ => '0')) && DigitsValue(seq(z, _ => '0')) == 0
  {
    if z > 0 {
      assert seq(z, _ => '0')[..z - 1] == seq(z - 1, _ => '0');
      AllZeros(z - 1);
    }
  }

  // ---------------------------------------------------------------------------
  // Go `strconv.Atoi` on a 64-bit platform

  /** The value `Atoi` returns and whether its error was nil. */
  datatype Parsed = Parsed(value: int, ok: bool)

  const MaxUint64: int := 0xFFFF_FFFF_FFFF_FFFF

  /** `ParseUint`'s guard: a value at or above it overflows when multiplied by 10. */
  const Cutoff: int := MaxUint64 / 10 + 1

  /** The outcome of `strconv.ParseUint` in base 10 with 64 bits. */
  datatype Scan = Value(n: nat) | SyntaxError | RangeError

  /** The digit loop of `ParseUint` from byte `i` on, the digits before it
      having been read: a non-digit is a syntax error, and the first digit
      that takes the value past 2^64 - 1 is a range error, whatever follows. */
  function ScanFrom(s: string, i: nat): Scan
    requires i <= |s| && AllDigits(s[..i]) && DigitsValue(s[..i]) <= MaxUint64
    decreases |s| - i
  {
    if i == |s| then (assert s[..i] == s; Value(DigitsValue(s)))
    else if !IsDigit(s[i]) then SyntaxError
    else
      var n := DigitsValue(s[..i]);
      assert s[..i + 1][..i] == s[..i] && AllDigits(s[..i + 1]);
      if n >= Cutoff then RangeError
      else if n * 10 + DigitValue(s[i]) > MaxUint64 then RangeError
      else ScanFrom(s, i + 1)
  }

  /** `ParseUint(s, 10, 64)`: the empty string is a syntax error. */
  function ParseUint(s: string): Scan {
    if s == [] then SyntaxError else ScanFrom(s, 0)
  }

  /** The text after one optional leading sign. */
  function Unsigned(s: string): (u: string)
    ensures |u| <= |s|
  {
    if s != [] && (s[0] == '-' || s[0] == '+') then s[1..] else s
  }

  predicate Negative(s: string) { s != [] && s[0] == '-' }

  /** The signed value of the digits that follow the sign. */
  function PrefixValue(s: string): int {
    var v: int := DigitsValue(DigitPrefix(Unsigned(s)));
    if Negative(s) then -v else v
  }

  /** The parse gets past the syntax: all digits after the sign, or enough
      leading digits to overflow before the first non-digit is met. */
  predicate Numeric(s: string) {
    Unsigned(s) != [] && (AllDigits(Unsigned(s)) || DigitsValue(DigitPrefix(Unsigned(s))) > MaxUint64)
  }

  /** `strconv.Atoi` on a 64-bit platform, as `ParseInt(s, 10, 0)` (its
      fast path for short strings gives the same results): an optional
      sign, then `ParseUint`; a syntax error yields 0, a value outside the
      int64 range is clamped to that range and reported as an error. */
  function Atoi(s: string): (r: Parsed)
    ensures !Numeric(s) ==> r == Parsed(0, false)
    ensures Numeric(s) && PrefixValue(s) > MaxInt64 ==> r == Parsed(MaxInt64, false)
    ensures Numeric(s) && PrefixValue(s) < MinInt64 ==> r == Parsed(MinInt64, false)
    ensures Numeric(s) && MinInt64 <= PrefixValue(s) <= MaxInt64 ==>
      r == Parsed(PrefixValue(s), true) && AllDigits(Unsigned(s))
    ensures r.ok ==> MinInt64 <= r.value <= MaxInt64
    ensures r.ok ==> s != [] && (IsDigit(s[0]) || s[0] == '-' || s[0] == '+')
  {
    var neg := s != [] && s[0] == '-';
    var digits := Unsigned(s);
    ScanSpec(digits, 0);
    DigitPrefixWhole(digits);
    match ParseUint(digits)
    case SyntaxError => Parsed(0, false)
    case RangeError => if neg then Parsed(MinInt64, false) else Parsed(MaxInt64, false)
    case Value(n) =>
      if !neg && n > MaxInt64 then Parsed(MaxInt64, false)
      else if neg && n > -MinInt64 then Parsed(MinInt64, false)
      else Parsed(if neg then -(n as int) else n, true)
  }

  /** `ParseUint` in closed form: a range error exactly when the leading
      digits exceed 2^64 - 1, else a syntax error unless every byte is a
      digit, else the value of the digits. */
  lemma {:induction false} ScanSpec(s: string, i: nat)
    requires i <= |s| && AllDigits(s[..i]) && DigitsValue(s[..i]) <= MaxUint64
    ensures s != [] ==> ParseUint(s) == ScanFrom(s, 0)
    ensures ScanFrom(s, i) ==
      if DigitsValue(DigitPrefix(s)) > MaxUint64 then RangeError
      else if !AllDigits(s) then SyntaxError
      else Value(DigitsValue(s))
    decreases |s| - i
  {
    DigitPrefixCovers(s, i);
    if i == |s| {
      assert s[..i] == s;
      DigitPrefixOfDigits(s);
    } else if !IsDigit(s[i]) {
      assert DigitPrefix(s) == s[..i];
    } else {
      assert s[..i + 1][..i] == s[..i] && AllDigits(s[..i + 1]);
      var n := DigitsValue(s[..i]);
      assert DigitsValue(s[..i + 1]) == n * 10 + DigitValue(s[i]);
      if n * 10 + DigitValue(s[i]) > MaxUint64 {
        DigitPrefixCovers(s, i + 1);
        var p := DigitPrefix(s);
        assert p[..i + 1] == s[..i + 1];
        DigitsValuePrefix(p, i + 1);
      } else {
        ScanSpec(s, i + 1);
      }
    }
  }

  lemma DigitPrefixWhole(s: string)
    ensures AllDigits(s) ==> DigitPrefix(s) == s
  {
    if AllDigits(s) { DigitPrefixOfDigits(s); }
  }

  /** A digit run of `s` of length `i` lies inside the longest one. */
  lemma {:induction false} DigitPrefixCovers(s: string, i: nat)
    requires i <= |s| && AllDigits(s[..i])
    ensures i <= |DigitPrefix(s)|
    ensures i < |s| && !IsDigit(s[i]) ==> DigitPrefix(s) == s[..i]
  {
    if i > 0 {
      assert s[0] == s[..i][0];
      assert s[1..][..i - 1] == s[1..i];
      var rest := s[1..i];
      assert AllDigits(rest) by {
        forall j | 0 <= j < |rest| ensures IsDigit(rest[j]) { assert rest[j] == s[..i][j + 1]; }
      }
      DigitPrefixCovers(s[1..], i - 1);
    }
  }

  /** Leading digits are worth no more than the whole run. */
  lemma {:induction false} DigitsValuePrefix(q: string, k: nat)
    requires AllDigits(q) && k <= |q|
    ensures DigitsValue(q[..k]) <= DigitsValue(q)
    decreases |q|
  {
    if k < |q| {
      var front := q[..|q| - 1];
      assert front[..k] == q[..k];
      DigitsValuePrefix(front, k);
    } else {
      assert q[..k] == q;
    }
  }

  /** Leading digits past 2^64 - 1 clamp the result, whatever follows them. */
  lemma AtoiOverflowClamps(u: string)
    requires DigitsValue(DigitPrefix(u)) > MaxUint64
    ensures Atoi(u) == Parsed(MaxInt64, false)
    ensures Atoi("-" + u) == Parsed(MinInt64, false)
  {
    var p := DigitPrefix(u);
    assert p != [] && u[0] == p[0];
    assert Unsigned(u) == u;
    var m := "-" + u;
    assert m[1..] == u;
    assert Unsigned(m) == u && Negative(m);
  }

  /** Digits then a non-digit `c`: the parse stops at the first overflowing
      digit, so twenty nines followed by "x" read as the clamped bound. */
  lemma AtoiOverflowBeforeJunk(s: string, c: char)
    requires AllDigits(s) && DigitsValue(s) > MaxUint64 && !IsDigit(c)
    ensures Atoi(s + [c]) == Parsed(MaxInt64, false)
    ensures Atoi("-" + (s + [c])) == Parsed(MinInt64, false)
  {
    var t := s + [c];
    assert t[..|s|] == s;
    DigitPrefixCovers(t, |s|);
    AtoiOverflowClamps(t);
  }

  /** Junk before the digits overflow is a syntax error. */
  lemma AtoiJunkBeforeOverflow(s: string, c: char)
    requires AllDigits(s) && DigitsValue(s) <= MaxUint64 && !IsDigit(c)
    ensures Atoi(s + [c]) == Parsed(0, false)
    ensures Atoi("-" + (s + [c])) == Parsed(0, false)
  {
    var t := s + [c];
    assert t[..|s|] == s;
    DigitPrefixCovers(t, |s|);
    assert !AllDigits(t) by { assert !IsDigit(t[|s|]); }
    var m := "-" + t;
    assert m[1..] == t;
    if t[0] == '-' || t[0] == '+' {
      assert s == [] && Unsigned(t) == [];
    } else {
      assert Unsigned(t) == t;
    }
    assert Unsigned(m) == t;
  }

  /** Formatting an int64 and parsing it back with `Atoi` is the identity. */
  lemma AtoiIntToString(n: int)
    requires MinInt64 <= n <= MaxInt64
    ensures Atoi(IntToString(n)) == Parsed(n, true)
  {
    var s := IntToString(n);
    if n < 0 {
      assert s[1..] == NatToString(-n);
      assert Unsigned(s) == NatToString(-n);
    } else {
      assert IsDigit(s[0]);
      assert Unsigned(s) == s;
    }
    DigitPrefixOfDigits(Unsigned(s));
  }

  /** The empty string and a lone sign are syntax errors. */
  lemma AtoiRejectsEmpty()
    ensures Atoi("") == Parsed(0, false)
    ensures Atoi("-") == Parsed(0, false) && Atoi("+") == Parsed(0, false)
  {
  }

  // ---------------------------------------------------------------------------
  // JavaScript `parseInt`

  /** The longest prefix of `s` made of ASCII digits. */
  function DigitPrefix(s: string): (r: string)
    ensures AllDigits(r) && |r| <= |s| && r == s[..|r|]
    ensures |r| < |s| ==> !IsDigit(s[|r|])
  {
    if s != [] && IsDigit(s[0]) then [s[0]] + DigitPrefix(s[1..]) else ""
  }

  predicate IsHexDigit(c: char) { IsDigit(c) || 'a' <= c <= 'f' || 'A' <= c <= 'F' }

  function HexValue(c: char): nat
    requires IsHexDigit(c)
  {
    if IsDigit(c) then DigitValue(c)
    else if 'a' <= c <= 'f' then c as int - 'a' as int + 10
    else c as int - 'A' as int + 10
  }

  function HexPrefix(s: string): (r: string)
    ensures |r| <= |s| && r == s[..|r|]
    ensures forall i :: 0 <= i < |r| ==> IsHexDigit(r[i])
  {
    if s != [] && IsHexDigit(s[0]) then [s[0]] + HexPrefix(s[1..]) else ""
  }

  function HexDigitsValue(s: string): nat
    requires forall i :: 0 <= i < |s| ==> IsHexDigit(s[i])
  {
    if s == [] then 0 else HexDigitsValue(s[..|s| - 1]) * 16 + HexValue(s[|s| - 1])
  }

  /** `parseInt(s)` (radix10 false) or `parseInt(s, 10)` (radix10 true):
      leading white space skipped, an optional sign, then the longest run of
      digits; `0x`/`0X` selects hexadecimal only when no radix is given. None
      stands for NaN. Precision loss above 2^53 is not modelled. */
  function JsParseInt(s: string, radix10: bool): Option<int> {
    var t := TrimStart(s);
    var neg := t != [] && t[0] == '-';
    var u := if t != [] && (t[0] == '-' || t[0] == '+') then t[1..] else t;
    if !radix10 && |u| >= 2 && u[0] == '0' && (u[1] == 'x' || u[1] == 'X') then
      var h := HexPrefix(u[2..]);
      var m: int := if neg then -(HexDigitsValue(h) as int) else HexDigitsValue(h);
      if h == [] then None else Some(m)
    else
      var d := DigitPrefix(u);
      var m: int := if neg then -(DigitsValue(d) as int) else DigitsValue(d);
      if d == [] then None else Some(m)
  }

  lemma DigitPrefixOfDigits(s: string)
    requires AllDigits(s)
    ensures DigitPrefix(s) == s
  {
    if s != [] {
      assert AllDigits(s[1..]) by {
        forall i | 0 <= i < |s[1..]| ensures IsDigit(s[1..][i]) { assert s[1..][i] == s[i + 1]; }
      }
      DigitPrefixOfDigits(s[1..]);
    }
  }

  /** `parseInt(String(n), 10)` gives `n` back. */
  lemma JsParseIntNatToString(n: nat)
    ensures JsParseInt(NatToString(n), true) == Some(n)
  {
    var s := NatToString(n);
    assert !IsJsSpace(s[0]);
    assert TrimStart(s) == s;
    DigitPrefixOfDigits(s);
  }
}

=== FILE: FeedbackHandlers.dfy ===
/** Feedback submission, deletion and the review summaries of
    backend/handlers/feedback.go. */
module FeedbackHandlers {
  import opened Text
  import opened Maybe
  import opened Decimal
  import opened Http
  import opened Words
  import opened Seqs

  const TripPlan := "trip_plan"
  const TravelAgency := "travel_agency"
  const MaxWords := 25
  const NoComments := "No additional comments"

  /** The separators of `splitWords`. */
  predicate IsGoSeparator(c: char) { c == ' ' || c == '\n' || c == '\t' }

  /** `splitWords`: a loop over the characters that collects the current
      word and emits it at each separator and at the end. */
  method SplitWords(s: string) returns (words: seq<string>)
    ensures words == WordsOf(s, IsGoSeparator)
  {
    ghost var total := WordsOf(s, IsGoSeparator);
    words := [];
    var word := "";
    var i := 0;
    assert word + s[i..] == s;
    while i < |s|
      invariant 0 <= i <= |s|
      invariant Splitting(words, word, s[i..], total)
    {
      var r := s[i];
      ghost var t := s[i..];
      assert t[0] == r && t[1..] == s[i + 1..];
      if IsGoSeparator(r) {
        if word != "" {
          FlushAtSeparator(words, word, t, total);
          words := words + [word];
          word := "";
        } else {
          SkipSeparator(words, t, total);
        }
      } else {
        ExtendWord(words, word, t, total);
        word := word + [r];
      }
      i := i + 1;
    }
    FlushAtEnd(words, word, s[i..], total);
    if word != "" {
      words := words + [word];
    }
  }

  /** The loop state of `SplitWords`: the finished `words`, then the words of
      the pending `word` followed by the unread `rest`, make up `total`. */
  predicate Splitting(words: seq<string>, word: string, rest: string, total: seq<string>) {
    NoSep(word, IsGoSeparator) && words + WordsOf(word + rest, IsGoSeparator) == total
  }

  lemma FlushAtSeparator(words: seq<string>, word: string, t: string, total: seq<string>)
    requires word != [] && t != [] && IsGoSeparator(t[0]) && Splitting(words, word, t, total)
    ensures Splitting(words + [word], "", t[1..], total)
  {
    var c, rest := t[0], t[1..];
    assert t == [c] + rest;
    TakeWordBeforeSeparator(word, t, IsGoSeparator);
    assert (word + t)[|word|..] == t;
    assert (word + t)[0] == word[0];
    assert t[1..] == rest;
    assert !IsGoSeparator((word + t)[0]);
    assert WordsOf(word + t, IsGoSeparator) == [word] + WordsOf(t, IsGoSeparator);
    assert WordsOf(t, IsGoSeparator) == WordsOf(rest, IsGoSeparator);
    assert "" + rest == rest;
  }

  lemma SkipSeparator(words: seq<string>, t: string, total: seq<string>)
    requires t != [] && IsGoSeparator(t[0]) && Splitting(words, "", t, total)
    ensures Splitting(words, "", t[1..], total)
  {
    var c, rest := t[0], t[1..];
    assert t == [c] + rest;
    assert "" + ([c] + rest) == [c] + rest;
    assert ([c] + rest)[1..] == rest;
    assert "" + rest == rest;
  }

  lemma ExtendWord(words: seq<string>, word: string, t: string, total: seq<string>)
    requires t != [] && !IsGoSeparator(t[0]) && Splitting(words, word, t, total)
    ensures Splitting(words, word + [t[0]], t[1..], total)
  {
    var c, rest := t[0], t[1..];
    assert t == [c] + rest;
    assert (word + [c]) + rest == word + ([c] + rest);
  }

  lemma FlushAtEnd(words: seq<string>, word: string, rest: string, total: seq<string>)
    requires rest == [] && Splitting(words, word, rest, total)
    ensures total == words + (if word == "" then [] else [word])
  {
    assert word + rest == word;
    if word != "" {
      TakeWordBeforeSeparator(word, [], IsGoSeparator);
      assert word + [] == word;
      assert word[|word|..] == [];
      assert !IsGoSeparator(word[0]);
      assert WordsOf(word, IsGoSeparator) == [word] + WordsOf([], IsGoSeparator);
    }
  }

  lemma {:induction false} TakeWordBeforeSeparator(w: string, t: string, sep: char -> bool)
    requires NoSep(w, sep) && (t == [] || sep(t[0]))
    ensures TakeWord(w + t, sep) == w
  {
    if w == [] {
      assert w + t == t;
    } else {
      assert (w + t)[1..] == w[1..] + t;
      TakeWordBeforeSeparator(w[1..], t, sep);
    }
  }

  /** The request body of `SubmitFeedback`; JSON `null` or an absent field is None. */
  datatype FeedbackRequest = FeedbackRequest(
    feedbackType: string, districtName: string, agencyId: Option<int>, feedbackText: string,
    rating: int, hotelName: string, hotelFeedback: string, hotelRating: Option<int>)

  predicate InRating(n: int) { 0 <= n <= 5 }

  /** The validation chain of `SubmitFeedback`: the first failing check names
      the error, None when every check passes. The word count is that of
      `splitWords`, which `SplitWords` computes. */
  function ValidateFeedback(req: FeedbackRequest): (err: Option<string>)
    ensures req.feedbackType != TripPlan && req.feedbackType != TravelAgency ==>
      err == Some("Invalid feedback type. Must be 'trip_plan' or 'travel_agency'")
    ensures err.None? <==>
      (req.feedbackType == TripPlan || req.feedbackType == TravelAgency) &&
      InRating(req.rating) &&
      |WordsOf(req.feedbackText, IsGoSeparator)| <= MaxWords &&
      (req.feedbackType == TripPlan ==> req.districtName != "") &&
      (req.hotelRating.Some? ==> InRating(req.hotelRating.value)) &&
      (req.feedbackType == TravelAgency ==> req.agencyId.Some?)
    ensures (req.feedbackType == TripPlan || req.feedbackType == TravelAgency) && !InRating(req.rating) ==>
      err == Some("Rating must be between 0 and 5")
    ensures (req.feedbackType == TripPlan || req.feedbackType == TravelAgency) && InRating(req.rating) &&
            |WordsOf(req.feedbackText, IsGoSeparator)| > MaxWords ==>
      err == Some("Feedback must be 0-25 words")
    ensures req.feedbackType == TripPlan && InRating(req.rating) &&
            |WordsOf(req.feedbackText, IsGoSeparator)| <= MaxWords && req.districtName == "" ==>
      err == Some("District name is required for trip plan feedback")
    ensures (req.feedbackType == TripPlan || req.feedbackType == TravelAgency) && InRating(req.rating) &&
            |WordsOf(req.feedbackText, IsGoSeparator)| <= MaxWords &&
            (req.feedbackType == TripPlan ==> req.districtName != "") &&
            req.hotelRating.Some? && !InRating(req.hotelRating.value) ==>
      err == Some("Hotel rating must be between 0 and 5")
    ensures req.feedbackType == TravelAgency && InRating(req.rating) &&
            |WordsOf(req.feedbackText, IsGoSeparator)| <= MaxWords &&
            (req.hotelRating.Some? ==> InRating(req.hotelRating.value)) && req.agencyId.None? ==>
      err == Some("Agency ID is required for travel agency feedback")
    ensures err == Some("Agency ID is required for travel agency feedback") ==>
      req.feedbackType == TravelAgency && req.agencyId.None? &&
      InRating(req.rating) && |WordsOf(req.feedbackText, IsGoSeparator)| <= MaxWords &&
      (req.hotelRating.Some? ==> InRating(req.hotelRating.value))
  {
    if req.feedbackType != TripPlan && req.feedbackType != TravelAgency then
      Some("Invalid feedback type. Must be 'trip_plan' or 'travel_agency'")
    else if !InRating(req.rating) then Some("Rating must be between 0 and 5")
    else if |WordsOf(req.feedbackText, IsGoSeparator)| > MaxWords then Some("Feedback must be 0-25 words")
    else if req.feedbackType == TripPlan && req.districtName == "" then
      Some("District name is required for trip plan feedback")
    else if req.hotelRating.Some? && !InRating(req.hotelRating.value) then
      Some("Hotel rating must be between 0 and 5")
    else if req.feedbackType == TravelAgency && req.agencyId.None? then
      Some("Agency ID is required for travel agency feedback")
    else None
  }

  /** The text stored for a feedback: empty text becomes the default sentence. */
  function StoredText(text: string): (r: string)
    ensures r != ""
    ensures text != "" ==> r == text
    ensures text == "" ==> r == NoComments
  {
    if text == "" then NoComments else text
  }

  /** `nullString` and SQL `NULLIF($n, '')`: NULL exactly for the empty string.
      The feedback page's `x || null` on a string is the same function. */
  function NullString(s: string): (r: Option<string>)
    ensures r.None? <==> s == ""
    ensures r.Some? ==> r.value == s
  {
    if s == "" then None else Some(s)
  }

  /** `nullInt`: NULL for nil and for 0, so 0 is never stored as a value. */
  function NullInt(i: Option<int>): (r: Option<int>)
    ensures r.None? <==> i.None? || i.value == 0
    ensures r.Some? ==> r.value == i.value && r.value != 0
  {
    if i.None? || i.value == 0 then None else Some(i.value)
  }

  /** A row of `feedbacks`; NULL columns are None. */
  datatype FeedbackRow = FeedbackRow(
    feedbackId: int, userId: int, feedbackType: string, agencyId: Option<int>,
    districtName: Option<string>, feedbackText: string, rating: int,
    hotelName: Option<string>, hotelFeedback: Option<string>, hotelRating: Option<int>)

  /** The row the two `INSERT`s write: agency feedback stores the agency and
      no district, trip feedback the district (NULL when empty) and no agency. */
  function StoredRow(feedbackId: int, userId: int, req: FeedbackRequest): (row: FeedbackRow)
    ensures row.feedbackText == StoredText(req.feedbackText) && row.rating == req.rating
    ensures row.hotelName == NullString(req.hotelName) && row.hotelFeedback == NullString(req.hotelFeedback)
    ensures row.hotelRating == NullInt(req.hotelRating)
    ensures req.feedbackType == TravelAgency && req.agencyId.Some? ==>
      row.agencyId == req.agencyId && row.districtName.None?
    ensures !(req.feedbackType == TravelAgency && req.agencyId.Some?) ==>
      row.agencyId.None? && row.districtName == NullString(req.districtName)
  {
    var common := FeedbackRow(feedbackId, userId, req.feedbackType, None, None, StoredText(req.feedbackText),
                              req.rating, NullString(req.hotelName), NullString(req.hotelFeedback),
                              NullInt(req.hotelRating));
    if req.feedbackType == TravelAgency && req.agencyId.Some? then common.(agencyId := req.agencyId)
    else common.(districtName := NullString(req.districtName))
  }

  predicate RowRated(row: FeedbackRow) {
    InRating(row.rating) && (row.hotelRating.Some? ==> InRating(row.hotelRating.value))
  }

  /** A request the chain accepts yields a row whose ratings are in range. */
  lemma {:induction false} AcceptedRowRated(feedbackId: int, userId: int, req: FeedbackRequest)
    requires ValidateFeedback(req).None?
    ensures RowRated(StoredRow(feedbackId, userId, req))
  {
    var row := StoredRow(feedbackId, userId, req);
    if row.hotelRating.Some? {
      assert row.hotelRating.value == req.hotelRating.value;
    }
  }

  /** Appending a row with ratings in range keeps every row's ratings in range. */
  lemma AppendRated(rows: seq<FeedbackRow>, row: FeedbackRow)
    requires forall i :: 0 <= i < |rows| ==> RowRated(rows[i])
    requires RowRated(row)
    ensures forall i :: 0 <= i < |rows + [row]| ==> RowRated((rows + [row])[i])
  {
    forall i | 0 <= i < |rows + [row]| ensures RowRated((rows + [row])[i]) {
      if i < |rows| { assert (rows + [row])[i] == rows[i]; }
    }
  }

  function SumRatings(fs: seq<FeedbackRow>): int {
    if fs == [] then 0 else SumRatings(fs[..|fs| - 1]) + fs[|fs| - 1].rating
  }

  /** The average the summaries report: 0 for no reviews. */
  function Average(fs: seq<FeedbackRow>): real {
    if |fs| == 0 then 0.0 else (SumRatings(fs) as real) / (|fs| as real)
  }

  /** The summary loops of `GetAgencyFeedbacks`, `GetFeedbacksByDistrict` and
      `GetPublicAgencyFeedbacks`: the count of rows and their mean rating. */
  method ReviewSummary(feedbacks: seq<FeedbackRow>) returns (totalReviews: nat, averageRating: real)
    ensures totalReviews == |feedbacks|
    ensures averageRating == Average(feedbacks)
    ensures feedbacks == [] ==> averageRating == 0.0
  {
    var totalRating := 0;
    var i := 0;
    while i < |feedbacks|
      invariant 0 <= i <= |feedbacks|
      invariant totalRating == SumRatings(feedbacks[..i])
    {
      assert feedbacks[..i + 1][..i] == feedbacks[..i];
      totalRating := totalRating + feedbacks[i].rating;
      i := i + 1;
    }
    assert feedbacks[..i] == feedbacks;
    averageRating := 0.0;
    if |feedbacks| > 0 {
      averageRating := (totalRating as real) / (|feedbacks| as real);
    }
    totalReviews := |feedbacks|;
  }

  lemma {:induction false} SumRatingsBounds(fs: seq<FeedbackRow>)
    requires forall i :: 0 <= i < |fs| ==> InRating(fs[i].rating)
    ensures 0 <= SumRatings(fs) <= 5 * |fs|
  {
    if fs != [] {
      SumRatingsBounds(fs[..|fs| - 1]);
    }
  }

  /** Stored ratings lie in [0, 5], so the reported average does too. */
  lemma AverageInRange(fs: seq<FeedbackRow>)
    requires forall i :: 0 <= i < |fs| ==> RowRated(fs[i])
    ensures 0.0 <= Average(fs) <= 5.0
  {
    if |fs| > 0 {
      SumRatingsBounds(fs);
      DivBounds(SumRatings(fs) as real, |fs| as real);
    }
  }

  lemma DivBounds(s: real, n: real)
    requires n > 0.0 && 0.0 <= s <= 5.0 * n
    ensures 0.0 <= s / n <= 5.0
  {
    assert s / n * n == s;
  }

  /** The `feedbacks` table, in insertion order, with the serial id it would
      hand out next. */
  class FeedbackStore {
    var rows: seq<FeedbackRow>
    var nextId: int

    /** Every row went through the validation chain. */
    ghost predicate Valid()
      reads this
    {
      forall i :: 0 <= i < |rows| ==> RowRated(rows[i])
    }

    constructor()
      ensures rows == [] && nextId == 1 && Valid()
    {
      rows, nextId := [], 1;
    }

    /** `SubmitFeedback` for the authenticated `userId`. */
    method Submit(userId: int, req: FeedbackRequest) returns (resp: Response)
      requires Valid()
      modifies this
      ensures Valid()
      ensures ValidateFeedback(req).Some? ==>
        resp == Response(StatusBadRequest, ValidateFeedback(req).value) &&
        rows == old(rows) && nextId == old(nextId)
      ensures ValidateFeedback(req).None? ==>
        resp == Response(StatusOK, "Feedback submitted successfully") &&
        rows == old(rows) + [StoredRow(old(nextId), userId, req)] && nextId == old(nextId) + 1
    {
      var err := ValidateFeedback(req);
      if err.Some? {
        return Response(StatusBadRequest, err.value);
      }
      var row := StoredRow(nextId, userId, req);
      AcceptedRowRated(nextId, userId, req);
      AppendRated(rows, row);
      rows := rows + [row];
      nextId := nextId + 1;
      return Response(StatusOK, "Feedback submitted successfully");
    }

    /** `DeleteFeedback`: only the caller's row with that id goes. */
    method Delete(userId: int, idText: string) returns (resp: Response)
      requires Valid()
      modifies this
      ensures Valid() && nextId == old(nextId)
      ensures idText == "" ==> resp == Response(StatusBadRequest, "Feedback ID is required") && rows == old(rows)
      ensures idText != "" && !Atoi(idText).ok ==>
        resp == Response(StatusBadRequest, "Invalid feedback ID") && rows == old(rows)
      ensures idText != "" && Atoi(idText).ok ==>
        rows == RemoveOwnFeedback(old(rows), Atoi(idText).value, userId) &&
        resp == if rows == old(rows) then
                  Response(StatusNotFound, "Feedback not found or you don't have permission to delete it")
                else Response(StatusOK, "Feedback deleted successfully")
    {
      if idText == "" {
        return Response(StatusBadRequest, "Feedback ID is required");
      }
      var parsed := Atoi(idText);
      if !parsed.ok {
        return Response(StatusBadRequest, "Invalid feedback ID");
      }
      var before := rows;
      rows := RemoveOwnFeedback(rows, parsed.value, userId);
      forall i | 0 <= i < |rows| ensures RowRated(rows[i]) {
        assert rows[i] in before;
      }
      if |rows| == |before| {
        return Response(StatusNotFound, "Feedback not found or you don't have permission to delete it");
      }
      return Response(StatusOK, "Feedback deleted successfully");
    }

    /** The rows of one agency and their summary, as `GetAgencyFeedbacks`
        reports them. */
    method AgencySummary(agencyId: int) returns (totalReviews: nat, averageRating: real)
      requires Valid()
      ensures totalReviews == |Filter(rows, (f: FeedbackRow) => f.agencyId == Some(agencyId))|
      ensures averageRating == Average(Filter(rows, (f: FeedbackRow) => f.agencyId == Some(agencyId)))
      ensures 0.0 <= averageRating <= 5.0
    {
      var mine := Filter(rows, (f: FeedbackRow) => f.agencyId == Some(agencyId));
      totalReviews, averageRating := ReviewSummary(mine);
      forall i | 0 <= i < |mine| ensures RowRated(mine[i]) {
        assert mine[i] in rows;
      }
      AverageInRange(mine);
    }
  }

  predicate OwnFeedback(row: FeedbackRow, feedbackId: int, userId: int) {
    row.feedbackId == feedbackId && row.userId == userId
  }

  /** `DELETE FROM feedbacks WHERE feedback_id = $1 AND user_id = $2`. */
  function RemoveOwnFeedback(rows: seq<FeedbackRow>, feedbackId: int, userId: int): (r: seq<FeedbackRow>)
    ensures forall x :: x in r <==> x in rows && !OwnFeedback(x, feedbackId, userId)
    ensures |r| == |rows| <==> forall i :: 0 <= i < |rows| ==> !OwnFeedback(rows[i], feedbackId, userId)
    ensures |r| == |rows| ==> r == rows
    ensures IsSubsequence(r, rows)
  {
    FilterIsSubsequence(rows, (x: FeedbackRow) => !OwnFeedback(x, feedbackId, userId));
    Filter(rows, (x: FeedbackRow) => !OwnFeedback(x, feedbackId, userId))
  }
}

=== FILE: FeedbackPage.dfy ===
/** The feedback form of frontend/src/components/Feedback.js: the word
    counter, the submit checks, the request body it sends, the type and
    rating handlers and the star row; and how its checks line up with the
    server's `SubmitFeedback` chain. */
module FeedbackPage {
  import opened Text
  import opened Maybe
  import opened Decimal
  import opened Words
  import opened FeedbackHandlers

  /** `text.trim().split(/\s+/).filter(word => word.length > 0).length`. */
  function CountWords(text: string): (n: nat) {
    |NonEmptyParts(SplitRuns(Trim(text), IsJsSpace))|
  }

  /** The count is the number of maximal runs of non-white-space characters. */
  lemma CountWordsRuns(text: string)
    ensures CountWords(text) == |WordsOf(text, IsJsSpace)| == WordStarts(text, IsJsSpace)
  {
    TrimSplitWords(text);
    WordsOfCount(text, IsJsSpace);
  }

  /** Empty and white-space-only text has no words. */
  lemma CountWordsBlank(text: string)
    requires forall i :: 0 <= i < |text| ==> IsJsSpace(text[i])
    ensures CountWords(text) == 0
  {
    CountWordsRuns(text);
    AllSepNoWords(text, IsJsSpace);
  }

  /** The page's steps. */
  datatype Step = Select | Form | History

  /** `formData`: the select and text inputs hold strings, the ratings numbers. */
  datatype FormData = FormData(
    districtName: string, agencyId: string, feedbackText: string, rating: int,
    hotelName: string, hotelFeedback: string, hotelRating: int)

  const EmptyForm := FormData("", "", "", 0, "", "", 0)

  /** The refusals of `handleSubmit`, and the message each shows. */
  datatype Refusal = TooManyWords | NoDistrict | NoRating | NoAgency {
    function Message(): string {
      match this
      case TooManyWords => "Feedback must be 0-25 words"
      case NoDistrict => "Please select a district"
      case NoRating => "Please select a rating"
      case NoAgency => "Please select a travel agency"
    }
  }

  /** The checks `handleSubmit` makes before sending, in their order, given
      the word count it computed first. */
  function ClientCheck(feedbackType: string, form: FormData, wordCount: nat): (err: Option<Refusal>)
    ensures err == Some(TooManyWords) <==> wordCount > MaxWords
    ensures err == Some(NoDistrict) <==>
      wordCount <= MaxWords && feedbackType == TripPlan && form.districtName == ""
    ensures err == Some(NoRating) <==>
      wordCount <= MaxWords && !(feedbackType == TripPlan && form.districtName == "") && form.rating == 0
    ensures err.None? <==>
      wordCount <= MaxWords &&
      (feedbackType == TripPlan ==> form.districtName != "") &&
      form.rating != 0 &&
      (feedbackType == TravelAgency ==> form.agencyId != "")
  {
    if wordCount > MaxWords then Some(TooManyWords)
    else if feedbackType == TripPlan && form.districtName == "" then Some(NoDistrict)
    else if form.rating == 0 then Some(NoRating)
    else if feedbackType == TravelAgency && form.agencyId == "" then Some(NoAgency)
    else None
  }

  /** The JSON body sent. None is `null` or a field left out; the two read the
      same on the server. `parseInt` of the agency id gives NaN, sent as
      `null`, for a value that is not a number. */
  datatype Payload = Payload(
    feedbackType: string, feedbackText: string, rating: int,
    hotelName: Option<string>, hotelFeedback: Option<string>, hotelRating: Option<int>,
    districtName: Option<string>, agencyId: Option<int>)

  /** The body `handleSubmit` posts; `x || null` on the hotel texts is
      `NullString`. */
  function BuildPayload(feedbackType: string, form: FormData): (p: Payload)
    ensures p.feedbackType == feedbackType && p.feedbackText == form.feedbackText && p.rating == form.rating
    ensures p.hotelName == NullString(form.hotelName) && p.hotelFeedback == NullString(form.hotelFeedback)
    ensures p.hotelRating.Some? <==> form.hotelRating > 0
    ensures p.hotelRating.Some? ==> p.hotelRating.value == form.hotelRating
    ensures p.districtName.Some? <==> feedbackType == TripPlan
    ensures p.districtName.Some? ==> p.districtName.value == form.districtName
    ensures feedbackType != TravelAgency ==> p.agencyId.None?
    ensures feedbackType == TravelAgency ==> p.agencyId == JsParseInt(form.agencyId, false)
  {
    Payload(feedbackType, form.feedbackText, form.rating,
            NullString(form.hotelName), NullString(form.hotelFeedback),
            if form.hotelRating > 0 then Some(form.hotelRating) else None,
            if feedbackType == TripPlan then Some(form.districtName) else None,
            if feedbackType == TravelAgency then JsParseInt(form.agencyId, false) else None)
  }

  /** How `json.Decode` fills the server's request from the body: a `null` or
      absent string is "", a `null` or absent number is nil. */
  function Decode(p: Payload): (req: FeedbackRequest)
    ensures req.feedbackType == p.feedbackType && req.feedbackText == p.feedbackText
    ensures req.rating == p.rating && req.hotelRating == p.hotelRating && req.agencyId == p.agencyId
    ensures req.districtName == p.districtName.GetOr("")
    ensures req.hotelName == p.hotelName.GetOr("") && req.hotelFeedback == p.hotelFeedback.GetOr("")
  {
    FeedbackRequest(p.feedbackType, p.districtName.GetOr(""), p.agencyId, p.feedbackText, p.rating,
                    p.hotelName.GetOr(""), p.hotelFeedback.GetOr(""), p.hotelRating)
  }

  /** A form the page accepts, filled in through its own controls (one of the
      two type cards, star clicks 1 to 5, hotel stars 0 to 5, an agency id
      from the list), is accepted by the server as long as the text holds no
      white space that only JavaScript counts as a separator. */
  lemma {:induction false} ClientAcceptedServerAccepts(feedbackType: string, form: FormData)
    requires feedbackType == TripPlan || feedbackType == TravelAgency
    requires 1 <= form.rating <= 5 && 0 <= form.hotelRating <= 5
    requires feedbackType == TravelAgency ==> JsParseInt(form.agencyId, false).Some?
    requires forall i :: 0 <= i < |form.feedbackText| ==>
      IsJsSpace(form.feedbackText[i]) == IsGoSeparator(form.feedbackText[i])
    requires ClientCheck(feedbackType, form, CountWords(form.feedbackText)).None?
    ensures ValidateFeedback(Decode(BuildPayload(feedbackType, form))).None?
  {
    CountWordsRuns(form.feedbackText);
    WordsOfSameSeparators(form.feedbackText, IsJsSpace, IsGoSeparator);
  }

  /** The client refuses rating 0 ... */
  lemma ClientRejectsRatingZero(form: FormData)
    requires form.rating == 0 && form.districtName != "" && form.feedbackText == ""
    ensures ClientCheck(TripPlan, form, CountWords(form.feedbackText)) == Some(NoRating)
  {
    assert CountWords("") == 0 by { CountWordsBlank(""); }
  }

  /** ... which the server accepts and stores. */
  lemma ServerStoresRatingZero(district: string)
    requires district != ""
    ensures ValidateFeedback(FeedbackRequest(TripPlan, district, None, "", 0, "", "", None)).None?
  {
    assert WordsOf("", IsGoSeparator) == [];
  }

  /** A hotel rating left at 0 is sent as null, and so never stored. */
  lemma HotelRatingZeroNull(feedbackType: string, form: FormData, feedbackId: int, userId: int)
    requires form.hotelRating == 0
    ensures StoredRow(feedbackId, userId, Decode(BuildPayload(feedbackType, form))).hotelRating.None?
  {
  }

  // ---------------------------------------------------------------------------
  // Where the two word counts part

  function Repeat(s: string, n: nat): (r: string)
    ensures |r| == n * |s|
  {
    if n == 0 then [] else s + Repeat(s, n - 1)
  }

  lemma {:induction false} RepeatAllSep(s: string, n: nat, sep: char -> bool)
    requires AllSep(s, sep)
    ensures AllSep(Repeat(s, n), sep)
  {
    if n > 0 {
      RepeatAllSep(s, n - 1, sep);
      var r := Repeat(s, n);
      forall i | 0 <= i < |r| ensures sep(r[i]) {
        if i >= |s| { assert r[i] == Repeat(s, n - 1)[i - |s|]; }
      }
    }
  }

  lemma {:induction false} RepeatNoSep(s: string, n: nat, sep: char -> bool)
    requires NoSep(s, sep)
    ensures NoSep(Repeat(s, n), sep)
  {
    if n > 0 {
      RepeatNoSep(s, n - 1, sep);
      var r := Repeat(s, n);
      forall i | 0 <= i < |r| ensures !sep(r[i]) {
        if i >= |s| { assert r[i] == Repeat(s, n - 1)[i - |s|]; }
      }
    }
  }

  /** A non-empty text without separators is one word. */
  lemma WordsOfOneWord(s: string, sep: char -> bool)
    requires s != [] && NoSep(s, sep)
    ensures WordsOf(s, sep) == [s]
  {
    var w := TakeWord(s, sep);
    assert !sep(s[0]);
    assert |w| == |s| && w == s[..|s|] == s;
    assert s[|w|..] == [];
    assert WordsOf(s, sep) == [w] + WordsOf([], sep);
  }

  /** "\r " repeated n times: n words for the server, none for the client. */
  lemma CarriageReturnWords(n: nat)
    ensures |WordsOf(Repeat("\r ", n), IsGoSeparator)| == n
    ensures CountWords(Repeat("\r ", n)) == 0
  {
    RepeatAllSep("\r ", n, IsJsSpace);
    CountWordsBlank(Repeat("\r ", n));
    GoWordsOfCarriageReturns(n);
  }

  lemma {:induction false} GoWordsOfCarriageReturns(n: nat)
    ensures |WordsOf(Repeat("\r ", n), IsGoSeparator)| == n
  {
    if n > 0 {
      GoWordsOfCarriageReturns(n - 1);
      var s := Repeat("\r ", n);
      var rest := Repeat("\r ", n - 1);
      assert s == "\r " + rest;
      assert TakeWord(s, IsGoSeparator) == "\r" by {
        assert s[1..][0] == ' ';
      }
      assert s[1..][1..] == rest;
      assert WordsOf(s, IsGoSeparator) == ["\r"] + WordsOf(rest, IsGoSeparator);
    }
  }

  /** "a\r" repeated n times: n words for the client, one for the server. */
  lemma {:induction false} LetterCarriageReturnWords(n: nat)
    requires n >= 1
    ensures CountWords(Repeat("a\r", n)) == n
    ensures |WordsOf(Repeat("a\r", n), IsGoSeparator)| == 1
  {
    RepeatNoSep("a\r", n, IsGoSeparator);
    WordsOfOneWord(Repeat("a\r", n), IsGoSeparator);
    JsWordsOfLetters(n);
    CountWordsRuns(Repeat("a\r", n));
  }

  lemma {:induction false} JsWordsOfLetters(n: nat)
    ensures |WordsOf(Repeat("a\r", n), IsJsSpace)| == n
  {
    if n > 0 {
      JsWordsOfLetters(n - 1);
      var s := Repeat("a\r", n);
      var rest := Repeat("a\r", n - 1);
      assert s == "a\r" + rest;
      assert TakeWord(s, IsJsSpace) == "a" by {
        assert s[1..][0] == '\r';
      }
      assert s[1..][1..] == rest;
      assert WordsOf(s, IsJsSpace) == ["a"] + WordsOf(rest, IsJsSpace);
    }
  }

  /** The counts disagree in both directions: 26 carriage-return "words"
      pass the page and fail the server; 26 letters separated by carriage
      returns fail the page and pass the server. */
  lemma WordCountsDisagree()
    ensures CountWords(Repeat("\r ", 26)) <= MaxWords < |WordsOf(Repeat("\r ", 26), IsGoSeparator)|
    ensures |WordsOf(Repeat("a\r", 26), IsGoSeparator)| <= MaxWords < CountWords(Repeat("a\r", 26))
  {
    CarriageReturnWords(26);
    LetterCarriageReturnWords(26);
  }

  // ---------------------------------------------------------------------------
  // renderStars

  /** Star `i + 1` of the five is filled iff `i + 1 <= rating`. */
  function Stars(rating: int): (filled: seq<bool>)
    ensures |filled| == 5
    ensures forall i :: 0 <= i < 5 ==> (filled[i] <==> i + 1 <= rating)
  {
    seq(5, i => i + 1 <= rating)
  }

  function CountFilled(stars: seq<bool>): nat {
    if stars == [] then 0 else (if stars[0] then 1 else 0) + CountFilled(stars[1..])
  }

  /** The filled stars are a prefix, as many as the rating clamped to [0, 5]. */
  lemma StarsFilled(rating: int)
    ensures CountFilled(Stars(rating)) == if rating < 0 then 0 else if rating > 5 then 5 else rating
    ensures forall i, j :: 0 <= i <= j < 5 && Stars(rating)[j] ==> Stars(rating)[i]
  {
    var s := Stars(rating);
    assert s[5..] == [];
    assert CountFilled(s[4..]) == (if s[4] then 1 else 0) by { assert s[4..][1..] == s[5..]; }
    assert CountFilled(s[3..]) == (if s[3] then 1 else 0) + CountFilled(s[4..]) by { assert s[3..][1..] == s[4..]; }
    assert CountFilled(s[2..]) == (if s[2] then 1 else 0) + CountFilled(s[3..]) by { assert s[2..][1..] == s[3..]; }
    assert CountFilled(s[1..]) == (if s[1] then 1 else 0) + CountFilled(s[2..]) by { assert s[1..][1..] == s[2..]; }
    assert CountFilled(s) == (if s[0] then 1 else 0) + CountFilled(s[1..]);
  }

  // ---------------------------------------------------------------------------
  // The page's state

  datatype RatingField = Rating | HotelRating

  /** The message shown after the checks: the refusal's, or none. */
  function MessageOf(check: Option<Refusal>): (m: string)
    ensures m == "" <==> check.None?
  {
    if check.Some? then check.value.Message() else ""
  }

  class FeedbackForm {
    var step: Step
    var feedbackType: string
    var form: FormData
    var error: string

    constructor()
      ensures step == Select && feedbackType == "" && form == EmptyForm && error == ""
    {
      step := Select;
      feedbackType := "";
      form := EmptyForm;
      error := "";
    }

    /** `handleTypeSelect`: the chosen type, the form step, every field back to its default. */
    method SelectType(t: string)
      modifies this
      ensures feedbackType == t && step == Form && form == EmptyForm && error == old(error)
    {
      feedbackType := t;
      step := Form;
      form := EmptyForm;
    }

    /** `handleRatingClick`: only the named field changes. */
    method ClickRating(star: int, field: RatingField)
      modifies this
      ensures field == Rating ==> form == old(form).(rating := star)
      ensures field == HotelRating ==> form == old(form).(hotelRating := star)
      ensures step == old(step) && feedbackType == old(feedbackType) && error == old(error)
    {
      match field
      case Rating => form := form.(rating := star);
      case HotelRating => form := form.(hotelRating := star);
    }

    /** `handleSubmit` up to the request: the first failing check becomes the
        error message and nothing is sent; otherwise the body is sent and the
        message is cleared. */
    method Submit() returns (sent: Option<Payload>)
      modifies this`error
      ensures sent.None? <==> ClientCheck(old(feedbackType), old(form), CountWords(old(form).feedbackText)).Some?
      ensures error == MessageOf(ClientCheck(old(feedbackType), old(form), CountWords(old(form).feedbackText)))
      ensures sent.Some? ==> sent.value == BuildPayload(old(feedbackType), old(form))
    {
      var wordCount := CountWords(form.feedbackText);
      var check := ClientCheck(feedbackType, form, wordCount);
      sent := if check.Some? then None else Some(BuildPayload(feedbackType, form));
      error := MessageOf(check);
    }
  }

  /** Clicking star k after picking a type gives a rating the page accepts
      for an empty trip-plan text once a district is chosen. */
  lemma ClickedRatingAccepted(k: int, district: string)
    requires 1 <= k <= 5 && district != ""
    ensures ClientCheck(TripPlan, EmptyForm.(rating := k, districtName := district), CountWords("")).None?
  {
    assert CountWords("") == 0 by { CountWordsBlank(""); }
  }
}

=== FILE: GenerateTripPage.dfy ===
/** The trip generator page, frontend/src/components/GenerateTrip.js: the
    date check made before the request is sent, and `formatTripDetails`, the
    classifier that turns the generated text into display elements, line by
    line. frontend/src/components/SavedTrips.js carries a copy of the same
    classifier, which this module models once. */
module GenerateTripPage {
  import opened Text
  import opened Maybe
  import Groq

  // ---------------------------------------------------------------------------
  // Line classifier

  /** The element a line becomes: `h3`, `h2`, bold `p`, `li`, `br` or `p`. */
  datatype Element =
    | Heading(text: string)
    | Title(text: string)
    | Bold(text: string)
    | ListItem(text: string)
    | Break
    | Plain(text: string)

  /** The classification of one line; the tests run in this order. */
  function FormatLine(line: string): Element {
    if StartsWith(line, "##") then Heading(ReplaceFirst(line, "##", ""))
    else if StartsWith(line, "#") then Title(ReplaceFirst(line, "#", ""))
    else if StartsWith(line, "**") && EndsWith(line, "**") then Bold(RemoveAll(line, "**"))
    else if StartsWith(line, "- ") || StartsWith(line, "* ") then ListItem(line[2..])
    else if Trim(line) == "" then Break
    else Plain(line)
  }

  /** `details.split('\n').map(...)`: one element per line, in order. */
  function FormatTripDetails(details: string): (elements: seq<Element>)
    ensures |elements| == |SplitOn(details, "\n")|
    ensures forall k :: 0 <= k < |elements| ==> elements[k] == FormatLine(SplitOn(details, "\n")[k])
  {
    var lines := SplitOn(details, "\n");
    seq(|lines|, k requires 0 <= k < |lines| => FormatLine(lines[k]))
  }

  /** There is an element for every line: one more than there are line
      breaks, and the lines joined again give back the text. */
  lemma ElementPerLine(details: string)
    ensures |FormatTripDetails(details)| == CountChar(details, '\n') + 1
    ensures Join(SplitOn(details, "\n"), "\n") == details
  {
    SplitOnCharCount(details, '\n');
    JoinSplitOn(details, "\n");
  }

  /** `##` is checked first, and `replace` with a string removes only its
      first occurrence: the heading is the line after the leading marker,
      whatever markers follow. */
  lemma HeadingDropsLeadingMarker(line: string)
    requires StartsWith(line, "##")
    ensures FormatLine(line) == Heading(line[2..])
  {
    ReplaceFirstAtStart(line, "##");
  }

  /** A single `#` makes a title of the rest of the line. */
  lemma TitleDropsLeadingMarker(line: string)
    requires StartsWith(line, "#") && !StartsWith(line, "##")
    ensures FormatLine(line) == Title(line[1..])
  {
    ReplaceFirstAtStart(line, "#");
  }

  /** A line is bold exactly when it starts and ends with `**` and no `#`
      comes first; its text is the line with every `**` taken out, which is
      the concatenation of the pieces between the markers. */
  lemma BoldOnlyBetweenMarkers(line: string)
    ensures FormatLine(line).Bold? <==>
      !StartsWith(line, "#") && StartsWith(line, "**") && EndsWith(line, "**")
    ensures FormatLine(line).Bold? ==> FormatLine(line).text == Concat(SplitOn(line, "**"))
  {
    if FormatLine(line).Bold? {
      ConcatSplitOn(line, "**");
    }
    if StartsWith(line, "##") {
      assert StartsWith(line, "#") by { assert line[..1] == line[..2][..1]; }
    }
  }

  /** A bullet marker starts a list item of the rest of the line, unless the
      line is a heading, a title or bold. */
  lemma ListItemDropsBullet(line: string)
    requires StartsWith(line, "- ") || StartsWith(line, "* ")
    ensures FormatLine(line) == ListItem(line[2..])
  {
    assert line[0] == line[..2][0] && line[1] == line[..2][1];
    assert line[..1] == [line[0]];
  }

  /** Only a line of white space is a break, and a line none of the markers
      open is shown as it is. */
  lemma PlainIsVerbatim(line: string)
    ensures FormatLine(line) == Break ==> forall i :: 0 <= i < |line| ==> IsJsSpace(line[i])
    ensures FormatLine(line).Plain? ==> FormatLine(line).text == line && !StartsWith(line, "#")
    ensures (!StartsWith(line, "#") && !StartsWith(line, "**") && !StartsWith(line, "- ") &&
             !StartsWith(line, "* ") && exists i :: 0 <= i < |line| && !IsJsSpace(line[i])) ==>
      FormatLine(line) == Plain(line)
  {
  }

  /** A line break of Windows text stays on the line, so a bold line ending
      in a carriage return is shown with its asterisks. */
  lemma CarriageReturnDefeatsBold(inner: string)
    ensures FormatLine("**" + inner + "**\r") == Plain("**" + inner + "**\r")
  {
    var line := "**" + inner + "**\r";
    assert line[..2] == "**";
    assert line[|line| - 2..] == "*\r";
    assert line[..1] == "*";
    assert line[..2] != "- " && line[..2] != "* ";
    assert !IsJsSpace(line[0]);
  }

  // ---------------------------------------------------------------------------
  // Date check

  /** `new Date(start) >= new Date(end)`: comparing an invalid date gives
      false, so the check lets a missing or malformed date through. */
  predicate EndNotAfterStart(start: Groq.Day, end: Groq.Day) {
    start.Some? && end.Some? && start.value >= end.value
  }

  /** What `handleSubmit` does: set the error and send nothing, or send the
      form. */
  datatype Submitted = DateError(message: string) | Sent(start: Groq.Day, end: Groq.Day)

  function Submit(start: Groq.Day, end: Groq.Day): (s: Submitted)
    ensures s.DateError? <==> EndNotAfterStart(start, end)
    ensures s.DateError? ==> s.message == "End date must be after start date"
    ensures s.Sent? ==> s == Sent(start, end)
  {
    if EndNotAfterStart(start, end) then DateError("End date must be after start date")
    else Sent(start, end)
  }

  /** Every trip with two valid dates that the page sends lasts at least two
      days on the server: the one-day trip the server could plan is never
      asked for. */
  lemma SentTripsLastTwoDays(s: int, e: int)
    requires Submit(Some(s), Some(e)).Sent?
    requires e - s <= Groq.MaxDurationDays
    ensures Groq.Duration(Some(s), Some(e)) >= 2
    ensures Submit(Some(s), Some(s)).DateError?
  {
    Groq.DurationCountsDays(s, e);
  }
}

=== FILE: Groq.dfy ===
/** The prompt parameters `GenerateTripWithGroq` (backend/utils/groq.go)
    derives from a trip request: the missing-key guard, the trip duration,
    the companions description and the activities for a mood. The prompt
    wording itself, the API call and the appended cost and weather sections
    are not modelled. */
module Groq {
  import opened Maybe
  import opened Decimal

  /** A calendar date as a day number, day 0 being 0001-01-01 (Go's zero
      time). `None` is a date `time.Parse` rejects; the source ignores that
      error and goes on with the zero time. */
  type Day = Option<int>

  function DayOrZero(d: Day): (n: int)
    ensures d.Some? ==> n == d.value
    ensures d.None? ==> n == 0
  {
    d.GetOr(0)
  }

  /** The largest number of whole days a `time.Duration` (nanoseconds in an
      int64) can hold: `Sub` saturates there. */
  const MaxDurationDays: int := 106751

  /** `int(endDate.Sub(startDate).Hours()/24)` for dates at midnight UTC:
      the day difference, saturated like `Sub`. */
  function DayDifference(start: Day, end: Day): (d: int)
    ensures -MaxDurationDays <= d <= MaxDurationDays
    ensures -MaxDurationDays <= DayOrZero(end) - DayOrZero(start) <= MaxDurationDays ==>
      d == DayOrZero(end) - DayOrZero(start)
    ensures DayOrZero(end) - DayOrZero(start) > MaxDurationDays ==> d == MaxDurationDays
    ensures DayOrZero(end) - DayOrZero(start) < -MaxDurationDays ==> d == -MaxDurationDays
  {
    var diff := DayOrZero(end) - DayOrZero(start);
    if diff > MaxDurationDays then MaxDurationDays
    else if diff < -MaxDurationDays then -MaxDurationDays
    else diff
  }

  /** The trip length in days, both ends counted. */
  function Duration(start: Day, end: Day): (n: int)
    ensures n == DayDifference(start, end) + 1
    ensures 1 - MaxDurationDays <= n <= 1 + MaxDurationDays
  {
    DayDifference(start, end) + 1
  }

  /** For valid dates no more than the saturation bound apart, the duration
      is the number of calendar days from start to end inclusive; it is at
      least 2 exactly when the end is after the start. */
  lemma DurationCountsDays(s: int, e: int)
    requires -MaxDurationDays <= e - s <= MaxDurationDays
    ensures Duration(Some(s), Some(e)) == e - s + 1
    ensures Duration(Some(s), Some(e)) >= 2 <==> s < e
  {
  }

  /** An unparsable date counts as day 0, so a trip from an unparsable start
      to an ordinary date is as long as the saturation bound allows. */
  lemma UnparsableStart(e: int)
    requires e > MaxDurationDays
    ensures Duration(None, Some(e)) == MaxDurationDays + 1
  {
  }

  /** The companions description for a number of travellers. */
  function Companions(numTravelers: int): (c: string)
    ensures numTravelers == 1 <==> c == "solo"
    ensures numTravelers == 2 <==> c == "couple"
    ensures numTravelers != 1 && numTravelers != 2 && numTravelers <= 5 ==>
      c == "group of " + IntToString(numTravelers)
    ensures numTravelers > 5 ==> c == "large group of " + IntToString(numTravelers)
  {
    if numTravelers == 1 then "solo"
    else if numTravelers == 2 then "couple"
    else if numTravelers <= 5 then "group of " + IntToString(numTravelers)
    else "large group of " + IntToString(numTravelers)
  }

  /** Distinct counts give distinct descriptions. */
  lemma CompanionsInjective(m: int, n: int)
    requires Companions(m) == Companions(n)
    ensures m == n
  {
    var cm := Companions(m);
    CompanionsFirstLetter(m);
    CompanionsFirstLetter(n);
    if m != 1 && m != 2 && n != 1 && n != 2 {
      if m <= 5 && n <= 5 {
        assert cm[9..] == IntToString(m) && cm[9..] == IntToString(n);
        IntToStringInjective(m, n);
      } else if m > 5 && n > 5 {
        assert cm[15..] == IntToString(m) && cm[15..] == IntToString(n);
        IntToStringInjective(m, n);
      }
    }
  }

  lemma CompanionsFirstLetter(n: int)
    ensures n != 1 && n != 2 ==> (Companions(n)[0] == 'g' <==> n <= 5)
  {
  }

  lemma IntToStringInjective(m: int, n: int)
    requires IntToString(m) == IntToString(n)
    ensures m == n
  {
    var s := IntToString(m);
    if m < 0 && n < 0 {
      assert s[1..] == NatToString(-m) && s[1..] == NatToString(-n);
      assert DigitsValue(NatToString(-m)) == -m;
    } else if m >= 0 && n >= 0 {
      assert DigitsValue(NatToString(m)) == m;
    }
  }

  const Cultural := "cultural exploration, museums, temples, local traditions, art galleries"
  const NaturalBeauty := "nature exploration, scenic viewpoints, parks, gardens, natural landscapes"
  const Historical := "historical monuments, heritage sites, forts, palaces, ancient architecture"
  const Adventure := "adventure activities, trekking, outdoor sports, thrilling experiences"
  const Relaxation := "relaxation, spa, peaceful locations, wellness, serene environments"
  const DefaultActivities := "diverse tourist attractions and local experiences"

  predicate KnownMood(mood: string) {
    mood in {"cultural", "natural_beauty", "historical", "adventure", "relaxation"}
  }

  /** The activities text for a mood: five fixed texts, anything else the default. */
  function Activities(mood: string): (a: string)
    ensures mood == "cultural" ==> a == Cultural
    ensures mood == "natural_beauty" ==> a == NaturalBeauty
    ensures mood == "historical" ==> a == Historical
    ensures mood == "adventure" ==> a == Adventure
    ensures mood == "relaxation" ==> a == Relaxation
    ensures a == DefaultActivities <==> !KnownMood(mood)
  {
    match mood
    case "cultural" => Cultural
    case "natural_beauty" => NaturalBeauty
    case "historical" => Historical
    case "adventure" => Adventure
    case "relaxation" => Relaxation
    case _ => DefaultActivities
  }

  /** The client's default mood "culture" is not one of the five and gets
      the default text, as do "food", "beach" and "shopping", the other
      choices the page offers; only "adventure" and "relaxation" get their
      own text. */
  lemma ClientDefaultMood()
    ensures Activities("culture") == DefaultActivities
    ensures Activities("food") == Activities("beach") == Activities("shopping") == DefaultActivities
    ensures Activities("adventure") == Adventure && Activities("relaxation") == Relaxation
  {
  }

  /** The numbers the prompt states: the trip length, the last exploration
      day ("Days 2 to ...") and the return day ("Day ... should be: Return"). */
  datatype PromptDays = PromptDays(totalDays: int, explorationEnd: int, returnDay: int)

  /** The request fields the model reads. */
  datatype TripRequest = TripRequest(
    initialDestination: string, finalDestination: string,
    startDate: Day, endDate: Day, numTravelers: int, mood: string)

  datatype PromptParameters = PromptParameters(days: PromptDays, companions: string, activities: string)

  datatype Generated = Failed(error: string) | Prompted(parameters: PromptParameters)

  /** `GenerateTripWithGroq` up to the API call: a missing key fails first. */
  function TripPrompt(apiKey: string, req: TripRequest): (g: Generated)
    ensures apiKey == "" <==> g == Failed("GROQ_API_KEY not set")
    ensures g.Prompted? ==>
      var d := g.parameters.days;
      d.totalDays == Duration(req.startDate, req.endDate) &&
      d.returnDay == d.totalDays && d.explorationEnd == d.returnDay - 1 &&
      g.parameters.companions == Companions(req.numTravelers) &&
      g.parameters.activities == Activities(req.mood)
  {
    if apiKey == "" then Failed("GROQ_API_KEY not set")
    else
      var duration := Duration(req.startDate, req.endDate);
      Prompted(PromptParameters(PromptDays(duration, duration - 1, duration),
                                Companions(req.numTravelers), Activities(req.mood)))
  }

  /** A one-day trip (start equal to end) asks for exploration "Days 2 to 0":
      the exploration range is empty and the return day is day 1. */
  lemma SameDayTrip(apiKey: string, req: TripRequest)
    requires apiKey != "" && req.startDate.Some? && req.startDate == req.endDate
    ensures TripPrompt(apiKey, req).parameters.days == PromptDays(1, 0, 1)
  {
  }
}

=== FILE: Http.dfy ===
/** The part of an HTTP reply the handlers decide: its status code and its
    message (the `message` field of a JSON body, or the text of `http.Error`). */
module Http {
  import opened Maybe

  datatype Response = Response(status: int, message: string)

  /** A decision that either lets the request go on with a value or ends it
      with a reply. */
  datatype Outcome<T> = Proceed(value: T) | Stop(reply: Response)

  const StatusOK := 200
  const StatusBadRequest := 400
  const StatusUnauthorized := 401
  const StatusForbidden := 403
  const StatusNotFound := 404
  const StatusConflict := 409
  const StatusInternalServerError := 500

  /** The error line the client pages show for a failed request:
      `typeof message === 'string' ? message : fallback` with
      `message = err.response?.data || fallback`. `data` is the reply body
      when it is a string, `None` for no reply or a body of another type. */
  function FailureText(data: Option<string>, fallback: string): (t: string)
    ensures t != "" <==> fallback != "" || (data.Some? && data.value != "")
    ensures data.Some? && data.value != "" ==> t == data.value
    ensures data.None? || data.value == "" ==> t == fallback
  {
    if data.Some? && data.value != "" then data.value else fallback
  }
}

=== FILE: LocationSearchBox.dfy ===
/** The place-name input with suggestions,
    frontend/src/components/LocationSearch.js: the display name built from a
    geocoder result, the suggestion record, picking a suggestion, and the
    minimum query length. The geocoder request and the debounce timer are
    not modelled; their outcome is a parameter. */
module LocationSearchBox {
  import opened Text
  import opened Maybe

  /** The `address` object of a geocoder result; a missing or empty field is
      falsy. */
  datatype Address = Address(
    city: Option<string>, town: Option<string>, village: Option<string>,
    state: Option<string>, country: Option<string>)

  datatype Item = Item(displayName: string, address: Option<Address>)

  /** A field that is present and non-empty, as JavaScript's truthiness has it. */
  predicate Present(field: Option<string>) {
    field.Some? && field.value != ""
  }

  /** The first present of city, town and village. */
  function Locality(a: Option<Address>): (l: Option<string>)
    ensures l.Some? ==> l.value != ""
    ensures a.None? ==> l.None?
    ensures a.Some? && Present(a.value.city) ==> l == a.value.city
    ensures a.Some? && !Present(a.value.city) && Present(a.value.town) ==> l == a.value.town
    ensures a.Some? && !Present(a.value.city) && !Present(a.value.town) ==>
      (l.Some? <==> Present(a.value.village)) && (l.Some? ==> l == a.value.village)
  {
    if a.None? then None
    else if Present(a.value.city) then a.value.city
    else if Present(a.value.town) then a.value.town
    else if Present(a.value.village) then a.value.village
    else None
  }

  /** The `parts` `formatDisplayName` pushes. */
  function DisplayParts(item: Item): (parts: seq<string>)
    ensures |parts| <= 3
    ensures forall i :: 0 <= i < |parts| ==> parts[i] != ""
  {
    var a := item.address;
    var first := if Locality(a).Some? then [Locality(a).value] else [];
    var withState :=
      if a.Some? && Present(a.value.state) && a.value.state.value !in first
      then first + [a.value.state.value] else first;
    if a.Some? && Present(a.value.country) then withState + [a.value.country.value] else withState
  }

  /** `formatDisplayName`: the parts joined by ", ", or the result's own
      display name when there are none. */
  function FormatDisplayName(item: Item): string {
    var joined := Join(DisplayParts(item), ", ");
    if joined != "" then joined else item.displayName
  }

  lemma {:induction false} JoinNonEmpty(parts: seq<string>, sep: string)
    requires parts != [] && parts[0] != ""
    ensures Join(parts, sep) != ""
    ensures StartsWith(Join(parts, sep), parts[0])
  {
    if |parts| > 1 {
      assert Join(parts, sep) == parts[0] + (sep + Join(parts[1..], sep));
    }
  }

  /** The name shows the locality first, the state only when it differs
      from the locality, the country last, and falls back to the result's
      display name only when the address gives nothing. */
  lemma DisplayNameLayout(item: Item)
    ensures DisplayParts(item) == [] ==> FormatDisplayName(item) == item.displayName
    ensures DisplayParts(item) != [] ==> FormatDisplayName(item) == Join(DisplayParts(item), ", ")
    ensures Locality(item.address).Some? ==>
      StartsWith(FormatDisplayName(item), Locality(item.address).value)
    ensures item.address.Some? && Present(item.address.value.state) &&
            Locality(item.address) != item.address.value.state ==>
      item.address.value.state.value in DisplayParts(item)
    ensures item.address.Some? && Locality(item.address).Some? && Locality(item.address) == item.address.value.state ==>
      DisplayParts(item) ==
        [Locality(item.address).value] +
        (if Present(item.address.value.country) then [item.address.value.country.value] else [])
    ensures item.address.Some? && Present(item.address.value.country) ==>
      DisplayParts(item)[|DisplayParts(item)| - 1] == item.address.value.country.value
  {
    var parts := DisplayParts(item);
    if parts != [] {
      JoinNonEmpty(parts, ", ");
    }
  }

  /** A suggestion as `searchLocations` records it. */
  datatype Suggestion = Suggestion(name: string, city: string, country: string, state: string, displayName: string)

  function OrEmpty(field: Option<string>): (s: string)
    ensures Present(field) ==> s == field.value
    ensures !Present(field) ==> s == ""
  {
    if Present(field) then field.value else ""
  }

  /** The record made of one geocoder result; its city is the locality, or "". */
  function ToSuggestion(item: Item): (s: Suggestion)
    ensures s.city == if Locality(item.address).Some? then Locality(item.address).value else ""
    ensures s.displayName == FormatDisplayName(item) && s.name == item.displayName
  {
    var a := item.address;
    Suggestion(
      item.displayName,
      if Locality(a).Some? then Locality(a).value else "",
      if a.Some? then OrEmpty(a.value.country) else "",
      if a.Some? then OrEmpty(a.value.state) else "",
      FormatDisplayName(item))
  }

  function ToSuggestions(items: seq<Item>): (ss: seq<Suggestion>)
    ensures |ss| == |items|
    ensures forall i :: 0 <= i < |items| ==> ss[i] == ToSuggestion(items[i])
  {
    seq(|items|, i requires 0 <= i < |items| => ToSuggestion(items[i]))
  }

  /** `suggestion.city || suggestion.displayName.split(',')[0]`. */
  function SelectedValue(s: Suggestion): (v: string)
    ensures s.city != "" ==> v == s.city
    ensures s.city == "" ==> v == SplitOn(s.displayName, ",")[0]
  {
    if s.city != "" then s.city else SplitOn(s.displayName, ",")[0]
  }

  /** The first piece of a split is what comes before the first separator. */
  lemma {:induction false} SplitOnFirstPiece(a: string, b: string, c: char)
    requires c !in a
    ensures SplitOn(a + [c] + b, [c])[0] == a
    decreases |a|
  {
    var s := a + [c] + b;
    if a == [] {
      assert s[..1] == [c];
    } else {
      assert s[0] == a[0] && a[0] != c;
      assert s[..1] != [c];
      assert s[1..] == a[1..] + [c] + b;
      SplitOnFirstPiece(a[1..], b, c);
      assert a == [a[0]] + a[1..];
    }
  }

  /** Picking a suggestion without a locality yields the first part of its
      display name, when that part holds no comma: the state, or else the
      country. */
  lemma SelectWithoutLocality(item: Item)
    requires Locality(item.address).None? && |DisplayParts(item)| >= 2
    requires ',' !in DisplayParts(item)[0]
    ensures SelectedValue(ToSuggestion(item)) == DisplayParts(item)[0]
  {
    var parts := DisplayParts(item);
    JoinNonEmpty(parts, ", ");
    assert Join(parts, ", ") == parts[0] + [','] + (" " + Join(parts[1..], ", "));
    SplitOnFirstPiece(parts[0], " " + Join(parts[1..], ", "), ',');
  }

  /** Queries shorter than this are not searched. */
  const MinQueryLength := 3

  /** The input's state. */
  class SearchBox {
    var query: string
    var suggestions: seq<Suggestion>
    var showSuggestions: bool

    constructor(value: string)
      ensures query == value && suggestions == [] && !showSuggestions
    {
      query, suggestions, showSuggestions := value, [], false;
    }

    /** `handleInputChange`: the typed text, also passed to the parent. */
    method Input(value: string) returns (passed: string)
      modifies this`query
      ensures query == value && passed == value
    {
      query := value;
      return value;
    }

    /** The debounced effect with `searchLocations`: a query of fewer than
        three units clears the list; a longer one asks the geocoder, whose
        results (`None` on failure) replace the list, shown when they
        arrive. */
    method QuerySettled(results: Option<seq<Item>>) returns (searched: bool)
      modifies this`suggestions, this`showSuggestions
      ensures searched <==> JsLength(query) >= MinQueryLength
      ensures !searched ==> suggestions == [] && showSuggestions == old(showSuggestions)
      ensures searched && results.None? ==> suggestions == [] && showSuggestions == old(showSuggestions)
      ensures searched && results.Some? ==> suggestions == ToSuggestions(results.value) && showSuggestions
    {
      if JsLength(query) < MinQueryLength {
        suggestions := [];
        return false;
      }
      if results.Some? {
        suggestions := ToSuggestions(results.value);
        showSuggestions := true;
      } else {
        suggestions := [];
      }
      return true;
    }

    /** `handleSelectSuggestion`: the chosen value goes into the input and
        to the parent, and the list closes empty. */
    method Select(s: Suggestion) returns (passed: string)
      modifies this`query, this`suggestions, this`showSuggestions
      ensures passed == SelectedValue(s) && query == passed
      ensures suggestions == [] && !showSuggestions
    {
      passed := SelectedValue(s);
      query := passed;
      showSuggestions := false;
      suggestions := [];
    }

    /** A mouse press outside the input closes the list and keeps its items. */
    method ClickOutside()
      modifies this`showSuggestions
      ensures !showSuggestions
    {
      showSuggestions := false;
    }

    /** `handleFocus`: the list reopens only when there is something in it. */
    method Focus()
      modifies this`showSuggestions
      ensures showSuggestions == (old(showSuggestions) || suggestions != [])
    {
      if |suggestions| > 0 {
        showSuggestions := true;
      }
    }
  }
}

=== FILE: OneTimeCodes.dfy ===
/** Six-digit one-time codes and the table that stores them. The same shape
    serves the `password_resets` table (backend/handlers/auth.go) and the
    agency rows of `registration_otps` (backend/handlers/agency.go). */
module OneTimeCodes {
  import opened Text
  import opened Decimal
  import opened Maybe

  /** `fmt.Sprintf("%06d", 100000 + rand.Intn(900000))`, with the random draw
      passed in. `rand.Intn(900000)` only ever returns a value in [0, 900000). */
  function SixDigitCode(draw: int): (code: string)
    requires 0 <= draw < 900000
    ensures |code| == 6 && AllDigits(code)
    ensures DigitsValue(code) == 100000 + draw
    ensures 100000 <= DigitsValue(code) <= 999999
    ensures code[0] != '0'
  {
    assert Pow10(5) == 100000 && Pow10(6) == 1000000;
    NatToStringLength(100000 + draw, 6);
    ZeroPadded(100000 + draw, 6)
  }

  /** Distinct draws give distinct codes. */
  lemma SixDigitCodeInjective(d1: int, d2: int)
    requires 0 <= d1 < 900000 && 0 <= d2 < 900000
    ensures SixDigitCode(d1) == SixDigitCode(d2) <==> d1 == d2
  {
  }

  /** One stored code; times are instants on a single clock (any unit). */
  datatype CodeRow = CodeRow(email: string, code: string, expiresAt: int, used: bool)

  predicate Matches(row: CodeRow, email: string, code: string) {
    row.email == email && row.code == code
  }

  /** Row `i` is the most recently inserted row for this email and code: the
      row `ORDER BY created_at DESC LIMIT 1` returns when rows are kept in
      insertion order. */
  predicate IsLatestMatch(rows: seq<CodeRow>, email: string, code: string, i: int) {
    0 <= i < |rows| && Matches(rows[i], email, code) &&
    forall j :: i < j < |rows| ==> !Matches(rows[j], email, code)
  }

  function LatestMatch(rows: seq<CodeRow>, email: string, code: string): (r: Option<nat>)
    ensures r.Some? ==> IsLatestMatch(rows, email, code, r.value)
    ensures r.None? <==> forall j :: 0 <= j < |rows| ==> !Matches(rows[j], email, code)
  {
    if rows == [] then None
    else if Matches(rows[|rows| - 1], email, code) then Some(|rows| - 1)
    else LatestMatch(rows[..|rows| - 1], email, code)
  }

  /** There is at most one latest match. */
  lemma LatestMatchUnique(rows: seq<CodeRow>, email: string, code: string, i: int, k: int)
    requires IsLatestMatch(rows, email, code, i) && IsLatestMatch(rows, email, code, k)
    ensures i == k
  {
  }

  /** The outcome of looking a code up at instant `now`. */
  datatype CodeStatus = NoSuchCode | AlreadyUsed | Expired | Valid(index: nat)

  /** The three refusals are decided in a fixed order: no matching row, then
      the row's used flag, then its expiry (`now` strictly after `expiresAt`). */
  function CheckCode(rows: seq<CodeRow>, email: string, code: string, now: int): (st: CodeStatus)
    ensures st == NoSuchCode <==> forall j :: 0 <= j < |rows| ==> !Matches(rows[j], email, code)
    ensures st == AlreadyUsed <==> exists i :: IsLatestMatch(rows, email, code, i) && rows[i].used
    ensures st == Expired <==>
      exists i :: IsLatestMatch(rows, email, code, i) && !rows[i].used && now > rows[i].expiresAt
    ensures st.Valid? <==>
      exists i :: IsLatestMatch(rows, email, code, i) && !rows[i].used && now <= rows[i].expiresAt
    ensures st.Valid? ==> IsLatestMatch(rows, email, code, st.index)
  {
    match LatestMatch(rows, email, code)
    case None => NoSuchCode
    case Some(i) =>
      if rows[i].used then AlreadyUsed
      else if now > rows[i].expiresAt then Expired
      else Valid(i)
  }

  /** Setting the used flag of row `i`. */
  function MarkUsed(rows: seq<CodeRow>, i: nat): (r: seq<CodeRow>)
    requires i < |rows|
    ensures |r| == |rows| && r[i].used
    ensures forall j :: 0 <= j < |rows| ==> r[j].email == rows[j].email && r[j].code == rows[j].code
    ensures forall j :: 0 <= j < |rows| && j != i ==> r[j] == rows[j]
  {
    rows[i := rows[i].(used := true)]
  }

  /** Once the code that was found valid has been marked used, every later
      lookup of the same email and code, at any instant, says "already used". */
  lemma {:induction false} ReuseAfterUse(rows: seq<CodeRow>, email: string, code: string, now: int, later: int)
    requires CheckCode(rows, email, code, now).Valid?
    ensures CheckCode(MarkUsed(rows, CheckCode(rows, email, code, now).index), email, code, later) == AlreadyUsed
  {
    var i := CheckCode(rows, email, code, now).index;
    var r := MarkUsed(rows, i);
    assert IsLatestMatch(r, email, code, i) by {
      forall j | i < j < |r| ensures !Matches(r[j], email, code) {
        assert r[j] == rows[j];
      }
    }
  }

  /** Inserting a fresh unused code for an email makes it the valid code until
      it expires, whatever was stored before. */
  lemma {:induction false} FreshCodeValid(rows: seq<CodeRow>, email: string, code: string, expiresAt: int, now: int)
    requires now <= expiresAt
    ensures CheckCode(rows + [CodeRow(email, code, expiresAt, false)], email, code, now) == Valid(|rows|)
  {
    var r := rows + [CodeRow(email, code, expiresAt, false)];
    assert IsLatestMatch(r, email, code, |rows|);
  }

  /** Inserting a row for one email does not change lookups for another. */
  lemma {:induction false} OtherEmailUnaffected(rows: seq<CodeRow>, row: CodeRow, email: string, code: string, now: int)
    requires row.email != email
    ensures CheckCode(rows + [row], email, code, now) == CheckCode(rows, email, code, now)
  {
    assert (rows + [row])[..|rows|] == rows;
  }
}

=== FILE: PackageDetailsPage.dfy ===
/** The package page, frontend/src/components/PackageDetails.js: the photo
    gallery's wrap-around index, the lookup of the package named in the URL,
    the star strings and texts of the agency's reviews, and the connector
    lines of the itinerary. */
module PackageDetailsPage {
  import opened Text
  import opened Maybe
  import opened Decimal
  import opened FeedbackHandlers
  import opened FeedbackPage
  import opened AgencyPackagesPage

  // ---------------------------------------------------------------------------
  // Gallery

  /** `prev === n - 1 ? 0 : prev + 1`. */
  function NextIndex(i: int, n: int): (j: int)
    ensures 0 <= i < n ==> 0 <= j < n
    ensures 0 <= i < n - 1 ==> j == i + 1
    ensures i == n - 1 ==> j == 0
  {
    if i == n - 1 then 0 else i + 1
  }

  /** `prev === 0 ? n - 1 : prev - 1`. */
  function PrevIndex(i: int, n: int): (j: int)
    ensures 0 <= i < n ==> 0 <= j < n
    ensures 0 < i ==> j == i - 1
    ensures i == 0 ==> j == n - 1
  {
    if i == 0 then n - 1 else i - 1
  }

  /** Each step undoes the other on an index in range. */
  lemma PrevNextInverse(i: int, n: int)
    requires 0 <= i < n
    ensures PrevIndex(NextIndex(i, n), n) == i
    ensures NextIndex(PrevIndex(i, n), n) == i
  {
  }

  /** The index after k presses of the next button. */
  function Forward(i: int, n: int, k: nat): int {
    if k == 0 then i else NextIndex(Forward(i, n, k - 1), n)
  }

  /** Up to n presses move k places on, wrapping once past the last photo. */
  lemma {:induction false} ForwardPosition(i: int, n: int, k: nat)
    requires 0 <= i < n && k <= n
    ensures Forward(i, n, k) == if i + k < n then i + k else i + k - n
  {
    if k > 0 {
      ForwardPosition(i, n, k - 1);
    }
  }

  /** n presses of the next button come back to the photo shown first. */
  lemma FullCircle(i: int, n: int)
    requires 0 <= i < n
    ensures Forward(i, n, n) == i
  {
    ForwardPosition(i, n, n);
  }

  /** The gallery's state: the photo count of the package shown and the
      index of the large photo. */
  class Gallery {
    const photoCount: nat
    var activeImage: int

    /** The index names a photo whenever there is one. */
    ghost predicate Valid()
      reads this
    {
      photoCount == 0 || 0 <= activeImage < photoCount
    }

    constructor(photos: seq<string>)
      ensures Valid() && photoCount == |photos| && activeImage == 0
    {
      photoCount := |photos|;
      activeImage := 0;
    }

    /** `handleNextImage`: with no photos nothing changes. */
    method Next()
      requires Valid()
      modifies this
      ensures Valid()
      ensures photoCount == 0 ==> activeImage == old(activeImage)
      ensures photoCount > 0 ==> activeImage == NextIndex(old(activeImage), photoCount)
    {
      if photoCount > 0 {
        activeImage := NextIndex(activeImage, photoCount);
      }
    }

    /** A thumbnail's `onClick`: the photo it shows becomes the large one. */
    method Show(idx: nat)
      requires idx < photoCount
      modifies this
      ensures Valid() && activeImage == idx
    {
      activeImage := idx;
    }

    /** `handlePrevImage`: with no photos nothing changes. */
    method Prev()
      requires Valid()
      modifies this
      ensures Valid()
      ensures photoCount == 0 ==> activeImage == old(activeImage)
      ensures photoCount > 0 ==> activeImage == PrevIndex(old(activeImage), photoCount)
    {
      if photoCount > 0 {
        activeImage := PrevIndex(activeImage, photoCount);
      }
    }
  }

  // ---------------------------------------------------------------------------
  // Finding the package

  /** `packages.find(p => p.package_id === parseInt(id, 10))`: the index of
      the first match. NaN equals nothing. */
  function FindPackage(packages: seq<PackageView>, id: string): (r: Option<nat>)
    ensures r.Some? ==> r.value < |packages| && Some(packages[r.value].packageId) == JsParseInt(id, true)
    ensures r.Some? ==> forall j :: 0 <= j < r.value ==> Some(packages[j].packageId) != JsParseInt(id, true)
    ensures r.None? <==> forall j :: 0 <= j < |packages| ==> Some(packages[j].packageId) != JsParseInt(id, true)
  {
    FindFrom(packages, JsParseInt(id, true), 0)
  }

  function FindFrom(packages: seq<PackageView>, key: Option<int>, from: nat): (r: Option<nat>)
    requires from <= |packages|
    ensures r.Some? ==> from <= r.value < |packages| && Some(packages[r.value].packageId) == key
    ensures r.Some? ==> forall j :: from <= j < r.value ==> Some(packages[j].packageId) != key
    ensures r.None? <==> forall j :: from <= j < |packages| ==> Some(packages[j].packageId) != key
    decreases |packages| - from
  {
    if from == |packages| then None
    else if Some(packages[from].packageId) == key then Some(from)
    else FindFrom(packages, key, from + 1)
  }

  /** What the page shows once loading ends. */
  datatype Loaded = Shown(pkg: PackageView) | LoadError(message: string)

  /** `fetchPackage`: a failed request, no match, or the first match. */
  function LoadPackage(response: Option<seq<PackageView>>, id: string): (l: Loaded)
    ensures response.None? ==> l == LoadError("Failed to load package details")
    ensures response.Some? && FindPackage(response.value, id).None? ==> l == LoadError("Package not found")
    ensures response.Some? && FindPackage(response.value, id).Some? ==>
      l == Shown(response.value[FindPackage(response.value, id).value])
  {
    if response.None? then LoadError("Failed to load package details")
    else
      match FindPackage(response.value, id)
      case None => LoadError("Package not found")
      case Some(k) => Shown(response.value[k])
  }

  /** The page for `/packages/<n>` shows the first package with id n. */
  lemma {:induction false} LinkFindsPackage(packages: seq<PackageView>, k: nat)
    requires k < |packages| && packages[k].packageId >= 0
    requires forall j :: 0 <= j < k ==> packages[j].packageId != packages[k].packageId
    ensures LoadPackage(Some(packages), NatToString(packages[k].packageId)) == Shown(packages[k])
  {
    JsParseIntNatToString(packages[k].packageId);
  }

  // ---------------------------------------------------------------------------
  // Reviews

  /** `'★'.repeat(r) + '☆'.repeat(5 - r)`; `repeat` throws for a negative
      count, which is None here. */
  function StarString(r: int): (s: Option<string>)
    ensures s.Some? <==> 0 <= r <= 5
    ensures s.Some? ==> |s.value| == 5
  {
    if 0 <= r <= 5 then Some(seq(r, _ => '★') + seq(5 - r, _ => '☆')) else None
  }

  /** The string draws star i filled exactly when the review form's star row
      does, and it has r filled stars. */
  lemma StarStringMatchesForm(r: int)
    requires 0 <= r <= 5
    ensures forall i :: 0 <= i < 5 ==> (StarString(r).value[i] == '★' <==> Stars(r)[i])
    ensures CountChar(StarString(r).value, '★') == r
  {
    var s := StarString(r).value;
    CountRun('★', r, '★');
    CountRun('☆', 5 - r, '★');
    CountCharAppend(seq(r, _ => '★'), seq(5 - r, _ => '☆'), '★');
  }

  lemma {:induction false} CountRun(c: char, n: nat, d: char)
    ensures CountChar(seq(n, _ => c), d) == if c == d then n else 0
  {
    if n > 0 {
      assert seq(n, _ => c)[1..] == seq(n - 1, _ => c);
      CountRun(c, n - 1, d);
    }
  }

  lemma {:induction false} CountCharAppend(a: string, b: string, c: char)
    ensures CountChar(a + b, c) == CountChar(a, c) + CountChar(b, c)
  {
    if a != [] {
      assert (a + b)[1..] == a[1..] + b;
      CountCharAppend(a[1..], b, c);
    } else {
      assert a + b == b;
    }
  }

  /** `feedback.feedback_text && feedback.feedback_text !== 'No additional comments'`. */
  predicate ShowText(text: string) {
    text != "" && text != NoComments
  }

  /** A stored review shows its text exactly when its author wrote one
      other than the default sentence: the sentence stored for an empty
      text is never displayed. */
  lemma StoredTextShown(feedbackId: int, userId: int, req: FeedbackRequest)
    ensures ShowText(StoredRow(feedbackId, userId, req).feedbackText) <==>
      req.feedbackText != "" && req.feedbackText != NoComments
  {
  }

  /** `COALESCE(f.hotel_name, '')` of `GetAgencyFeedbacks`: a NULL hotel name
      reads as the empty string. */
  function HotelNameRead(column: Option<string>): (name: string)
    ensures column.None? ==> name == ""
    ensures column.Some? ==> name == column.value
  {
    if column.Some? then column.value else ""
  }

  /** `feedback.hotel_name && (... feedback.hotel_rating && ...)`: the hotel
      stars sit inside the hotel block, so they show for a non-empty hotel
      name and a non-null, non-zero rating. */
  predicate ShowHotelStars(hotelName: string, hotelRating: Option<int>) {
    hotelName != "" && hotelRating.Some? && hotelRating.value != 0
  }

  /** A stored review shows hotel stars exactly when its author named a hotel
      and gave a non-zero hotel rating. */
  lemma StoredHotelRatingShown(feedbackId: int, userId: int, req: FeedbackRequest)
    ensures var row := StoredRow(feedbackId, userId, req);
      ShowHotelStars(HotelNameRead(row.hotelName), row.hotelRating) <==>
      req.hotelName != "" && req.hotelRating.Some? && req.hotelRating.value != 0
  {
  }

  /** A hotel rating sent without a hotel name is stored but never shown. */
  lemma UnnamedHotelRatingHidden(feedbackId: int, userId: int, req: FeedbackRequest)
    requires req.hotelName == "" && req.hotelRating.Some? && req.hotelRating.value != 0
    ensures StoredRow(feedbackId, userId, req).hotelRating == req.hotelRating
    ensures !ShowHotelStars(HotelNameRead(StoredRow(feedbackId, userId, req).hotelName),
                            StoredRow(feedbackId, userId, req).hotelRating)
  {
  }

  // ---------------------------------------------------------------------------
  // Itinerary

  /** `idx < locations.length - 1`: a connector line under every stop but the last. */
  function Connectors(n: nat): (lines: seq<bool>)
    ensures |lines| == n
  {
    seq(n, idx => idx < n - 1)
  }

  function CountTrue(bs: seq<bool>): nat {
    if bs == [] then 0 else (if bs[0] then 1 else 0) + CountTrue(bs[1..])
  }

  lemma {:induction false} CountTrueAll(bs: seq<bool>, k: nat)
    requires k <= |bs|
    requires forall i :: 0 <= i < |bs| ==> (bs[i] <==> i < k)
    ensures CountTrue(bs) == k
    decreases |bs|
  {
    if bs != [] {
      if k > 0 {
        CountTrueAll(bs[1..], k - 1);
      } else {
        CountTrueAll(bs[1..], 0);
      }
    }
  }

  /** The stops are joined by n - 1 lines, and the last stop has none. */
  lemma ConnectorCount(n: nat)
    requires n >= 1
    ensures CountTrue(Connectors(n)) == n - 1 && !Connectors(n)[n - 1]
  {
    CountTrueAll(Connectors(n), n - 1);
  }
}

=== FILE: PdfExport.dfy ===
/** The trip export, frontend/src/utils/pdfGenerator.js: how each line of the
    generated text is classified before it is drawn, the joining of the
    pieces of a line with bold markers, and the file name. Fonts, colours,
    positions and page breaks are not modelled. */
module PdfExport {
  import opened Text
  import opened Maybe
  import GenerateTripPage

  // ---------------------------------------------------------------------------
  // Line kinds

  /** What a line becomes: a gap, one of three heading levels, a rule, a
      line with bold markers (its text and whether the font last set for it
      is bold), a bullet, a numbered item or plain text. */
  datatype Block =
    | Spacing
    | Heading1(text: string)
    | Heading2(text: string)
    | Heading3(text: string)
    | Divider
    | BoldLine(text: string, drawnBold: bool)
    | Bullet(text: string)
    | Numbered(text: string)
    | Paragraph(text: string)

  /** The number of ASCII digits a string starts with. */
  function LeadingDigits(s: string): (n: nat)
    ensures n <= |s| && AllDigits(s[..n])
    ensures n < |s| ==> !IsDigit(s[n])
  {
    if s != [] && IsDigit(s[0]) then
      var n := 1 + LeadingDigits(s[1..]);
      assert s[..n] == [s[0]] + s[1..][..n - 1];
      n
    else 0
  }

  /** `/^\d+\./.test(line)`. */
  predicate StartsNumbered(line: string) {
    var n := LeadingDigits(line);
    0 < n < |line| && line[n] == '.'
  }

  /** The font toggles for each piece, so the font in force when the line
      is drawn is the one set for its last piece: bold when the number of
      pieces is even. */
  predicate LastPieceBold(line: string)
    requires Contains(line, "**")
  {
    |SplitOn(line, "**")| % 2 == 0
  }

  /** A trimmed line, checked in this order. */
  function Classify(line: string): Block {
    if line == "" then Spacing
    else if StartsWith(line, "# ") then Heading1(ReplaceFirst(line, "# ", ""))
    else if StartsWith(line, "## ") then Heading2(ReplaceFirst(line, "## ", ""))
    else if StartsWith(line, "### ") then Heading3(ReplaceFirst(line, "### ", ""))
    else if StartsWith(line, "---") then Divider
    else if Contains(line, "**") then BoldLine(RemoveAll(line, "**"), LastPieceBold(line))
    else if StartsWith(line, "- ") || StartsWith(line, "* ") then Bullet(line[2..])
    else if StartsNumbered(line) then Numbered(line)
    else Paragraph(line)
  }

  /** One line of the export loop: trimmed, then classified. */
  function BlockOf(raw: string): Block {
    Classify(Trim(raw))
  }

  /** The blocks of a whole text, one per line. */
  function Blocks(details: string): seq<Block> {
    var lines := SplitOn(details, "\n");
    seq(|lines|, k requires 0 <= k < |lines| => BlockOf(lines[k]))
  }

  /** One block per line: one more than the line breaks. */
  lemma BlockCount(details: string)
    ensures |Blocks(details)| == CountChar(details, '\n') + 1
  {
    SplitOnCharCount(details, '\n');
  }

  /** The export loop over `tripDetails.split('\n')`, one block per line. */
  method RenderLines(details: string) returns (blocks: seq<Block>)
    ensures blocks == Blocks(details)
    ensures |blocks| == CountChar(details, '\n') + 1
  {
    var lines := SplitOn(details, "\n");
    ghost var all := Blocks(details);
    blocks := [];
    var i := 0;
    while i < |lines|
      invariant 0 <= i <= |lines|
      invariant blocks == all[..i]
    {
      var b := BlockOf(lines[i]);
      assert all[..i + 1] == all[..i] + [b];
      blocks := blocks + [b];
      i := i + 1;
    }
    assert all[..i] == all;
    BlockCount(details);
  }

  // ---------------------------------------------------------------------------
  // The bold pieces

  lemma {:induction false} ConcatAppend(parts: seq<string>, p: string)
    ensures Concat(parts + [p]) == Concat(parts) + p
  {
    if parts != [] {
      assert (parts + [p])[1..] == parts[1..] + [p];
      ConcatAppend(parts[1..], p);
    }
  }

  /** The loop over `line.split('**')`: the output is every piece in order,
      and the font last set is bold exactly when the last piece has an odd
      position. */
  method JoinPieces(parts: seq<string>) returns (output: string, bold: bool)
    requires parts != []
    ensures output == Concat(parts)
    ensures bold <==> |parts| % 2 == 0
  {
    output := "";
    var toggle := false;
    bold := false;
    var i := 0;
    while i < |parts|
      invariant 0 <= i <= |parts|
      invariant output == Concat(parts[..i])
      invariant toggle <==> i % 2 == 1
      invariant i > 0 ==> (bold <==> (i - 1) % 2 == 1)
    {
      bold := toggle;
      assert parts[..i + 1] == parts[..i] + [parts[i]];
      ConcatAppend(parts[..i], parts[i]);
      output := output + parts[i];
      toggle := !toggle;
      i := i + 1;
    }
    assert parts[..|parts|] == parts;
  }

  /** The bold branch: the drawn text is the line with every `**` removed. */
  method RenderBold(line: string) returns (output: string, bold: bool)
    requires Contains(line, "**")
    ensures output == RemoveAll(line, "**") && (bold <==> LastPieceBold(line))
  {
    output, bold := JoinPieces(SplitOn(line, "**"));
    ConcatSplitOn(line, "**");
  }

  // ---------------------------------------------------------------------------
  // Properties of the classification

  /** The first four characters of a line, one by one. */
  lemma FirstChars(line: string)
    ensures |line| >= 1 ==> line[..1] == [line[0]]
    ensures |line| >= 2 ==> line[..2] == [line[0], line[1]]
    ensures |line| >= 3 ==> line[..3] == [line[0], line[1], line[2]]
    ensures |line| >= 4 ==> line[..4] == [line[0], line[1], line[2], line[3]]
  {
  }

  /** `#` markers are told apart by the space after them; a deeper heading
      is none of the three levels. */
  lemma HeadingLevels(line: string)
    ensures StartsWith(line, "# ") ==> Classify(line) == Heading1(line[2..])
    ensures StartsWith(line, "## ") ==> Classify(line) == Heading2(line[3..])
    ensures StartsWith(line, "### ") ==> Classify(line) == Heading3(line[4..])
    ensures StartsWith(line, "####") ==>
      !Classify(line).Heading1? && !Classify(line).Heading2? && !Classify(line).Heading3?
  {
    FirstChars(line);
    if StartsWith(line, "# ") {
      ReplaceFirstAtStart(line, "# ");
    } else if StartsWith(line, "## ") {
      ReplaceFirstAtStart(line, "## ");
    } else if StartsWith(line, "### ") {
      ReplaceFirstAtStart(line, "### ");
    }
  }

  /** A line that does not start with `#` is no heading. */
  lemma NoHeadingMarker(line: string)
    requires !StartsWith(line, "#")
    ensures !StartsWith(line, "# ") && !StartsWith(line, "## ") && !StartsWith(line, "### ")
  {
    FirstChars(line);
  }

  /** A rule wins over bold markers, and bold markers win over a bullet: a
      bullet holding `**` is drawn as a bold line that keeps its dash. */
  lemma MarkersBeforeBullets(line: string)
    requires !StartsWith(line, "#")
    ensures StartsWith(line, "---") ==> Classify(line) == Divider
    ensures !StartsWith(line, "---") && Contains(line, "**") ==>
      Classify(line) == BoldLine(RemoveAll(line, "**"), LastPieceBold(line))
  {
    NoHeadingMarker(line);
  }

  /** A bullet holds no bold markers and drops its two-character marker. */
  lemma BulletText(line: string)
    ensures Classify(line).Bullet? ==> !Contains(line, "**") && Classify(line).text == line[2..]
  {
  }

  /** A piece without asterisks followed by a marker splits off whole. */
  lemma {:induction false} SplitOnStarFree(a: string, rest: string)
    requires '*' !in a
    ensures SplitOn(a + "**" + rest, "**") == [a] + SplitOn(rest, "**")
    decreases |a|
  {
    var s := a + "**" + rest;
    if a == [] {
      assert s[..2] == "**" && s[2..] == rest;
    } else {
      assert s[0] == a[0];
      assert s[..2] != "**";
      assert s[1..] == a[1..] + "**" + rest;
      SplitOnStarFree(a[1..], rest);
      assert a == [a[0]] + a[1..];
    }
  }

  /** Text without asterisks is a single piece. */
  lemma {:induction false} SplitOnStarless(b: string)
    requires '*' !in b
    ensures SplitOn(b, "**") == [b]
    decreases |b|
  {
    if |b| >= 2 {
      assert b[..2] != "**" by { assert b[..2][0] == b[0]; }
      SplitOnStarless(b[1..]);
      assert b == [b[0]] + b[1..];
    }
  }

  /** The pieces of a line with one balanced pair of markers. */
  lemma BalancedPieces(a: string, b: string)
    requires '*' !in a && '*' !in b
    ensures SplitOn("**" + a + "**" + b, "**") == ["", a, b]
    ensures RemoveAll("**" + a + "**" + b, "**") == a + b
  {
    var line := "**" + a + "**" + b;
    assert line == [] + "**" + (a + "**" + b);
    SplitOnStarFree([], a + "**" + b);
    SplitOnStarFree(a, b);
    SplitOnStarless(b);
    ConcatSplitOn(line, "**");
    assert ["", a, b][1..] == [a, b] && [a, b][1..] == [b] && [b][1..] == [];
    assert Concat([b]) == b;
  }

  /** With the markers balanced around one piece, the font in force when
      the line is drawn is the normal one: "**Day 1:** Arrive" comes out as
      "Day 1: Arrive" in the normal font. */
  lemma BalancedMarkersDrawnNormal(a: string, b: string)
    requires '*' !in a && '*' !in b
    ensures Classify("**" + a + "**" + b) == BoldLine(a + b, false)
  {
    var line := "**" + a + "**" + b;
    BalancedPieces(a, b);
    FirstChars(line);
    assert OccursAt(line, "**", 0);
  }

  /** Lines are trimmed first, so an indented heading is a heading here. */
  lemma IndentedHeadingKept(rest: string)
    requires rest != [] && !IsJsSpace(rest[|rest| - 1])
    ensures BlockOf(" ## " + rest) == Heading2(rest)
  {
    var raw := " ## " + rest;
    var line := "## " + rest;
    assert raw[1..] == line;
    assert TrimStart(line) == line;
    assert TrimStart(raw) == line;
    assert line[|line| - 1] == rest[|rest| - 1];
    assert TrimEnd(line) == line;
    HeadingLevels(line);
    assert line[3..] == rest;
  }

  /** The page that shows the same text does not trim, and makes the
      indented heading plain text. */
  lemma IndentedHeadingPlainOnPage(rest: string)
    ensures GenerateTripPage.FormatLine(" ## " + rest) == GenerateTripPage.Plain(" ## " + rest)
  {
    var raw := " ## " + rest;
    FirstChars(raw);
    assert !IsJsSpace(raw[1]);
  }

  /** Only a blank line is a gap. */
  lemma SpacingOnlyForBlank(raw: string)
    ensures BlockOf(raw) == Spacing <==> forall i :: 0 <= i < |raw| ==> IsJsSpace(raw[i])
  {
  }

  /** A numbered item and plain text keep the trimmed line as it is. */
  lemma NumbersAndTextVerbatim(line: string)
    ensures Classify(line).Numbered? ==> Classify(line).text == line && StartsNumbered(line)
    ensures Classify(line).Paragraph? ==> Classify(line).text == line && line != ""
  {
  }

  // ---------------------------------------------------------------------------
  // The file name

  /** One character of `destination.replace(/[^a-zA-Z0-9]/g, '_')`: the
      pattern works on UTF-16 units, so a character outside the basic plane
      becomes two underscores. */
  function CleanChar(c: char): (r: string)
    ensures JsLength(r) == JsLength([c])
    ensures IsAsciiAlnum(c) ==> r == [c]
    ensures !IsAsciiAlnum(c) ==> |r| == JsLength([c]) && forall i :: 0 <= i < |r| ==> r[i] == '_'
  {
    if IsAsciiAlnum(c) then [c]
    else if c as int < 0x10000 then "_"
    else "__"
  }

  /** The sanitised destination. */
  function CleanText(s: string): (r: string)
    ensures forall i :: 0 <= i < |r| ==> IsAsciiAlnum(r[i]) || r[i] == '_'
  {
    if s == [] then "" else CleanChar(s[0]) + CleanText(s[1..])
  }

  /** A character outside the basic plane is two UTF-16 units, each of them
      replaced. */
  lemma CleanOutsideBasicPlane(c: char)
    requires c as int >= 0x10000
    ensures CleanText([c]) == "__"
  {
    assert [c][1..] == [];
  }

  /** Sanitising keeps the length in UTF-16 units, keeps letters and digits
      where they were, and so keeps the number of characters of text
      without characters outside the basic plane. */
  lemma {:induction false} CleanKeepsLength(s: string)
    ensures JsLength(CleanText(s)) == JsLength(s)
    ensures JsLength(CleanText(s)) == |CleanText(s)|
    ensures (forall i :: 0 <= i < |s| ==> s[i] as int < 0x10000) ==> |CleanText(s)| == |s|
  {
    if s != [] {
      CleanKeepsLength(s[1..]);
      JsLengthAppend(CleanChar(s[0]), CleanText(s[1..]));
      assert JsLength(s) == JsLength([s[0]]) + JsLength(s[1..]);
      assert (forall i :: 0 <= i < |s| ==> s[i] as int < 0x10000) ==>
        (forall i :: 0 <= i < |s[1..]| ==> s[1..][i] as int < 0x10000) by {
        forall i | 0 <= i < |s[1..]| ensures s[1..][i] == s[i + 1] { }
      }
    }
  }

  lemma {:induction false} JsLengthAppend(a: string, b: string)
    ensures JsLength(a + b) == JsLength(a) + JsLength(b)
  {
    if a != [] {
      assert (a + b)[0] == a[0] && (a + b)[1..] == a[1..] + b;
      JsLengthAppend(a[1..], b);
      assert JsLength(a + b) == (if a[0] as int < 0x10000 then 1 else 2) + JsLength(a[1..] + b);
    } else {
      assert a + b == b;
    }
  }

  /** Letters and digits are kept and everything else is an underscore. */
  lemma {:induction false} CleanTextOnAlnum(s: string)
    requires forall i :: 0 <= i < |s| ==> IsAsciiAlnum(s[i])
    ensures CleanText(s) == s
  {
    if s != [] {
      CleanTextOnAlnum(s[1..]);
    }
  }

  /** `cleanDestination`: a missing or empty destination gives "Destination". */
  function CleanDestination(destination: Option<string>): (r: string)
    ensures destination.None? || destination.value == "" ==> r == "Destination"
    ensures destination.Some? && destination.value != "" ==> r == CleanText(destination.value)
  {
    if destination.Some? && destination.value != "" then CleanText(destination.value) else "Destination"
  }

  /** `.replace(/\//g, '-')` on the formatted date. */
  function SlashesToDashes(s: string): (r: string)
    ensures |r| == |s|
    ensures forall i :: 0 <= i < |s| ==> r[i] == if s[i] == '/' then '-' else s[i]
  {
    seq(|s|, i requires 0 <= i < |s| => if s[i] == '/' then '-' else s[i])
  }

  /** No '/' in the text, so it stays within one directory entry. */
  predicate NoSlash(s: string) {
    forall i :: 0 <= i < |s| ==> s[i] != '/'
  }

  /** A name glued from five parts starts with the first, ends with the last,
      and has no slash when none of the parts has. */
  lemma GluedName(p: string, a: string, b: string, c: string, q: string)
    ensures StartsWith(p + a + b + c + q, p) && EndsWith(p + a + b + c + q, q)
    ensures NoSlash(p) && NoSlash(a) && NoSlash(b) && NoSlash(c) && NoSlash(q) ==> NoSlash(p + a + b + c + q)
  {
    var n := p + a + b + c + q;
    assert n[..|p|] == p;
    assert n[|n| - |q|..] == q;
    if NoSlash(p) && NoSlash(a) && NoSlash(b) && NoSlash(c) && NoSlash(q) {
      forall i | 0 <= i < |n| ensures n[i] != '/' {
        if i < |p| { assert n[i] == p[i]; }
        else if i < |p + a| { assert n[i] == a[i - |p|]; }
        else if i < |p + a + b| { assert n[i] == b[i - |p + a|]; }
        else if i < |p + a + b + c| { assert n[i] == c[i - |p + a + b|]; }
        else { assert n[i] == q[i - |p + a + b + c|]; }
      }
    }
  }

  /** The sanitised destination has no slash. */
  lemma CleanDestinationNoSlash(destination: Option<string>)
    ensures NoSlash(CleanDestination(destination))
  {
    var r := CleanDestination(destination);
    forall i | 0 <= i < |r| ensures r[i] != '/' {
      if destination.None? || destination.value == "" {
        assert r == "Destination";
      } else {
        assert IsAsciiAlnum(r[i]) || r[i] == '_';
      }
    }
  }

  /** The saved file's name; `date` is the day the export runs, formatted
      for India. */
  function FileName(destination: Option<string>, date: string): (name: string)
    ensures name == "Trip_to_" + CleanDestination(destination) + "_" + SlashesToDashes(date) + ".pdf"
    ensures StartsWith(name, "Trip_to_") && EndsWith(name, ".pdf")
    ensures NoSlash(name)
  {
    var clean := CleanDestination(destination);
    var day := SlashesToDashes(date);
    CleanDestinationNoSlash(destination);
    assert NoSlash("Trip_to_") && NoSlash("_") && NoSlash(".pdf") && NoSlash(day);
    GluedName("Trip_to_", clean, "_", day, ".pdf");
    "Trip_to_" + clean + "_" + day + ".pdf"
  }

  lemma {:induction false} CleanTextAppend(a: string, b: string)
    ensures CleanText(a + b) == CleanText(a) + CleanText(b)
  {
    if a != [] {
      assert (a + b)[0] == a[0] && (a + b)[1..] == a[1..] + b;
      CleanTextAppend(a[1..], b);
      assert CleanText(a + b) == CleanChar(a[0]) + CleanText(a[1..] + b);
    } else {
      assert a + b == b;
    }
  }

  /** A destination of two words with one separator between them keeps the
      words and has the separator replaced: "Goa India" is saved under
      Goa_India. */
  lemma CleanTwoWords(a: string, c: char, b: string)
    requires forall i :: 0 <= i < |a| ==> IsAsciiAlnum(a[i])
    requires forall i :: 0 <= i < |b| ==> IsAsciiAlnum(b[i])
    requires !IsAsciiAlnum(c) && c as int < 0x10000
    ensures CleanDestination(Some(a + [c] + b)) == a + "_" + b
  {
    CleanTextAppend(a + [c], b);
    CleanTextAppend(a, [c]);
    CleanTextOnAlnum(a);
    CleanTextOnAlnum(b);
    assert CleanText([c]) == "_" by { assert [c][1..] == []; }
  }
}

=== FILE: RegisterPage.dfy ===
/** The sign-up page, frontend/src/components/Register.js: the password
    strength meter, the client's password rule, and the checks made before
    the registration request is sent. */
module RegisterPage {
  import opened Text
  import opened Maybe
  import AuthHandlers

  /** The client rule's length test: `password.length >= 8`, in UTF-16 units. */
  predicate LongEnough(password: string) { JsLength(password) >= 8 }

  /** How many of the five checks hold. */
  function Score(password: string): (n: nat)
    ensures n <= 5
    ensures n == 5 <==>
      HasUpper(password) && HasLower(password) && HasDigit(password) && HasSpecial(password) && LongEnough(password)
  {
    (if HasUpper(password) then 1 else 0) + (if HasLower(password) then 1 else 0) +
    (if HasDigit(password) then 1 else 0) + (if HasSpecial(password) then 1 else 0) +
    (if LongEnough(password) then 1 else 0)
  }

  /** The meter's reading; `Unrated` shows nothing. */
  datatype Strength = Unrated | Weak | Medium | Strong {
    function Label(): string {
      match this
      case Unrated => ""
      case Weak => "Weak"
      case Medium => "Medium"
      case Strong => "Strong"
    }
  }

  /** The strength `validatePassword` records. */
  function StrengthOf(password: string): (s: Strength)
    ensures s == Unrated <==> password == ""
    ensures password != "" ==> (s == Weak <==> Score(password) <= 2)
    ensures password != "" ==> (s == Medium <==> 3 <= Score(password) <= 4)
    ensures password != "" ==> (s == Strong <==> Score(password) == 5)
  {
    if password == "" then Unrated
    else if Score(password) <= 2 then Weak
    else if Score(password) <= 4 then Medium
    else Strong
  }

  /** What `validatePassword` returns (in both Register.js and
      AgencyRegister.js): all five checks hold. */
  predicate PasswordOk(password: string) {
    HasUpper(password) && HasLower(password) && HasDigit(password) && HasSpecial(password) && LongEnough(password)
  }

  /** The password is accepted exactly when the meter reads Strong; the empty
      password is refused and leaves the meter blank. */
  lemma OkIffStrong(password: string)
    ensures PasswordOk(password) <==> StrengthOf(password) == Strong
    ensures password == "" ==> !PasswordOk(password) && StrengthOf(password).Label() == ""
  {
  }

  /** UTF-8 never takes fewer bytes than UTF-16 takes units. */
  lemma {:induction false} Utf8AtLeastUtf16(s: string)
    ensures Utf8Len(s) >= JsLength(s)
  {
    if s != [] {
      Utf8AtLeastUtf16(s[1..]);
    }
  }

  /** Every password the client accepts, the server accepts; on ASCII text
      the two rules agree. */
  lemma ClientRuleImpliesServerRule(password: string)
    ensures PasswordOk(password) ==> AuthHandlers.IsValidPassword(password)
    ensures IsAscii(password) ==> (PasswordOk(password) <==> AuthHandlers.IsValidPassword(password))
  {
    Utf8AtLeastUtf16(password);
    if IsAscii(password) {
      AsciiLengths(password);
    }
  }

  /** The other way round the rules part: a six-letter password with two
      accented letters is eight bytes long for the server and six units long
      for the client. */
  lemma ServerAcceptsWhatClientRefuses()
    ensures AuthHandlers.IsValidPassword("Ab1!\U{00E9}\U{00E9}")
    ensures !PasswordOk("Ab1!\U{00E9}\U{00E9}")
  {
    AuthHandlers.BytesNotCharacters();
    assert JsLength("Ab1!\U{00E9}\U{00E9}") == 6;
  }

  const MismatchMessage := "Passwords do not match"
  const RuleMessage := "Password must be at least 8 characters and contain uppercase, lowercase, digit, and special character"

  /** The sign-up form's password fields, meter and error line. */
  class RegisterForm {
    var password: string
    var confirmPassword: string
    var strength: Strength
    var error: string

    constructor()
      ensures password == "" && confirmPassword == "" && strength == Unrated && error == ""
    {
      password, confirmPassword, strength, error := "", "", Unrated, "";
    }

    /** `handleChange` on the password field: the meter follows the input. */
    method EditPassword(value: string)
      modifies this`password, this`strength, this`error
      ensures password == value && strength == StrengthOf(value) && error == ""
    {
      password := value;
      error := "";
      strength := StrengthOf(value);
    }

    /** `handleChange` on the confirmation field. */
    method EditConfirmPassword(value: string)
      modifies this`confirmPassword, this`error
      ensures confirmPassword == value && error == ""
    {
      confirmPassword := value;
      error := "";
    }

    /** `handleSubmit`: a mismatch is reported before the rule is checked,
        and the password is sent only when both pass. */
    method Submit() returns (sent: Option<string>)
      modifies this`strength, this`error
      ensures sent.Some? <==> password == confirmPassword && PasswordOk(password)
      ensures sent.Some? ==> sent.value == password && error == ""
      ensures password != confirmPassword ==> error == MismatchMessage && strength == old(strength)
      ensures password == confirmPassword ==> strength == StrengthOf(password)
      ensures password == confirmPassword && !PasswordOk(password) ==> error == RuleMessage
    {
      error := "";
      if password != confirmPassword {
        error := MismatchMessage;
        return None;
      }
      strength := StrengthOf(password);
      if !PasswordOk(password) {
        error := RuleMessage;
        return None;
      }
      return Some(password);
    }
  }
}

=== FILE: ResetPasswordPage.dfy ===
/** The password-reset page, frontend/src/components/ResetPassword.js: three
    steps (the e-mail address, the code, the new password) driven by the
    server's replies, which are parameters here. */
module ResetPasswordPage {
  import opened Maybe
  import Http

  /** How a request ends: success with the server's `message`, or failure
      with the reply body (`None` when there is no response). The page stores
      `err.response?.data || fallback` without testing the body's type, so
      only string bodies are modelled; every refusal of the reset handlers
      is `http.Error` text. */
  datatype Reply = Answered(message: string) | Refused(data: Option<string>)

  const SendFailedMessage := "Failed to send code"
  const InvalidCodeMessage := "Invalid code"
  const MismatchMessage := "Passwords do not match"
  const ResetFailedMessage := "Failed to reset password"

  class ResetFlow {
    var step: int
    var email: string
    var code: string
    var newPassword: string
    var confirmPassword: string
    var error: string
    var message: string

    /** 1: the e-mail address, 2: the code, 3: the new password. */
    ghost predicate Valid()
      reads this
    {
      1 <= step <= 3
    }

    /** The page opens on the first step with every field empty. */
    constructor()
      ensures Valid() && step == 1
      ensures email == "" && code == "" && newPassword == "" && confirmPassword == ""
      ensures error == "" && message == ""
    {
      step := 1;
      email, code, newPassword, confirmPassword := "", "", "", "";
      error, message := "", "";
    }

    /** The `onChange` handlers of the four inputs. */
    method EditEmail(value: string)
      modifies this`email
      ensures email == value
    {
      email := value;
    }

    method EditCode(value: string)
      modifies this`code
      ensures code == value
    {
      code := value;
    }

    method EditNewPassword(value: string)
      modifies this`newPassword
      ensures newPassword == value
    {
      newPassword := value;
    }

    method EditConfirmPassword(value: string)
      modifies this`confirmPassword
      ensures confirmPassword == value
    {
      confirmPassword := value;
    }

    /** `handleSendCode`: the code step opens only on success, showing the
        server's message; a failure stays on the current step. */
    method SendCode(reply: Reply)
      requires Valid()
      modifies this`step, this`error, this`message
      ensures Valid()
      ensures reply.Answered? ==> step == 2 && message == reply.message && error == ""
      ensures reply.Refused? ==>
        step == old(step) && message == "" && error == Http.FailureText(reply.data, SendFailedMessage)
    {
      error, message := "", "";
      match reply
      case Answered(m) =>
        message := m;
        step := 2;
      case Refused(data) =>
        error := Http.FailureText(data, SendFailedMessage);
    }

    /** `handleVerifyCode`: the password step opens only on success. */
    method VerifyCode(reply: Reply)
      requires Valid()
      modifies this`step, this`error
      ensures Valid()
      ensures reply.Answered? ==> step == 3 && error == ""
      ensures reply.Refused? ==> step == old(step) && error == Http.FailureText(reply.data, InvalidCodeMessage)
    {
      error := "";
      if reply.Answered? {
        step := 3;
      } else {
        error := Http.FailureText(reply.data, InvalidCodeMessage);
      }
    }

    /** "Resend Code": back to the first step, the address kept. */
    method Resend()
      modifies this`step
      ensures Valid() && step == 1
    {
      step := 1;
    }

    /** `handleResetPassword`: a mismatch is refused before any request;
        otherwise the reply decides the message or the error. The step does
        not change (on success the page moves to the login page two seconds
        later). */
    method ResetPassword(reply: Reply) returns (requested: bool)
      modifies this`error, this`message
      ensures requested <==> newPassword == confirmPassword
      ensures !requested ==> error == MismatchMessage && message == old(message)
      ensures requested && reply.Answered? ==> message == reply.message && error == ""
      ensures requested && reply.Refused? ==>
        message == old(message) && error == Http.FailureText(reply.data, ResetFailedMessage)
    {
      error := "";
      if newPassword != confirmPassword {
        error := MismatchMessage;
        return false;
      }
      if reply.Answered? {
        message := reply.message;
      } else {
        error := Http.FailureText(reply.data, ResetFailedMessage);
      }
      return true;
    }
  }
}

=== FILE: SavedTripsPage.dfy ===
/** The saved-trips page, frontend/src/components/SavedTrips.js: the list of
    the user's trips, the trip opened in the side panel, deleting a trip,
    and the card preview. The panel formats a trip's text with the
    classifier of `GenerateTripPage`. */
module SavedTripsPage {
  import opened Text
  import opened Maybe
  import opened Seqs
  import GenerateTripPage

  datatype Trip = Trip(tripId: int, details: string, savedAt: string)

  /** `trip.tripdetails.substring(0, 100)`, shown before an ellipsis. */
  function Preview(trip: Trip): (p: string)
    ensures |trip.details| <= 100 ==> p == trip.details
    ensures |trip.details| > 100 ==> |p| == 100 && StartsWith(trip.details, p)
  {
    Prefix(trip.details, 100)
  }

  /** What the detail panel shows for a trip. */
  function PanelElements(trip: Trip): seq<GenerateTripPage.Element> {
    GenerateTripPage.FormatTripDetails(trip.details)
  }

  /** The trips kept by `trips.filter(trip => trip.tripid !== tripid)`. */
  function Without(trips: seq<Trip>, tripId: int): seq<Trip> {
    Filter(trips, (t: Trip) => t.tripId != tripId)
  }

  /** Deleting removes every trip with that id and keeps the others, in
      their order. */
  lemma WithoutKeepsOthers(trips: seq<Trip>, tripId: int)
    ensures forall t :: t in Without(trips, tripId) <==> t in trips && t.tripId != tripId
    ensures IsSubsequence(Without(trips, tripId), trips)
    ensures (forall i :: 0 <= i < |trips| ==> trips[i].tripId != tripId) ==> Without(trips, tripId) == trips
  {
    FilterIsSubsequence(trips, (t: Trip) => t.tripId != tripId);
  }

  /** The page's state. */
  class SavedTrips {
    var trips: seq<Trip>
    var selected: Option<Trip>

    /** The page before the list has loaded. */
    constructor()
      ensures trips == [] && selected == None
    {
      trips := [];
      selected := None;
    }

    /** `fetchSavedTrips`: the server's list on success; on failure the list
        stays as it was (an error line is shown). */
    method Loaded(response: Option<seq<Trip>>)
      modifies this`trips
      ensures response.Some? ==> trips == response.value
      ensures response.None? ==> trips == old(trips)
    {
      if response.Some? {
        trips := response.value;
      }
    }

    /** A click on a card opens that trip. */
    method Select(trip: Trip)
      modifies this`selected
      ensures selected == Some(trip)
    {
      selected := Some(trip);
    }

    /** The close button. */
    method Close()
      modifies this`selected
      ensures selected == None
    {
      selected := None;
    }

    /** `handleDeleteTrip`: nothing happens unless the user confirms and the
        request succeeds; then the trip leaves the list, and the panel
        closes exactly when it showed that trip. */
    method Delete(tripId: int, confirmed: bool, succeeded: bool)
      modifies this
      ensures !(confirmed && succeeded) ==> trips == old(trips) && selected == old(selected)
      ensures confirmed && succeeded ==> trips == Without(old(trips), tripId)
      ensures confirmed && succeeded ==>
        (selected == None <==> old(selected) == None || old(selected).value.tripId == tripId)
      ensures confirmed && succeeded && selected != None ==> selected == old(selected)
    {
      if !confirmed || !succeeded {
        return;
      }
      trips := Without(trips, tripId);
      if selected.Some? && selected.value.tripId == tripId {
        selected := None;
      }
    }
  }
}

=== FILE: Seqs.dfy ===
/** Order-preserving filtering, the model of JavaScript's `Array.prototype.filter`
    and of a SQL `DELETE ... WHERE` over a table kept in insertion order. */
module Seqs {
  /** `a` is `b` with some elements left out, the rest in their order. */
  predicate IsSubsequence<T(==)>(a: seq<T>, b: seq<T>)
    decreases |b|
  {
    if a == [] then true
    else if b == [] then false
    else if a[0] == b[0] then IsSubsequence(a[1..], b[1..])
    else IsSubsequence(a, b[1..])
  }

  /** The elements of `xs` that `keep` accepts, in order. */
  function Filter<T(!new)>(xs: seq<T>, keep: T -> bool): (r: seq<T>)
    ensures FilterSpec(xs, keep, r)
  {
    if xs == [] then []
    else
      var rest := Filter(xs[1..], keep);
      var r := if keep(xs[0]) then [xs[0]] + rest else rest;
      FilterStep(xs, keep, rest, r);
      r
  }

  /** What filtering promises: no longer than the input, only accepted
      elements, every accepted element kept as many times as it occurs, and
      the input itself when everything is accepted. */
  ghost predicate FilterSpec<T(!new)>(xs: seq<T>, keep: T -> bool, r: seq<T>)
  {
    && |r| <= |xs|
    && (forall i :: 0 <= i < |r| ==> keep(r[i]))
    && (forall x :: x in r <==> x in xs && keep(x))
    && (|r| == |xs| <==> forall i :: 0 <= i < |xs| ==> keep(xs[i]))
    && ((forall i :: 0 <= i < |xs| ==> keep(xs[i])) ==> r == xs)
    && (forall x :: multiset(r)[x] == if keep(x) then multiset(xs)[x] else 0)
  }

  /** One step of `Filter`: keeping or dropping the head of `xs` in front of
      a filtered tail gives a filtered `xs`. */
  lemma FilterStep<T(!new)>(xs: seq<T>, keep: T -> bool, rest: seq<T>, r: seq<T>)
    requires xs != [] && FilterSpec(xs[1..], keep, rest)
    requires r == if keep(xs[0]) then [xs[0]] + rest else rest
    ensures FilterSpec(xs, keep, r)
  {
    CountsStep(xs, keep, rest, r);
    assert (forall i :: 0 <= i < |xs| ==> keep(xs[i])) <==>
           keep(xs[0]) && forall i :: 0 <= i < |xs[1..]| ==> keep(xs[1..][i]) by {
      if forall i :: 0 <= i < |xs[1..]| ==> keep(xs[1..][i]) {
        forall i | 1 <= i < |xs| ensures keep(xs[i]) { assert xs[i] == xs[1..][i - 1]; }
      }
    }
  }

  /** The multiplicities part of `FilterStep`. */
  lemma CountsStep<T>(xs: seq<T>, keep: T -> bool, rest: seq<T>, r: seq<T>)
    requires xs != []
    requires forall x :: multiset(rest)[x] == if keep(x) then multiset(xs[1..])[x] else 0
    requires r == if keep(xs[0]) then [xs[0]] + rest else rest
    ensures forall x :: multiset(r)[x] == if keep(x) then multiset(xs)[x] else 0
  {
    assert xs == [xs[0]] + xs[1..];
  }

  lemma {:induction false} SubsequenceOfTail<T>(a: seq<T>, b: seq<T>)
    requires b != [] && IsSubsequence(a, b[1..])
    ensures IsSubsequence(a, b)
    decreases |b|, 0
  {
    if a != [] && a[0] == b[0] {
      // IsSubsequence(a[1..], b[1..]) follows from IsSubsequence(a, b[1..]).
      SubsequenceDropHead(a, b[1..]);
    }
  }

  lemma {:induction false} SubsequenceDropHead<T>(a: seq<T>, b: seq<T>)
    requires a != [] && IsSubsequence(a, b)
    ensures IsSubsequence(a[1..], b)
    decreases |b|, 1
  {
    if a[0] == b[0] {
      SubsequenceOfTail(a[1..], b);
    } else {
      SubsequenceDropHead(a, b[1..]);
      SubsequenceOfTail(a[1..], b);
    }
  }

  /** Filtering keeps the surviving elements in their original order. */
  lemma {:induction false} FilterIsSubsequence<T(!new)>(xs: seq<T>, keep: T -> bool)
    ensures IsSubsequence(Filter(xs, keep), xs)
  {
    if xs != [] {
      FilterIsSubsequence(xs[1..], keep);
      if keep(xs[0]) {
        assert ([xs[0]] + Filter(xs[1..], keep))[1..] == Filter(xs[1..], keep);
      } else {
        SubsequenceOfTail(Filter(xs[1..], keep), xs);
      }
    }
  }
}

=== FILE: Text.dfy ===
/** String primitives shared by the Go server and the JavaScript client.
    Strings are sequences of Unicode scalar values; where the two runtimes
    measure or scan strings differently (JavaScript in UTF-16 code units, Go in
    UTF-8 bytes) the difference is written out here. */
module Text {

  // ---------------------------------------------------------------------------
  // Character classes (the ASCII ranges of the regular expressions used by both tiers)

  predicate IsUpper(c: char) { 'A' <= c <= 'Z' }
  predicate IsLower(c: char) { 'a' <= c <= 'z' }
  predicate IsDigit(c: char) { '0' <= c <= '9' }
  predicate IsAsciiAlnum(c: char) { IsUpper(c) || IsLower(c) || IsDigit(c) }

  /** The class `[!@#$%^&*(),.?":{}|<>]` of the password rule. */
  predicate IsSpecial(c: char) { c in "!@#$%^&*(),.?\":{}|<>" }

  /** JavaScript's white space and line terminators: the set matched by `\s`
      and removed by `String.prototype.trim`. */
  predicate IsJsSpace(c: char) {
    c == ' ' || c == '\t' || c == '\n' || c == '\r' || c == '\U{000B}' || c == '\U{000C}'
    || c == '\U{00A0}' || c == '\U{1680}' || ('\U{2000}' <= c <= '\U{200A}')
    || c == '\U{2028}' || c == '\U{2029}' || c == '\U{202F}' || c == '\U{205F}'
    || c == '\U{3000}' || c == '\U{FEFF}'
  }

  predicate HasUpper(s: string) { exists i :: 0 <= i < |s| && IsUpper(s[i]) }
  predicate HasLower(s: string) { exists i :: 0 <= i < |s| && IsLower(s[i]) }
  predicate HasDigit(s: string) { exists i :: 0 <= i < |s| && IsDigit(s[i]) }
  predicate HasSpecial(s: string) { exists i :: 0 <= i < |s| && IsSpecial(s[i]) }
  predicate AllDigits(s: string) { forall i :: 0 <= i < |s| ==> IsDigit(s[i]) }
  predicate IsAscii(s: string) { forall i :: 0 <= i < |s| ==> s[i] as int < 0x80 }

  // ---------------------------------------------------------------------------
  // Lengths as the two runtimes count them

  /** Go's `len` on a string: its number of UTF-8 bytes. */
  function Utf8Len(s: string): (n: nat)
    ensures n >= |s|
  {
    if s == [] then 0
    else
      var c := s[0] as int;
      (if c < 0x80 then 1 else if c < 0x800 then 2 else if c < 0x10000 then 3 else 4) + Utf8Len(s[1..])
  }

  /** JavaScript's `length`: the number of UTF-16 code units. */
  function JsLength(s: string): (n: nat)
    ensures |s| <= n <= 2 * |s|
  {
    if s == [] then 0 else (if s[0] as int < 0x10000 then 1 else 2) + JsLength(s[1..])
  }

  /** On ASCII text the two runtimes agree on the length. */
  lemma {:induction false} AsciiLengths(s: string)
    requires IsAscii(s)
    ensures Utf8Len(s) == |s| && JsLength(s) == |s|
  {
    if s != [] {
      assert IsAscii(s[1..]) by {
        forall i | 0 <= i < |s[1..]| ensures s[1..][i] as int < 0x80 { assert s[1..][i] == s[i + 1]; }
      }
      AsciiLengths(s[1..]);
    }
  }

  // ---------------------------------------------------------------------------
  // Prefixes, suffixes, substrings

  predicate StartsWith(s: string, p: string) { |p| <= |s| && s[..|p|] == p }
  predicate EndsWith(s: string, p: string) { |p| <= |s| && s[|s| - |p|..] == p }

  /** JavaScript `includes` and Go `strings.Contains`. */
  predicate Contains(s: string, sub: string) {
    exists i | 0 <= i <= |s| - |sub| :: OccursAt(s, sub, i)
  }

  /** `sub` occurs in `s` starting at index `i`. */
  predicate OccursAt(s: string, sub: string, i: int) {
    0 <= i <= |s| - |sub| && s[i..i + |sub|] == sub
  }

  lemma ContainsEmpty(s: string)
    ensures Contains(s, "")
  {
    assert OccursAt(s, "", 0);
  }

  // ---------------------------------------------------------------------------
  // JavaScript `trim`

  function TrimStart(s: string): (r: string)
    ensures |r| <= |s| && r == s[|s| - |r|..]
    ensures r != [] ==> !IsJsSpace(r[0])
    ensures forall i :: 0 <= i < |s| - |r| ==> IsJsSpace(s[i])
  {
    if s != [] && IsJsSpace(s[0]) then TrimStart(s[1..]) else s
  }

  function TrimEnd(s: string): (r: string)
    ensures |r| <= |s| && r == s[..|r|]
    ensures r != [] ==> !IsJsSpace(r[|r| - 1])
    ensures forall i :: |r| <= i < |s| ==> IsJsSpace(s[i])
  {
    if s != [] && IsJsSpace(s[|s| - 1]) then TrimEnd(s[..|s| - 1]) else s
  }

  predicate AllJsSpace(t: string) { forall i :: 0 <= i < |t| ==> IsJsSpace(t[i]) }

  /** `r` sits at index `k` of `s` with only white space before and after it. */
  predicate PaddedAt(s: string, r: string, k: int) {
    OccursAt(s, r, k) && AllJsSpace(s[..k]) && AllJsSpace(s[k + |r|..])
  }

  /** `s.trim()`: the slice of `s` without leading or trailing white space. */
  function Trim(s: string): (r: string)
    ensures exists k :: PaddedAt(s, r, k)
    ensures Contains(s, r)
    ensures r != [] ==> !IsJsSpace(r[0]) && !IsJsSpace(r[|r| - 1])
    ensures r == [] <==> forall i :: 0 <= i < |s| ==> IsJsSpace(s[i])
  {
    TrimOccurs(s);
    TrimEnds(s);
    TrimBlank(s);
    TrimEnd(TrimStart(s))
  }

  lemma TrimOccurs(s: string)
    ensures exists k :: PaddedAt(s, TrimEnd(TrimStart(s)), k)
    ensures Contains(s, TrimEnd(TrimStart(s)))
  {
    var t := TrimStart(s);
    var r := TrimEnd(t);
    var k := |s| - |t|;
    assert t == s[k..] && r == t[..|r|];
    assert s[k..k + |r|] == r by {
      forall j | 0 <= j < |r| ensures s[k..k + |r|][j] == r[j] {
        assert r[j] == t[j] == s[k + j];
      }
    }
    assert OccursAt(s, r, k);
    assert AllJsSpace(s[..k]) by {
      forall i | 0 <= i < k ensures IsJsSpace(s[..k][i]) { assert s[..k][i] == s[i]; }
    }
    var after := s[k + |r|..];
    assert AllJsSpace(after) by {
      forall i | 0 <= i < |after| ensures IsJsSpace(after[i]) {
        assert after[i] == t[|r| + i];
      }
    }
    assert PaddedAt(s, r, k);
  }

  /**
   * The padding is determined: a non-blank slice with white space around it and
   * non-blank ends is the trimmed text, so nothing but the outer white space goes.
   */
  lemma TrimUnique(s: string, r: string, k: int)
    requires PaddedAt(s, r, k) && r != [] && !IsJsSpace(r[0]) && !IsJsSpace(r[|r| - 1])
    ensures Trim(s) == r
  {
    var t := Trim(s);
    var j :| PaddedAt(s, t, j);
    PaddedEnds(s, r, k);
    assert t != [] by { assert !IsJsSpace(s[k]); }
    PaddedUnique(s, r, k, t, j);
  }

  /** Two non-blank slices with non-space ends and only white space around them are one. */
  lemma PaddedUnique(s: string, r: string, k: int, t: string, j: int)
    requires PaddedAt(s, r, k) && r != [] && !IsJsSpace(r[0]) && !IsJsSpace(r[|r| - 1])
    requires PaddedAt(s, t, j) && t != [] && !IsJsSpace(t[0]) && !IsJsSpace(t[|t| - 1])
    ensures r == t
  {
    PaddedEnds(s, r, k);
    PaddedEnds(s, t, j);
    SameStart(s, k, j);
    SameEnd(s, k + |r|, j + |t|);
  }

  lemma PaddedEnds(s: string, r: string, k: int)
    requires PaddedAt(s, r, k) && r != []
    ensures 0 <= k < |s| && s[k] == r[0] && s[k + |r| - 1] == r[|r| - 1]
    ensures AllJsSpace(s[..k]) && AllJsSpace(s[k + |r|..])
  {
    assert s[k..k + |r|][0] == s[k];
    assert s[k..k + |r|][|r| - 1] == s[k + |r| - 1];
  }

  /** Two indices, each with only white space before it and a non-space at it, are equal. */
  lemma SameStart(s: string, k: int, j: int)
    requires 0 <= k < |s| && 0 <= j < |s|
    requires AllJsSpace(s[..k]) && !IsJsSpace(s[k]) && AllJsSpace(s[..j]) && !IsJsSpace(s[j])
    ensures k == j
  {
    SpaceBefore(s, k);
    SpaceBefore(s, j);
  }

  /** Two ends, each with a non-space before it and only white space after it, are equal. */
  lemma SameEnd(s: string, e: int, f: int)
    requires 0 < e <= |s| && 0 < f <= |s|
    requires AllJsSpace(s[e..]) && !IsJsSpace(s[e - 1]) && AllJsSpace(s[f..]) && !IsJsSpace(s[f - 1])
    ensures e == f
  {
    SpaceAfter(s, e);
    SpaceAfter(s, f);
  }

  lemma SpaceBefore(s: string, k: int)
    requires 0 <= k <= |s| && AllJsSpace(s[..k])
    ensures forall i :: 0 <= i < k ==> IsJsSpace(s[i])
  {
    forall i | 0 <= i < k ensures IsJsSpace(s[i]) { assert s[..k][i] == s[i]; }
  }

  lemma SpaceAfter(s: string, e: int)
    requires 0 <= e <= |s| && AllJsSpace(s[e..])
    ensures forall i :: e <= i < |s| ==> IsJsSpace(s[i])
  {
    forall i | e <= i < |s| ensures IsJsSpace(s[i]) { assert s[e..][i - e] == s[i]; }
  }

  lemma TrimEnds(s: string)
    ensures var r := TrimEnd(TrimStart(s)); r != [] ==> !IsJsSpace(r[0]) && !IsJsSpace(r[|r| - 1])
  {
    var t := TrimStart(s);
    var r := TrimEnd(t);
    if r != [] {
      assert r[0] == t[0];
    }
  }

  lemma TrimBlank(s: string)
    ensures TrimEnd(TrimStart(s)) == [] <==> forall i :: 0 <= i < |s| ==> IsJsSpace(s[i])
  {
    var t := TrimStart(s);
    var r := TrimEnd(t);
    var k := |s| - |t|;
    if r != [] {
      assert t[0] == s[k];
      assert !IsJsSpace(s[k]);
    }
  }

  // ---------------------------------------------------------------------------
  // Case mapping (ASCII letters only)

  function LowerChar(c: char): char {
    if IsUpper(c) then (c as int + 32) as char else c
  }

  /** `toLowerCase` restricted to ASCII letters. */
  function Lower(s: string): (r: string)
    ensures |r| == |s|
    ensures forall i :: 0 <= i < |s| ==> r[i] == LowerChar(s[i])
  {
    seq(|s|, i requires 0 <= i < |s| => LowerChar(s[i]))
  }

  // ---------------------------------------------------------------------------
  // Splitting, joining and replacing, scanning left to right for non-overlapping
  // occurrences as JavaScript's `split`/`replace` and Go's `strings.Replace` do

  /** `s.split(sep)` for a non-empty string separator. */
  function SplitOn(s: string, sep: string): (r: seq<string>)
    requires sep != []
    ensures |r| >= 1
    decreases |s|
  {
    if |s| < |sep| then [s]
    else if s[..|sep|] == sep then [""] + SplitOn(s[|sep|..], sep)
    else var rest := SplitOn(s[1..], sep); [[s[0]] + rest[0]] + rest[1..]
  }

  /** `parts.join(sep)`. */
  function Join(parts: seq<string>, sep: string): string {
    if parts == [] then ""
    else if |parts| == 1 then parts[0]
    else parts[0] + sep + Join(parts[1..], sep)
  }

  /** The concatenation of all parts. */
  function Concat(parts: seq<string>): string {
    if parts == [] then "" else parts[0] + Concat(parts[1..])
  }

  lemma JoinConsHead(x: string, a: string, t: seq<string>, sep: string)
    ensures Join([x + a] + t, sep) == x + Join([a] + t, sep)
  {
    if t != [] {
      assert ([x + a] + t)[1..] == t;
      assert ([a] + t)[1..] == t;
    }
  }

  /** Splitting at a leading separator: an empty first piece. */
  lemma SplitOnAtSep(s: string, sep: string)
    requires sep != [] && |sep| <= |s| && s[..|sep|] == sep
    ensures SplitOn(s, sep) == [""] + SplitOn(s[|sep|..], sep)
  {
  }

  /** Splitting past a character that does not start a separator: the
      character joins the first piece. */
  lemma SplitOnPastChar(s: string, sep: string)
    requires sep != [] && |sep| <= |s| && s[..|sep|] != sep
    ensures SplitOn(s, sep) == [[s[0]] + SplitOn(s[1..], sep)[0]] + SplitOn(s[1..], sep)[1..]
  {
  }

  /** Joining after an empty first piece puts the separator in front. */
  lemma JoinEmptyHead(rest: seq<string>, sep: string, tail: string)
    requires |rest| >= 1 && Join(rest, sep) == tail
    ensures Join([""] + rest, sep) == sep + tail
  {
    assert ([""] + rest)[1..] == rest;
  }

  /** Joining after a character added to the first piece puts the character
      in front. */
  lemma JoinCharHead(c: char, rest: seq<string>, sep: string, tail: string)
    requires |rest| >= 1 && Join(rest, sep) == tail
    ensures Join([[c] + rest[0]] + rest[1..], sep) == [c] + tail
  {
    JoinConsHead([c], rest[0], rest[1..], sep);
    assert [rest[0]] + rest[1..] == rest;
  }

  /** Splitting and joining with the same separator gives the string back. */
  lemma {:induction false} JoinSplitOn(s: string, sep: string)
    requires sep != []
    ensures Join(SplitOn(s, sep), sep) == s
    decreases |s|
  {
    if |s| < |sep| {
    } else if s[..|sep|] == sep {
      var tail := s[|sep|..];
      JoinSplitOn(tail, sep);
      SplitOnAtSep(s, sep);
      JoinEmptyHead(SplitOn(tail, sep), sep, tail);
      assert s == s[..|sep|] + tail;
    } else {
      var tail := s[1..];
      JoinSplitOn(tail, sep);
      SplitOnPastChar(s, sep);
      JoinCharHead(s[0], SplitOn(tail, sep), sep, tail);
      assert s == [s[0]] + tail;
    }
  }

  /** `s.replace(/sep/g, '')`: every non-overlapping occurrence removed, left to right. */
  function RemoveAll(s: string, sep: string): (r: string)
    requires sep != []
    ensures |r| <= |s|
    decreases |s|
  {
    if |s| < |sep| then s
    else if s[..|sep|] == sep then RemoveAll(s[|sep|..], sep)
    else [s[0]] + RemoveAll(s[1..], sep)
  }

  /** Gluing the pieces of a split is the same as removing every separator. */
  lemma {:induction false} ConcatSplitOn(s: string, sep: string)
    requires sep != []
    ensures Concat(SplitOn(s, sep)) == RemoveAll(s, sep)
    decreases |s|
  {
    if |s| < |sep| {
      assert Concat([s]) == s + Concat([]);
    } else if s[..|sep|] == sep {
      var rest := SplitOn(s[|sep|..], sep);
      ConcatSplitOn(s[|sep|..], sep);
      assert ([""] + rest)[1..] == rest;
    } else {
      var rest := SplitOn(s[1..], sep);
      ConcatSplitOn(s[1..], sep);
      assert ([[s[0]] + rest[0]] + rest[1..])[1..] == rest[1..];
      assert Concat(rest) == rest[0] + Concat(rest[1..]);
    }
  }

  /** `s.replace(pat, repl)` with a string pattern, and Go's
      `strings.Replace(s, pat, repl, 1)`: only the first occurrence is replaced. */
  function ReplaceFirst(s: string, pat: string, repl: string): string
    requires pat != []
    decreases |s|
  {
    if |s| < |pat| then s
    else if s[..|pat|] == pat then repl + s[|pat|..]
    else [s[0]] + ReplaceFirst(s[1..], pat, repl)
  }

  /** When the pattern begins the string, replacing its first occurrence with
      nothing drops exactly that prefix. */
  lemma ReplaceFirstAtStart(s: string, pat: string)
    requires pat != [] && StartsWith(s, pat)
    ensures ReplaceFirst(s, pat, "") == s[|pat|..]
  {
  }

  /** A string without the pattern is left unchanged. */
  lemma {:induction false} ReplaceFirstAbsent(s: string, pat: string, repl: string)
    requires pat != [] && !Contains(s, pat)
    ensures ReplaceFirst(s, pat, repl) == s
    decreases |s|
  {
    if |s| >= |pat| {
      assert !OccursAt(s, pat, 0);
      assert !Contains(s[1..], pat) by {
        if Contains(s[1..], pat) {
          var i :| 0 <= i <= |s[1..]| - |pat| && OccursAt(s[1..], pat, i);
          assert s[1..][i..i + |pat|] == s[i + 1..i + 1 + |pat|];
          assert OccursAt(s, pat, i + 1);
        }
      }
      ReplaceFirstAbsent(s[1..], pat, repl);
    }
  }

  /** A string in which the pattern occurs does change when the pattern is
      replaced by something shorter. */
  lemma {:induction false} ReplaceFirstPresent(s: string, pat: string, repl: string)
    requires pat != [] && Contains(s, pat) && |repl| < |pat|
    ensures |ReplaceFirst(s, pat, repl)| == |s| - |pat| + |repl|
    decreases |s|
  {
    var i :| 0 <= i <= |s| - |pat| && OccursAt(s, pat, i);
    if s[..|pat|] != pat {
      assert i > 0;
      assert s[1..][i - 1..i - 1 + |pat|] == s[i..i + |pat|];
      assert OccursAt(s[1..], pat, i - 1);
      ReplaceFirstPresent(s[1..], pat, repl);
    }
  }

  /** Number of occurrences of a character. */
  function CountChar(s: string, c: char): nat {
    if s == [] then 0 else (if s[0] == c then 1 else 0) + CountChar(s[1..], c)
  }

  /** `s.split(c)` for a one-character separator yields one piece more than
      there are separators, and no piece holds the separator. */
  lemma {:induction false} SplitOnCharCount(s: string, c: char)
    ensures |SplitOn(s, [c])| == CountChar(s, c) + 1
    ensures forall k :: 0 <= k < |SplitOn(s, [c])| ==> c !in SplitOn(s, [c])[k]
    decreases |s|
  {
    if |s| >= 1 {
      assert s[..1] == [s[0]];
      SplitOnCharCount(s[1..], c);
      if s[0] != c {
        var rest := SplitOn(s[1..], [c]);
        var r := [[s[0]] + rest[0]] + rest[1..];
        forall k | 0 <= k < |r| ensures c !in r[k] {
          if k > 0 { assert r[k] == rest[k]; }
        }
      }
    }
  }

  /** The first `n` code units, as `substring(0, n)` takes them, for text
      without characters outside the Basic Multilingual Plane. */
  function Prefix(s: string, n: nat): (r: string)
    ensures |r| == if n <= |s| then n else |s|
    ensures r == s[..|r|]
  {
    if n <= |s| then s[..n] else s
  }
}

=== FILE: TravelPackagesPage.dfy ===
/** The package catalogue, frontend/src/components/TravelPackages.js: the
    search filter over the packages the server lists. */
module TravelPackagesPage {
  import opened Text
  import opened Seqs

  /** The fields of a listed package that the search looks at. */
  datatype Listing = Listing(title: string, location: string, initialDestination: string, agencyName: string)

  /** `${title} ${location} ${initial_destination} ${agency_name}`, lowered. */
  function Haystack(p: Listing): string {
    Lower(p.title + " " + p.location + " " + p.initialDestination + " " + p.agencyName)
  }

  /** The filter applied to each package: the lowered search, untrimmed,
      occurs in the haystack. */
  predicate MatchesSearch(search: string, p: Listing) {
    Contains(Haystack(p), Lower(search))
  }

  /** `filteredPackages`: every package for a blank search, else those the
      lowered search occurs in. */
  function Filtered(packages: seq<Listing>, search: string): (r: seq<Listing>)
    ensures Trim(search) == "" ==> r == packages
    ensures Trim(search) != "" ==> forall p :: p in r <==> p in packages && MatchesSearch(search, p)
    ensures Trim(search) != "" ==>
      forall p :: multiset(r)[p] == if MatchesSearch(search, p) then multiset(packages)[p] else 0
    ensures IsSubsequence(r, packages)
  {
    if Trim(search) == "" then
      SubsequenceRefl(packages);
      packages
    else
      FilterIsSubsequence(packages, (p: Listing) => MatchesSearch(search, p));
      Filter(packages, (p: Listing) => MatchesSearch(search, p))
  }

  lemma {:induction false} SubsequenceRefl<T>(xs: seq<T>)
    ensures IsSubsequence(xs, xs)
  {
    if xs != [] {
      SubsequenceRefl(xs[1..]);
    }
  }

  /** A search made of white space only shows everything. */
  lemma BlankSearchShowsAll(packages: seq<Listing>, search: string)
    requires forall i :: 0 <= i < |search| ==> IsJsSpace(search[i])
    ensures Filtered(packages, search) == packages
  {
  }

  lemma {:induction false} LowerAppend(a: string, b: string)
    ensures Lower(a + b) == Lower(a) + Lower(b)
  {
    assert forall i :: 0 <= i < |a + b| ==> Lower(a + b)[i] == (Lower(a) + Lower(b))[i];
  }

  /** Text found in the lowered start of a string is found in the lowered
      whole. */
  lemma LoweredPrefixContains(a: string, b: string, sub: string)
    requires Contains(Lower(a), sub)
    ensures Contains(Lower(a + b), sub)
  {
    LowerAppend(a, b);
    var i :| 0 <= i <= |Lower(a)| - |sub| && OccursAt(Lower(a), sub, i);
    assert (Lower(a) + Lower(b))[i..i + |sub|] == Lower(a)[i..i + |sub|];
    assert OccursAt(Lower(a + b), sub, i);
  }

  /** A search found in the title, ignoring ASCII case, keeps the package. */
  lemma TitleMatchKept(packages: seq<Listing>, search: string, p: Listing)
    requires p in packages && Trim(search) != ""
    requires Contains(Lower(p.title), Lower(search))
    ensures p in Filtered(packages, search)
  {
    var q := Lower(search);
    LoweredPrefixContains(p.title, " ", q);
    LoweredPrefixContains(p.title + " ", p.location, q);
    LoweredPrefixContains(p.title + " " + p.location, " ", q);
    LoweredPrefixContains(p.title + " " + p.location + " ", p.initialDestination, q);
    LoweredPrefixContains(p.title + " " + p.location + " " + p.initialDestination, " ", q);
    LoweredPrefixContains(p.title + " " + p.location + " " + p.initialDestination + " ", p.agencyName, q);
    assert MatchesSearch(search, p);
  }

  /** The fields are searched as one text, so a search can run across two of
      them: "goa beach" finds a package titled "Goa" in "Beach Road". */
  lemma SearchSpansFields()
    ensures MatchesSearch("goa beach", Listing("Goa", "Beach Road", "Pune", "Sun Tours"))
  {
    var p := Listing("Goa", "Beach Road", "Pune", "Sun Tours");
    var h := "Goa" + " " + "Beach Road" + " " + "Pune" + " " + "Sun Tours";
    assert h[..9] == "Goa beach"[..3] + " " + "Beach Road"[..5];
    assert Lower(h)[..9] == "goa beach";
    assert Lower("goa beach") == "goa beach";
    assert OccursAt(Haystack(p), "goa beach", 0);
  }

  /** The search is trimmed only to decide whether it is blank, not for the
      match: a leading space takes part in it, so " goa" misses a package
      that "goa" finds. */
  lemma UntrimmedSearch()
    ensures MatchesSearch("goa", Listing("Goa", "X", "Y", "Z"))
    ensures Trim(" goa") != "" && !MatchesSearch(" goa", Listing("Goa", "X", "Y", "Z"))
  {
    var h := Haystack(Listing("Goa", "X", "Y", "Z"));
    GoaHaystack();
    assert h[0..3] == "goa";
    assert Lower("goa") == "goa";
    assert OccursAt(h, Lower("goa"), 0);
    assert Lower(" goa") == " goa";
    NoSpaceBeforeG(h);
    TrimLeadingSpace();
  }

  lemma GoaHaystack()
    ensures Haystack(Listing("Goa", "X", "Y", "Z")) == "goa x y z"
  {
    var raw := "Goa" + " " + "X" + " " + "Y" + " " + "Z";
    assert raw == "Goa X Y Z";
  }

  lemma NoSpaceBeforeG(h: string)
    requires h == "goa x y z"
    ensures !Contains(h, " goa")
  {
    forall i | 0 <= i <= |h| - 4 ensures !OccursAt(h, " goa", i) {
      if h[i] == ' ' {
        assert h[i + 1] != 'g';
        assert h[i..i + 4][1] != 'g';
      } else {
        assert h[i..i + 4][0] != ' ';
      }
    }
  }

  lemma TrimLeadingSpace()
    ensures Trim(" goa") != ""
  {
    assert !IsJsSpace(" goa"[1]);
  }
}

=== FILE: TripMapView.dfy ===
/** The trip map, frontend/src/components/TripMap.js: the coordinate tables,
    the place lookup, the assembly of the markers, and the bounds, centre and
    straight-line route derived from them. Coordinates are opaque pairs of
    reals; the map drawing and the route service's geometry are not modelled
    beyond the choice between its answer and the straight-line fallback. */
module TripMapView {
  import opened Text
  import opened Maybe
  import opened Decimal

  datatype LatLng = LatLng(lat: real, lng: real)

  /** `DISTRICT_COORDS`, in declaration order. */
  const DistrictCoords: seq<(string, LatLng)> := [
    ("Bagalkot", LatLng(16.1691, 75.6615)),
    ("Ballari (Bellary)", LatLng(15.1394, 76.9214)),
    ("Belagavi (Belgaum)", LatLng(15.8497, 74.4977)),
    ("Bengaluru Rural", LatLng(13.2257, 77.3910)),
    ("Bengaluru Urban", LatLng(12.9716, 77.5946)),
    ("Bidar", LatLng(17.9104, 77.5199)),
    ("Chamarajanagar", LatLng(11.9261, 76.9398)),
    ("Chikkaballapur", LatLng(13.4355, 77.7278)),
    ("Chikkamagaluru", LatLng(13.3161, 75.7747)),
    ("Chitradurga", LatLng(14.2251, 76.3980)),
    ("Dakshina Kannada", LatLng(12.9141, 74.8560)),
    ("Davanagere", LatLng(14.4644, 75.9218)),
    ("Dharwad", LatLng(15.4589, 75.0078)),
    ("Gadag", LatLng(15.4166, 75.6290)),
    ("Hassan", LatLng(13.0068, 76.0996)),
    ("Haveri", LatLng(14.7951, 75.3990)),
    ("Kalaburagi (Gulbarga)", LatLng(17.3297, 76.8343)),
    ("Kodagu (Coorg)", LatLng(12.4244, 75.7382)),
    ("Kolar", LatLng(13.1360, 78.1292)),
    ("Koppal", LatLng(15.3500, 76.1500)),
    ("Mandya", LatLng(12.5220, 76.8951)),
    ("Mysuru (Mysore)", LatLng(12.2958, 76.6394)),
    ("Raichur", LatLng(16.2120, 77.3439)),
    ("Ramanagara", LatLng(12.7159, 77.2819)),
    ("Shivamogga (Shimoga)", LatLng(13.9299, 75.5681)),
    ("Tumakuru (Tumkur)", LatLng(13.3379, 77.1173)),
    ("Udupi", LatLng(13.3409, 74.7421)),
    ("Uttara Kannada (Karwar)", LatLng(14.8182, 74.1289)),
    ("Vijayapura (Bijapur)", LatLng(16.8302, 75.7100)),
    ("Yadgir", LatLng(16.7700, 77.1400)),
    ("Vijayanagara", LatLng(15.3350, 76.4600))
  ]

  /** `FAMOUS_PLACES`, in declaration order; its keys are already lower case. */
  const FamousPlaces: seq<(string, LatLng)> := [
    ("mysore palace", LatLng(12.3052, 76.6552)),
    ("chamundi hills", LatLng(12.2724, 76.6704)),
    ("brindavan gardens", LatLng(12.4214, 76.5728)),
    ("mysore zoo", LatLng(12.3020, 76.6631)),
    ("lalbagh botanical garden", LatLng(12.9507, 77.5848)),
    ("cubbon park", LatLng(12.9763, 77.5929)),
    ("bangalore palace", LatLng(12.9987, 77.5922)),
    ("vidhana soudha", LatLng(12.9796, 77.5906)),
    ("hampi", LatLng(15.3350, 76.4600)),
    ("virupaksha temple", LatLng(15.3350, 76.4600)),
    ("vittala temple", LatLng(15.3350, 76.4727)),
    ("abbey falls", LatLng(12.4567, 75.7250)),
    ("raja's seat", LatLng(12.4200, 75.7400)),
    ("jog falls", LatLng(14.2297, 74.8125)),
    ("gokarna", LatLng(14.5479, 74.3188)),
    ("murudeshwar", LatLng(14.0944, 74.4844)),
    ("badami caves", LatLng(15.9196, 75.6820)),
    ("belur", LatLng(13.1631, 75.8650)),
    ("halebidu", LatLng(13.2128, 75.9958)),
    ("shravanabelagola", LatLng(12.8590, 76.4866)),
    ("nandi hills", LatLng(13.3702, 77.6835)),
    ("coorg", LatLng(12.4244, 75.7382)),
    ("madikeri", LatLng(12.4244, 75.7382))
  ]

  /** Where the map starts when a source district is unknown. */
  const DefaultSource := LatLng(12.9716, 77.5946)

  /** The centre used when there are no markers. */
  const DefaultCenter := LatLng(13.0827, 76.2707)

  // ---------------------------------------------------------------------------
  // Place lookup

  /** The keys a place name is compared with: the famous places as written,
      the districts lowered. */
  function FamousKeys(): (keys: seq<string>)
    ensures |keys| == |FamousPlaces|
    ensures forall i :: 0 <= i < |keys| ==> keys[i] == FamousPlaces[i].0
  {
    seq(|FamousPlaces|, i requires 0 <= i < |FamousPlaces| => FamousPlaces[i].0)
  }

  function DistrictKeys(): (keys: seq<string>)
    ensures |keys| == |DistrictCoords|
    ensures forall i :: 0 <= i < |keys| ==> keys[i] == Lower(DistrictCoords[i].0)
  {
    seq(|DistrictCoords|, i requires 0 <= i < |DistrictCoords| => Lower(DistrictCoords[i].0))
  }

  /** `lowerPlace.includes(key) || key.includes(lowerPlace)`. */
  predicate Matches(place: string, key: string) {
    Contains(place, key) || Contains(key, place)
  }

  /** The first key from index `from` on that matches the place. */
  function FirstMatch(keys: seq<string>, place: string, from: nat): (r: Option<nat>)
    requires from <= |keys|
    ensures r.Some? ==> from <= r.value < |keys| && Matches(place, keys[r.value])
    ensures r.Some? ==> forall j :: from <= j < r.value ==> !Matches(place, keys[j])
    ensures r.None? <==> forall j :: from <= j < |keys| ==> !Matches(place, keys[j])
    decreases |keys| - from
  {
    if from == |keys| then None
    else if Matches(place, keys[from]) then Some(from)
    else FirstMatch(keys, place, from + 1)
  }

  /** Key `k` is the first of `keys` that matches the place. */
  predicate FirstMatchAt(keys: seq<string>, place: string, k: nat) {
    k < |keys| && Matches(place, keys[k]) && forall j :: 0 <= j < k ==> !Matches(place, keys[j])
  }

  /** No key of `keys` matches the place. */
  predicate NoMatch(keys: seq<string>, place: string) {
    forall j :: 0 <= j < |keys| ==> !Matches(place, keys[j])
  }

  /** The lookup proper, over any two tables and their comparison keys: the
      first famous entry whose key matches, else the first district entry
      whose key matches, else nothing. */
  function Locate(place: string, famousKeys: seq<string>, famous: seq<(string, LatLng)>,
                  districtKeys: seq<string>, districts: seq<(string, LatLng)>): (c: Option<LatLng>)
    requires |famousKeys| == |famous| && |districtKeys| == |districts|
    ensures forall k: nat :: FirstMatchAt(famousKeys, place, k) ==> c == Some(famous[k].1)
    ensures NoMatch(famousKeys, place) ==>
      forall k: nat :: FirstMatchAt(districtKeys, place, k) ==> c == Some(districts[k].1)
    ensures c.None? <==> NoMatch(famousKeys, place) && NoMatch(districtKeys, place)
  {
    match FirstMatch(famousKeys, place, 0)
    case Some(k) => Some(famous[k].1)
    case None =>
      match FirstMatch(districtKeys, place, 0)
      case Some(k) => Some(districts[k].1)
      case None => None
  }

  /** What `getPlaceCoordinates` returns: nothing for a missing or empty
      name; otherwise `Locate` on the lowered, trimmed name with the famous
      places as written and the districts lowered. */
  function PlaceCoordinates(name: Option<string>): (c: Option<LatLng>)
    ensures name.None? || name.value == "" ==> c.None?
    ensures name.Some? && name.value != "" ==>
      forall k: nat :: FirstMatchAt(FamousKeys(), Trim(Lower(name.value)), k) ==> c == Some(FamousPlaces[k].1)
    ensures name.Some? && name.value != "" && NoMatch(FamousKeys(), Trim(Lower(name.value))) ==>
      forall k: nat :: FirstMatchAt(DistrictKeys(), Trim(Lower(name.value)), k) ==> c == Some(DistrictCoords[k].1)
    ensures name.Some? && name.value != "" ==>
      (c.None? <==> NoMatch(FamousKeys(), Trim(Lower(name.value))) && NoMatch(DistrictKeys(), Trim(Lower(name.value))))
  {
    if name.None? || name.value == "" then None
    else Locate(Trim(Lower(name.value)), FamousKeys(), FamousPlaces, DistrictKeys(), DistrictCoords)
  }

  /** One scan of `getPlaceCoordinates`: the index of the first key that
      matches, returning early. */
  method ScanKeys(keys: seq<string>, place: string) returns (r: Option<nat>)
    ensures r == FirstMatch(keys, place, 0)
  {
    var i := 0;
    while i < |keys|
      invariant 0 <= i <= |keys|
      invariant FirstMatch(keys, place, 0) == FirstMatch(keys, place, i)
    {
      if Contains(place, keys[i]) || Contains(keys[i], place) {
        return Some(i);
      }
      i := i + 1;
    }
    return None;
  }

  /** `getPlaceCoordinates`: the famous places are scanned, then the
      districts. */
  method GetPlaceCoordinates(name: Option<string>) returns (coords: Option<LatLng>)
    ensures coords == PlaceCoordinates(name)
  {
    if name.None? || name.value == "" {
      return None;
    }
    var place := Trim(Lower(name.value));
    var k := ScanKeys(FamousKeys(), place);
    if k.Some? {
      return Some(FamousPlaces[k.value].1);
    }
    k := ScanKeys(DistrictKeys(), place);
    if k.Some? {
      return Some(DistrictCoords[k.value].1);
    }
    return None;
  }

  /** Every key contains the empty string, so a name of white space only
      lands on the first famous place, whatever was meant. */
  lemma BlankNameFindsFirstFamous(name: string)
    requires name != [] && forall i :: 0 <= i < |name| ==> IsJsSpace(name[i])
    ensures PlaceCoordinates(Some(name)) == Some(FamousPlaces[0].1)
  {
    var lowered := Lower(name);
    assert forall i :: 0 <= i < |lowered| ==> IsJsSpace(lowered[i]) by {
      forall i | 0 <= i < |lowered| ensures IsJsSpace(lowered[i]) {
        assert lowered[i] == LowerChar(name[i]);
      }
    }
    ContainsEmpty(FamousKeys()[0]);
  }

  lemma MysoreNormalised()
    ensures Trim(Lower("Mysore")) == "mysore"
  {
    var l := Lower("Mysore");
    assert l == "mysore" by {
      assert LowerChar('M') == 'm';
      forall i | 1 <= i < 6 ensures l[i] == "mysore"[i] {
        assert !IsUpper("Mysore"[i]);
      }
    }
    assert !IsJsSpace('m') && !IsJsSpace('e');
    assert TrimStart("mysore") == "mysore";
    assert TrimEnd("mysore") == "mysore";
  }

  lemma MysoreDistrictKey()
    ensures Matches("mysore", DistrictKeys()[21])
  {
    assert DistrictKeys()[21] == "mysuru (mysore)";
    assert OccursAt(DistrictKeys()[21], "mysore", 8);
  }

  lemma MysoreFamousKey()
    ensures FirstMatch(FamousKeys(), "mysore", 0) == Some(0)
  {
    assert OccursAt(FamousKeys()[0], "mysore", 0);
  }

  /** A name whose first famous match is known lands on that place. */
  lemma FamousHit(name: string, place: string, k: nat)
    requires name != [] && Trim(Lower(name)) == place && FirstMatch(FamousKeys(), place, 0) == Some(k)
    ensures k < |FamousPlaces| && PlaceCoordinates(Some(name)) == Some(FamousPlaces[k].1)
  {
    FirstMatchIsAt(FamousKeys(), place, k);
  }

  /** `FirstMatch` finds exactly the first matching key. */
  lemma FirstMatchIsAt(keys: seq<string>, place: string, k: nat)
    requires FirstMatch(keys, place, 0) == Some(k)
    ensures FirstMatchAt(keys, place, k)
  {
  }

  lemma PalaceNotDistrict()
    ensures FamousPlaces[0].1 != DistrictCoords[21].1
  {
  }

  /** Famous places are searched first: a name that normalises to "mysore",
      as "Mysore" does, lands on the palace, although the district
      "Mysuru (Mysore)" matches it too. */
  lemma FamousBeforeDistrict(name: string)
    requires name != [] && Trim(Lower(name)) == "mysore"
    ensures Matches(Trim(Lower(name)), DistrictKeys()[21])
    ensures PlaceCoordinates(Some(name)) == Some(FamousPlaces[0].1)
    ensures FamousPlaces[0].1 != DistrictCoords[21].1
  {
    MysoreDistrictKey();
    MysoreFamousKey();
    FamousHit(name, "mysore", 0);
    PalaceNotDistrict();
  }

  // ---------------------------------------------------------------------------
  // Markers

  /** A must-visit place as the trip lists it; its name may be missing. */
  datatype Place = Place(name: Option<string>, description: string)

  datatype MarkerKind = SourceMarker | PlaceMarker | DestinationMarker

  datatype Marker = Marker(position: LatLng, name: Option<string>, description: Option<string>, kind: MarkerKind, badge: string)

  /** `DISTRICT_COORDS[key]`: an exact lookup. */
  function DistrictAt(key: string): (c: Option<LatLng>)
    ensures c.Some? <==> exists i :: 0 <= i < |DistrictCoords| && DistrictCoords[i].0 == key
  {
    DistrictFrom(key, 0)
  }

  function DistrictFrom(key: string, from: nat): (c: Option<LatLng>)
    requires from <= |DistrictCoords|
    ensures c.Some? <==> exists i :: from <= i < |DistrictCoords| && DistrictCoords[i].0 == key
    ensures c.Some? ==> exists i :: from <= i < |DistrictCoords| && DistrictCoords[i] == (key, c.value)
    decreases |DistrictCoords| - from
  {
    if from == |DistrictCoords| then None
    else if DistrictCoords[from].0 == key then Some(DistrictCoords[from].1)
    else DistrictFrom(key, from + 1)
  }

  /** `DISTRICT_COORDS[source] || { lat: 12.9716, lng: 77.5946 }`. */
  function SourceCoords(source: string): (c: LatLng)
    ensures DistrictAt(source).None? ==> c == DefaultSource
    ensures DistrictAt(source).Some? ==> c == DistrictAt(source).value
  {
    DistrictAt(source).GetOr(DefaultSource)
  }

  /** `DISTRICT_COORDS[destination] || sourceCoords`. */
  function DestinationCoords(source: string, destination: string): (c: LatLng)
    ensures DistrictAt(destination).None? ==> c == SourceCoords(source)
    ensures DistrictAt(destination).Some? ==> c == DistrictAt(destination).value
  {
    DistrictAt(destination).GetOr(SourceCoords(source))
  }

  /** The lookup's answer for each listed place, in list order. */
  function Lookups(places: seq<Place>): (found: seq<Option<LatLng>>)
    ensures |found| == |places|
    ensures forall i :: 0 <= i < |places| ==> found[i] == PlaceCoordinates(places[i].name)
  {
    seq(|places|, i requires 0 <= i < |places| => PlaceCoordinates(places[i].name))
  }

  /** The marker of a listed place the lookup found, labelled with its
      position in the whole list counted from 1. */
  function PlaceMarkerOf(places: seq<Place>, found: seq<Option<LatLng>>, idx: nat): (m: Marker)
    requires idx < |places| == |found| && found[idx].Some?
    ensures m.kind == PlaceMarker && m.badge == NatToString(idx + 1)
    ensures Some(m.position) == found[idx] && m.name == places[idx].name
  {
    Marker(found[idx].value, places[idx].name, Some(places[idx].description), PlaceMarker, NatToString(idx + 1))
  }

  /** The markers one listed place contributes: its marker when the lookup
      found it, none otherwise. */
  function MarkerFor(places: seq<Place>, found: seq<Option<LatLng>>, idx: nat): (m: seq<Marker>)
    requires idx < |places| == |found|
    ensures |m| <= 1
    ensures m != [] <==> found[idx].Some?
  {
    if found[idx].Some? then [PlaceMarkerOf(places, found, idx)] else []
  }

  /** The markers of the first `n` places. */
  function PlaceMarkers(places: seq<Place>, found: seq<Option<LatLng>>, n: nat): seq<Marker>
    requires n <= |places| == |found|
  {
    if n == 0 then [] else PlaceMarkers(places, found, n - 1) + MarkerFor(places, found, n - 1)
  }

  /** The indices among the first `n` places that the lookup found. */
  function Hits(found: seq<Option<LatLng>>, n: nat): seq<nat>
    requires n <= |found|
  {
    if n == 0 then []
    else if found[n - 1].Some? then Hits(found, n - 1) + [n - 1]
    else Hits(found, n - 1)
  }

  /** The hits are indices below n, in increasing order. */
  lemma {:induction false} HitsIncreasing(found: seq<Option<LatLng>>, n: nat)
    requires n <= |found|
    ensures forall k :: 0 <= k < |Hits(found, n)| ==> Hits(found, n)[k] < n
    ensures forall k, l :: 0 <= k < l < |Hits(found, n)| ==> Hits(found, n)[k] < Hits(found, n)[l]
  {
    if n > 0 {
      HitsIncreasing(found, n - 1);
    }
  }

  /** An index is a hit exactly when the lookup found that place. */
  lemma {:induction false} HitsFound(found: seq<Option<LatLng>>, n: nat)
    requires n <= |found|
    ensures forall idx :: 0 <= idx < n ==> (idx in Hits(found, n) <==> found[idx].Some?)
  {
    if n > 0 {
      HitsFound(found, n - 1);
      HitsIncreasing(found, n - 1);
    }
  }

  /** Appending a found place's marker and its index keeps the two lists
      paired. */
  lemma AppendPaired(places: seq<Place>, found: seq<Option<LatLng>>, prev: seq<Marker>, hits: seq<nat>, idx: nat)
    requires idx < |places| == |found| && found[idx].Some? && |prev| == |hits|
    requires forall k :: 0 <= k < |hits| ==>
      hits[k] < |places| && found[hits[k]].Some? && prev[k] == PlaceMarkerOf(places, found, hits[k])
    ensures var ms := prev + [PlaceMarkerOf(places, found, idx)];
      var hs := hits + [idx];
      forall k :: 0 <= k < |hs| ==>
        hs[k] < |places| && found[hs[k]].Some? && ms[k] == PlaceMarkerOf(places, found, hs[k])
  {
    var ms := prev + [PlaceMarkerOf(places, found, idx)];
    var hs := hits + [idx];
    forall k | 0 <= k < |hs|
      ensures hs[k] < |places| && found[hs[k]].Some? && ms[k] == PlaceMarkerOf(places, found, hs[k])
    {
      if k < |hits| {
        assert hs[k] == hits[k] && ms[k] == prev[k];
      }
    }
  }

  /** Marker k belongs to the k-th hit. */
  lemma {:induction false} PlaceMarkersHits(places: seq<Place>, found: seq<Option<LatLng>>, n: nat)
    requires n <= |places| == |found|
    ensures |PlaceMarkers(places, found, n)| == |Hits(found, n)|
    ensures forall k :: 0 <= k < |Hits(found, n)| ==>
      Hits(found, n)[k] < |places| && found[Hits(found, n)[k]].Some? &&
      PlaceMarkers(places, found, n)[k] == PlaceMarkerOf(places, found, Hits(found, n)[k])
  {
    if n > 0 {
      PlaceMarkersHits(places, found, n - 1);
      var prev := PlaceMarkers(places, found, n - 1);
      var hits := Hits(found, n - 1);
      if found[n - 1].Some? {
        assert PlaceMarkers(places, found, n) == prev + [PlaceMarkerOf(places, found, n - 1)];
        assert Hits(found, n) == hits + [n - 1];
        AppendPaired(places, found, prev, hits, n - 1);
      } else {
        assert PlaceMarkers(places, found, n) == prev + [];
        assert Hits(found, n) == hits;
      }
    }
  }

  /** The j-th place marker is the marker of the j-th hit. */
  lemma PlaceMarkerAt(places: seq<Place>, found: seq<Option<LatLng>>, j: nat)
    requires |places| == |found| && j < |Hits(found, |places|)|
    ensures var hits := Hits(found, |places|);
      var between := PlaceMarkers(places, found, |places|);
      && hits[j] < |places| && j < |between|
      && between[j].kind == PlaceMarker
      && between[j].badge == NatToString(hits[j] + 1)
      && Some(between[j].position) == found[hits[j]]
  {
    var hits := Hits(found, |places|);
    var between := PlaceMarkers(places, found, |places|);
    PlaceMarkersHits(places, found, |places|);
    assert between[j] == PlaceMarkerOf(places, found, hits[j]);
  }

  /** One place marker per hit. */
  lemma {:induction false} PlaceMarkersCount(places: seq<Place>, found: seq<Option<LatLng>>, n: nat)
    requires n <= |places| == |found|
    ensures |PlaceMarkers(places, found, n)| == |Hits(found, n)|
  {
    if n > 0 {
      PlaceMarkersCount(places, found, n - 1);
    }
  }

  function StartMarker(source: string): Marker {
    Marker(SourceCoords(source), Some(source), None, SourceMarker, "S")
  }

  function EndMarker(source: string, destination: string): Marker {
    Marker(DestinationCoords(source, destination), Some(destination), None, DestinationMarker, "D")
  }

  /** The `markers` memo: source, the places found, destination. */
  function Markers(source: string, destination: string, places: Option<seq<Place>>): seq<Marker> {
    var between := if places.Some? then PlaceMarkers(places.value, Lookups(places.value), |places.value|) else [];
    [StartMarker(source)] + between + [EndMarker(source, destination)]
  }

  /** The `markers` memo as the source builds it, pushing onto a list. */
  method BuildMarkers(source: string, destination: string, places: Option<seq<Place>>) returns (markers: seq<Marker>)
    ensures markers == Markers(source, destination, places)
  {
    var sourceCoords := SourceCoords(source);
    var destCoords := DestinationCoords(source, destination);
    markers := [Marker(sourceCoords, Some(source), None, SourceMarker, "S")];
    if places.Some? && |places.value| > 0 {
      var between := PushPlaceMarkers(places.value);
      markers := markers + between;
    }
    markers := markers + [Marker(destCoords, Some(destination), None, DestinationMarker, "D")];
  }

  /** The `mustVisitPlaces.forEach` loop. */
  method PushPlaceMarkers(list: seq<Place>) returns (markers: seq<Marker>)
    ensures markers == PlaceMarkers(list, Lookups(list), |list|)
  {
    ghost var found := Lookups(list);
    markers := [];
    var i := 0;
    while i < |list|
      invariant 0 <= i <= |list|
      invariant markers == PlaceMarkers(list, found, i)
    {
      var coords := GetPlaceCoordinates(list[i].name);
      assert coords == found[i];
      if coords.Some? {
        var m := Marker(coords.value, list[i].name, Some(list[i].description), PlaceMarker, NatToString(i + 1));
        assert m == PlaceMarkerOf(list, found, i);
        markers := markers + [m];
      } else {
        assert MarkerFor(list, found, i) == [];
      }
      i := i + 1;
    }
  }

  /** The trip's markers: source first, destination last, one place marker
      per hit between them. */
  lemma MarkersEnds(source: string, destination: string, places: seq<Place>)
    ensures var m := Markers(source, destination, Some(places));
      && m == [StartMarker(source)] + PlaceMarkers(places, Lookups(places), |places|) + [EndMarker(source, destination)]
      && |m| == 2 + |Hits(Lookups(places), |places|)|
      && m[0] == StartMarker(source) && m[|m| - 1] == EndMarker(source, destination)
  {
    PlaceMarkersCount(places, Lookups(places), |places|);
  }

  /** Marker k, between the two ends, belongs to the (k-1)-th hit. */
  lemma MarkerBetween(source: string, destination: string, places: seq<Place>, k: nat)
    requires 1 <= k < |Markers(source, destination, Some(places))| - 1
    ensures var m := Markers(source, destination, Some(places));
      var hits := Hits(Lookups(places), |places|);
      && k - 1 < |hits| && hits[k - 1] < |places|
      && m[k].kind == PlaceMarker
      && m[k].badge == NatToString(hits[k - 1] + 1)
      && Some(m[k].position) == Lookups(places)[hits[k - 1]]
  {
    MarkersEnds(source, destination, places);
    AssembledAt(StartMarker(source), EndMarker(source, destination), places, Lookups(places), k);
  }

  /** The same, for any end markers and lookup results. */
  lemma AssembledAt(first: Marker, last: Marker, places: seq<Place>, found: seq<Option<LatLng>>, k: nat)
    requires |places| == |found| && 1 <= k <= |PlaceMarkers(places, found, |places|)|
    ensures var m := [first] + PlaceMarkers(places, found, |places|) + [last];
      var hits := Hits(found, |places|);
      && k - 1 < |hits| && hits[k - 1] < |places|
      && m[k].kind == PlaceMarker
      && m[k].badge == NatToString(hits[k - 1] + 1)
      && Some(m[k].position) == found[hits[k - 1]]
  {
    var between := PlaceMarkers(places, found, |places|);
    PlaceMarkersCount(places, found, |places|);
    PlaceMarkerAt(places, found, k - 1);
    assert ([first] + between + [last])[k] == between[k - 1];
  }

  /** The markers run source, then each place with coordinates in list order,
      then destination; a place the lookup misses leaves its label unused. */
  lemma MarkersLayout(source: string, destination: string, places: seq<Place>)
    ensures var m := Markers(source, destination, Some(places));
      var hits := Hits(Lookups(places), |places|);
      && |m| == 2 + |hits|
      && m[0].kind == SourceMarker && m[0].position == SourceCoords(source)
      && m[|m| - 1].kind == DestinationMarker
      && m[|m| - 1].position == DestinationCoords(source, destination)
      && (forall idx :: 0 <= idx < |places| ==> (idx in hits <==> PlaceCoordinates(places[idx].name).Some?))
      && (forall k, l :: 0 <= k < l < |hits| ==> hits[k] < hits[l])
      && forall k :: 1 <= k < |m| - 1 ==>
           && hits[k - 1] < |places|
           && m[k].kind == PlaceMarker
           && m[k].badge == NatToString(hits[k - 1] + 1)
           && Some(m[k].position) == PlaceCoordinates(places[hits[k - 1]].name)
  {
    var found := Lookups(places);
    MarkersEnds(source, destination, places);
    HitsIncreasing(found, |places|);
    HitsFound(found, |places|);
    var m := Markers(source, destination, Some(places));
    forall k | 1 <= k < |m| - 1
      ensures Hits(found, |places|)[k - 1] < |places|
      ensures m[k].kind == PlaceMarker
      ensures m[k].badge == NatToString(Hits(found, |places|)[k - 1] + 1)
      ensures Some(m[k].position) == PlaceCoordinates(places[Hits(found, |places|)[k - 1]].name)
    {
      MarkerBetween(source, destination, places, k);
    }
  }

  /** Without a list of places there are just the two end markers. */
  lemma NoPlacesTwoMarkers(source: string, destination: string)
    ensures Markers(source, destination, None) == [StartMarker(source), EndMarker(source, destination)]
    ensures Markers(source, destination, Some([])) == Markers(source, destination, None)
  {
  }

  // ---------------------------------------------------------------------------
  // Bounds, centre and route

  /** `markers.map(m => m.position)`: the bounds, and the straight-line route. */
  function Positions(markers: seq<Marker>): (ps: seq<LatLng>)
    ensures |ps| == |markers|
    ensures forall i :: 0 <= i < |markers| ==> ps[i] == markers[i].position
  {
    seq(|markers|, i requires 0 <= i < |markers| => markers[i].position)
  }

  /** The `center` memo. */
  function Center(markers: seq<Marker>): (c: LatLng)
    ensures markers != [] ==> c == Positions(markers)[0]
    ensures markers == [] ==> c == DefaultCenter
  {
    if |markers| > 0 then markers[0].position else DefaultCenter
  }

  /** The map opens on the source, which is also the first bound. */
  lemma CenterIsSource(source: string, destination: string, places: Option<seq<Place>>)
    ensures Center(Markers(source, destination, places)) == SourceCoords(source)
    ensures Positions(Markers(source, destination, places))[0] == SourceCoords(source)
  {
  }

  /** How the request to the route service ends; a geometry is a list of
      `[lng, lat]` pairs, or missing from the answer. */
  datatype RouteResponse = Threw | NotOk | Answered(geometry: Option<seq<(real, real)>>)

  /** `routeCoordinates` after `fetchRoute`: the service's geometry with each
      pair swapped back, the previous route when an answer has no geometry,
      and the straight lines through the markers otherwise. */
  function Route(hasApiKey: bool, markers: seq<Marker>, response: RouteResponse, previous: seq<LatLng>): (route: seq<LatLng>)
    ensures !(hasApiKey && |markers| >= 2 && response.Answered?) ==> route == Positions(markers)
    ensures hasApiKey && |markers| >= 2 && response == Answered(None) ==> route == previous
    ensures hasApiKey && |markers| >= 2 && response.Answered? && response.geometry.Some? ==>
      |route| == |response.geometry.value| &&
      forall i :: 0 <= i < |route| ==>
        route[i] == LatLng(response.geometry.value[i].1, response.geometry.value[i].0)
  {
    if hasApiKey && |markers| >= 2 then
      match response
      case Threw => Positions(markers)
      case NotOk => Positions(markers)
      case Answered(None) => previous
      case Answered(Some(cs)) => seq(|cs|, i requires 0 <= i < |cs| => LatLng(cs[i].1, cs[i].0))
    else Positions(markers)
  }

  /** The trip's markers always number at least two, so the service is asked
      whenever a key is configured; without one the route is the straight
      line through the markers, starting at the source. */
  lemma RouteWithoutKey(source: string, destination: string, places: Option<seq<Place>>, response: RouteResponse, previous: seq<LatLng>)
    ensures |Markers(source, destination, places)| >= 2
    ensures Route(false, Markers(source, destination, places), response, previous) ==
      Positions(Markers(source, destination, places))
    ensures Route(false, Markers(source, destination, places), response, previous)[0] == SourceCoords(source)
  {
  }
}

=== FILE: Weather.dfy ===
/** The midday-per-day forecast selection and the error branches of
    backend/utils/weather.go. Readings that are floats (temperatures, wind,
    rain chance) are not modelled; an item's date and local hour, which the
    source derives from its Unix time, are inputs. */
module Weather {
  import opened Seqs

  datatype Condition = Condition(description: string, icon: string)

  /** One entry of the API's `list`. */
  datatype ForecastItem = ForecastItem(date: string, hour: int, humidity: int, weather: seq<Condition>)

  /** One kept forecast. */
  datatype Forecast = Forecast(date: string, humidity: int, description: string, icon: string)

  /** The window around noon: hours 11 to 14 inclusive. */
  predicate InWindow(item: ForecastItem) { 11 <= item.hour <= 14 }

  /** The forecast built from an item, from its first weather condition. */
  function ToForecast(item: ForecastItem): (f: Forecast)
    ensures f.date == item.date && f.humidity == item.humidity
  {
    if item.weather == [] then Forecast(item.date, item.humidity, "", "")
    else Forecast(item.date, item.humidity, item.weather[0].description, item.weather[0].icon)
  }

  /** Item `i` is the first in-window item of its date. */
  predicate FirstOfDate(items: seq<ForecastItem>, i: int) {
    0 <= i < |items| && InWindow(items[i]) &&
    forall j :: 0 <= j < i ==> !(InWindow(items[j]) && items[j].date == items[i].date)
  }

  /** The selection, scanning `items` with the dates in `seen` already taken. */
  function SelectFrom(items: seq<ForecastItem>, seen: set<string>): seq<Forecast> {
    if items == [] then []
    else if InWindow(items[0]) && items[0].date !in seen then
      [ToForecast(items[0])] + SelectFrom(items[1..], seen + {items[0].date})
    else SelectFrom(items[1..], seen)
  }

  /** The forecasts `GetWeatherForecast` keeps. */
  function Midday(items: seq<ForecastItem>): seq<Forecast> {
    SelectFrom(items, {})
  }

  function DatesOf(fs: seq<Forecast>): set<string> {
    set k | 0 <= k < |fs| :: fs[k].date
  }

  /** One step of the scan. */
  lemma SelectFromStep(items: seq<ForecastItem>, seen: set<string>)
    requires items != []
    ensures SelectFrom(items, seen) ==
      if InWindow(items[0]) && items[0].date !in seen then
        [ToForecast(items[0])] + SelectFrom(items[1..], seen + {items[0].date})
      else SelectFrom(items[1..], seen)
  {
  }

  /** One turn of the selection loop keeps the scan's promise: what is kept
      so far followed by the selection of the rest is the whole selection. */
  lemma ScanStep(items: seq<ForecastItem>, i: nat, kept: seq<Forecast>, seen: set<string>)
    requires i < |items| && kept + SelectFrom(items[i..], seen) == Midday(items)
    ensures InWindow(items[i]) && items[i].date !in seen ==>
      (kept + [ToForecast(items[i])]) + SelectFrom(items[i + 1..], seen + {items[i].date}) == Midday(items)
    ensures !(InWindow(items[i]) && items[i].date !in seen) ==>
      kept + SelectFrom(items[i + 1..], seen) == Midday(items)
  {
    SelectFromStep(items[i..], seen);
    assert items[i..][0] == items[i] && items[i..][1..] == items[i + 1..];
    if InWindow(items[i]) && items[i].date !in seen {
      var rest := SelectFrom(items[i + 1..], seen + {items[i].date});
      assert kept + ([ToForecast(items[i])] + rest) == (kept + [ToForecast(items[i])]) + rest;
    }
  }

  /** The selection loop: `processedDates` records the dates already kept,
      and a missing key reads as false. */
  method SelectMidday(items: seq<ForecastItem>) returns (forecasts: seq<Forecast>)
    requires forall i :: FirstOfDate(items, i) ==> items[i].weather != []
    ensures forecasts == Midday(items)
  {
    forecasts := [];
    var processedDates: map<string, bool> := map[];
    var i := 0;
    assert items[i..] == items && processedDates.Keys == {};
    while i < |items|
      invariant 0 <= i <= |items|
      invariant forall d :: d in processedDates ==> processedDates[d]
      invariant forecasts + SelectFrom(items[i..], processedDates.Keys) == Midday(items)
    {
      var item := items[i];
      ghost var keys := processedDates.Keys;
      ScanStep(items, i, forecasts, keys);
      var processed := item.date in processedDates && processedDates[item.date];
      if 11 <= item.hour <= 14 && !processed {
        forecasts := forecasts + [ToForecast(item)];
        processedDates := processedDates[item.date := true];
        assert processedDates.Keys == keys + {item.date};
      }
      i := i + 1;
    }
  }

  // ---------------------------------------------------------------------------
  // Properties of the selection

  /** No kept forecast has a date in `seen`, and no two share a date. */
  lemma {:induction false} SelectFromDistinct(items: seq<ForecastItem>, seen: set<string>)
    ensures forall k :: 0 <= k < |SelectFrom(items, seen)| ==> SelectFrom(items, seen)[k].date !in seen
    ensures forall k, l :: 0 <= k < l < |SelectFrom(items, seen)| ==>
      SelectFrom(items, seen)[k].date != SelectFrom(items, seen)[l].date
  {
    if items != [] {
      var out := SelectFrom(items, seen);
      SelectFromStep(items, seen);
      if InWindow(items[0]) && items[0].date !in seen {
        var seen' := seen + {items[0].date};
        var rest := SelectFrom(items[1..], seen');
        SelectFromDistinct(items[1..], seen');
        assert out == [ToForecast(items[0])] + rest;
        assert forall k :: 1 <= k < |out| ==> out[k] == rest[k - 1];
        assert out[0].date == items[0].date;
      } else {
        SelectFromDistinct(items[1..], seen);
      }
    }
  }

  /** At most one forecast per date. */
  lemma MiddayDistinctDates(items: seq<ForecastItem>)
    ensures forall k, l :: 0 <= k < l < |Midday(items)| ==> Midday(items)[k].date != Midday(items)[l].date
  {
    SelectFromDistinct(items, {});
  }

  /** `f` is the forecast of some in-window item of `items`. */
  predicate FromWindow(f: Forecast, items: seq<ForecastItem>) {
    exists i :: 0 <= i < |items| && InWindow(items[i]) && f == ToForecast(items[i])
  }

  /** Every kept forecast is built from an in-window item. */
  lemma {:induction false} SelectFromInWindow(items: seq<ForecastItem>, seen: set<string>)
    ensures forall k :: 0 <= k < |SelectFrom(items, seen)| ==> FromWindow(SelectFrom(items, seen)[k], items)
  {
    if items != [] {
      var out := SelectFrom(items, seen);
      SelectFromStep(items, seen);
      var take := InWindow(items[0]) && items[0].date !in seen;
      var seen' := if take then seen + {items[0].date} else seen;
      var rest := SelectFrom(items[1..], seen');
      assert out == if take then [ToForecast(items[0])] + rest else rest;
      SelectFromInWindow(items[1..], seen');
      forall k | 0 <= k < |out|
        ensures FromWindow(out[k], items)
      {
        if take && k == 0 {
          assert InWindow(items[0]) && out[0] == ToForecast(items[0]);
        } else {
          var k' := if take then k - 1 else k;
          assert out[k] == rest[k'];
          assert FromWindow(rest[k'], items[1..]);
          var i :| 0 <= i < |items[1..]| && InWindow(items[1..][i]) && rest[k'] == ToForecast(items[1..][i]);
          assert items[1..][i] == items[i + 1];
          assert InWindow(items[i + 1]) && out[k] == ToForecast(items[i + 1]);
        }
      }
    }
  }

  lemma MiddayInWindow(items: seq<ForecastItem>)
    ensures forall k :: 0 <= k < |Midday(items)| ==> FromWindow(Midday(items)[k], items)
  {
    SelectFromInWindow(items, {});
  }

  /** The first in-window item of a date not yet seen is kept. */
  lemma {:induction false} SelectFromKeepsFirst(items: seq<ForecastItem>, seen: set<string>, i: int)
    requires FirstOfDate(items, i) && items[i].date !in seen
    ensures ToForecast(items[i]) in SelectFrom(items, seen)
    decreases i
  {
    var take := InWindow(items[0]) && items[0].date !in seen;
    SelectFromStep(items, seen);
    if i == 0 {
    } else {
      var seen' := if take then seen + {items[0].date} else seen;
      assert items[0].date != items[i].date || !InWindow(items[0]);
      assert FirstOfDate(items[1..], i - 1) by {
        forall j | 0 <= j < i - 1
          ensures !(InWindow(items[1..][j]) && items[1..][j].date == items[1..][i - 1].date)
        {
          assert items[1..][j] == items[j + 1];
        }
      }
      SelectFromKeepsFirst(items[1..], seen', i - 1);
      assert items[1..][i - 1] == items[i];
    }
  }

  /** For each date, the first in-window item is the one kept. */
  lemma MiddayKeepsFirst(items: seq<ForecastItem>, i: int)
    requires FirstOfDate(items, i)
    ensures ToForecast(items[i]) in Midday(items)
  {
    SelectFromKeepsFirst(items, {}, i);
  }

  /** Every date with an in-window item appears among the kept forecasts. */
  lemma MiddayComplete(items: seq<ForecastItem>, i: int)
    requires 0 <= i < |items| && InWindow(items[i])
    ensures items[i].date in DatesOf(Midday(items))
  {
    var first := FirstIndex(items, i);
    MiddayKeepsFirst(items, first);
    var out := Midday(items);
    var k :| 0 <= k < |out| && out[k] == ToForecast(items[first]);
    assert out[k].date == items[i].date;
  }

  /** The earliest in-window item with the same date as item `i`. */
  lemma {:induction false} FirstIndex(items: seq<ForecastItem>, i: int) returns (f: int)
    requires 0 <= i < |items| && InWindow(items[i])
    ensures FirstOfDate(items, f) && f <= i && items[f].date == items[i].date
    decreases i
  {
    if j :| 0 <= j < i && InWindow(items[j]) && items[j].date == items[i].date {
      f := FirstIndex(items, j);
    } else {
      f := i;
    }
  }

  /** The kept items appear in input order: the selection is the image of a
      subsequence of the items. */
  lemma {:induction false} SelectFromInOrder(items: seq<ForecastItem>, seen: set<string>)
    ensures IsSubsequence(SelectFrom(items, seen), Forecasts(items))
  {
    if items != [] {
      SelectFromStep(items, seen);
      assert Forecasts(items)[1..] == Forecasts(items[1..]);
      if InWindow(items[0]) && items[0].date !in seen {
        SelectFromInOrder(items[1..], seen + {items[0].date});
        assert ([ToForecast(items[0])] + SelectFrom(items[1..], seen + {items[0].date}))[1..]
            == SelectFrom(items[1..], seen + {items[0].date});
      } else {
        SelectFromInOrder(items[1..], seen);
        SubsequenceOfTail(SelectFrom(items[1..], seen), Forecasts(items));
      }
    }
  }

  function Forecasts(items: seq<ForecastItem>): (fs: seq<Forecast>)
    ensures |fs| == |items| && forall i :: 0 <= i < |items| ==> fs[i] == ToForecast(items[i])
  {
    seq(|items|, i requires 0 <= i < |items| => ToForecast(items[i]))
  }

  lemma MiddayInOrder(items: seq<ForecastItem>)
    ensures IsSubsequence(Midday(items), Forecasts(items))
  {
    SelectFromInOrder(items, {});
  }

  // ---------------------------------------------------------------------------
  // GetWeatherForecast and FormatWeatherForTrip

  /** What the HTTP call to the forecast service ends in. */
  datatype FetchOutcome =
    | FetchFailed
    | ReadFailed
    | BadStatus
    | ParseFailed
    | Fetched(city: string, country: string, items: seq<ForecastItem>)

  datatype WeatherData = WeatherData(city: string, country: string, forecasts: seq<Forecast>, errorMsg: string)

  function ErrorData(msg: string): WeatherData { WeatherData("", "", [], msg) }

  ghost predicate FetchUsable(fetch: FetchOutcome) {
    fetch.Fetched? ==> forall i :: FirstOfDate(fetch.items, i) ==> fetch.items[i].weather != []
  }

  /** `GetWeatherForecast`: each failure gives its own `ErrorMsg` together with
      an error; success keeps the midday forecasts. */
  method GetWeatherForecast(apiKey: string, fetch: FetchOutcome) returns (data: WeatherData, failed: bool)
    requires FetchUsable(fetch)
    ensures apiKey == "" ==> data == ErrorData("Weather API key not configured") && failed
    ensures data.errorMsg != "" <==> failed
    ensures !failed <==> apiKey != "" && fetch.Fetched?
    ensures !failed ==> data == WeatherData(fetch.city, fetch.country, Midday(fetch.items), "")
    ensures apiKey != "" && fetch.FetchFailed? ==> data == ErrorData("Failed to fetch weather data")
    ensures apiKey != "" && fetch.ReadFailed? ==> data == ErrorData("Failed to read weather data")
    ensures apiKey != "" && fetch.BadStatus? ==> data == ErrorData("Weather data not available for this location")
    ensures apiKey != "" && fetch.ParseFailed? ==> data == ErrorData("Failed to parse weather data")
  {
    if apiKey == "" {
      return ErrorData("Weather API key not configured"), true;
    }
    match fetch
    case FetchFailed => return ErrorData("Failed to fetch weather data"), true;
    case ReadFailed => return ErrorData("Failed to read weather data"), true;
    case BadStatus => return ErrorData("Weather data not available for this location"), true;
    case ParseFailed => return ErrorData("Failed to parse weather data"), true;
    case Fetched(city, country, items) =>
      var forecasts := SelectMidday(items);
      return WeatherData(city, country, forecasts, ""), false;
  }

  /** The text `FormatWeatherForTrip` adds to the prompt: a warning line or
      the report of the kept forecasts (its number formatting is not modelled). */
  datatype WeatherNote = Warning(text: string) | Report(city: string, country: string, forecasts: seq<Forecast>)

  function FormatWeatherForTrip(destination: string, data: WeatherData, failed: bool): (note: WeatherNote)
    ensures failed ==>
      note == Warning("\n\U{26A0}\U{FE0F} Weather information not available for " + destination + "\n")
    ensures !failed && data.errorMsg != "" ==> note == Warning("\n\U{26A0}\U{FE0F} " + data.errorMsg + "\n")
    ensures note.Report? <==> !failed && data.errorMsg == ""
    ensures note.Report? ==> note.forecasts == data.forecasts
  {
    if failed then Warning("\n\U{26A0}\U{FE0F} Weather information not available for " + destination + "\n")
    else if data.errorMsg != "" then Warning("\n\U{26A0}\U{FE0F} " + data.errorMsg + "\n")
    else Report(data.city, data.country, data.forecasts)
  }

  /** With the data `GetWeatherForecast` returns, an error and an `ErrorMsg`
      come together, so the prompt gets the generic warning naming the
      destination on every failure and the service's own message never. */
  lemma FailureWarnsByDestination(destination: string, data: WeatherData, failed: bool)
    requires data.errorMsg != "" <==> failed
    ensures FormatWeatherForTrip(destination, data, failed).Warning? <==> failed
    ensures failed ==>
      FormatWeatherForTrip(destination, data, failed).text ==
        "\n\U{26A0}\U{FE0F} Weather information not available for " + destination + "\n"
  {
  }
}

=== FILE: Words.dfy ===
/** Words as maximal runs of non-separator characters, for any separator
    class: the server's `splitWords` separates on ' ', '\n' and '\t', the
    client's `/\s+/` on JavaScript white space. */
module Words {
  import opened Text

  predicate NoSep(w: string, sep: char -> bool) {
    forall i :: 0 <= i < |w| ==> !sep(w[i])
  }

  predicate AllSep(w: string, sep: char -> bool) {
    forall i :: 0 <= i < |w| ==> sep(w[i])
  }

  /** The longest prefix of `s` without a separator. */
  function TakeWord(s: string, sep: char -> bool): (w: string)
    ensures |w| <= |s| && w == s[..|w|] && NoSep(w, sep)
    ensures |w| < |s| ==> sep(s[|w|])
  {
    if s == [] || sep(s[0]) then [] else [s[0]] + TakeWord(s[1..], sep)
  }

  /** The longest suffix of `s` that does not start with a separator. */
  function DropSeps(s: string, sep: char -> bool): (r: string)
    ensures |r| <= |s| && r == s[|s| - |r|..] && AllSep(s[..|s| - |r|], sep)
    ensures r != [] ==> !sep(r[0])
  {
    if s != [] && sep(s[0]) then
      var r := DropSeps(s[1..], sep);
      assert s[..|s| - |r|] == [s[0]] + s[1..][..|s| - 1 - |r|];
      r
    else s
  }

  /** The words of `s`, front to back. */
  function WordsOf(s: string, sep: char -> bool): (ws: seq<string>)
    ensures forall k :: 0 <= k < |ws| ==> ws[k] != [] && NoSep(ws[k], sep)
    decreases |s|
  {
    if s == [] then []
    else if sep(s[0]) then WordsOf(s[1..], sep)
    else
      var w := TakeWord(s, sep);
      [w] + WordsOf(s[|w|..], sep)
  }

  /** `s` with every separator removed. */
  function Strip(s: string, sep: char -> bool): (r: string)
    ensures |r| <= |s| && NoSep(r, sep)
  {
    if s == [] then [] else (if sep(s[0]) then [] else [s[0]]) + Strip(s[1..], sep)
  }

  lemma {:induction false} StripAppend(a: string, b: string, sep: char -> bool)
    ensures Strip(a + b, sep) == Strip(a, sep) + Strip(b, sep)
  {
    if a != [] {
      assert (a + b)[1..] == a[1..] + b;
      StripAppend(a[1..], b, sep);
    } else {
      assert a + b == b;
    }
  }

  lemma {:induction false} StripNoSep(w: string, sep: char -> bool)
    requires NoSep(w, sep)
    ensures Strip(w, sep) == w
  {
    if w != [] {
      StripNoSep(w[1..], sep);
    }
  }

  lemma ConcatCons(w: string, rest: seq<string>)
    ensures Concat([w] + rest) == w + Concat(rest)
  {
    assert ([w] + rest)[1..] == rest;
  }

  /** Gluing the words back together gives the input without its separators. */
  lemma {:induction false} ConcatWordsOf(s: string, sep: char -> bool)
    ensures Concat(WordsOf(s, sep)) == Strip(s, sep)
    decreases |s|
  {
    if s == [] {
    } else if sep(s[0]) {
      ConcatWordsOf(s[1..], sep);
    } else {
      var w := TakeWord(s, sep);
      ConcatWordsOf(s[|w|..], sep);
      ConcatCons(w, WordsOf(s[|w|..], sep));
      assert s == w + s[|w|..];
      StripAppend(w, s[|w|..], sep);
      StripNoSep(w, sep);
    }
  }

  /** The number of places where a non-separator follows a separator. */
  function Boundaries(s: string, sep: char -> bool): nat {
    if |s| < 2 then 0 else (if sep(s[0]) && !sep(s[1]) then 1 else 0) + Boundaries(s[1..], sep)
  }

  /** The number of positions where a word begins. */
  function WordStarts(s: string, sep: char -> bool): nat {
    (if s != [] && !sep(s[0]) then 1 else 0) + Boundaries(s, sep)
  }

  lemma {:induction false} WordStartsAfterWord(s: string, sep: char -> bool)
    requires s != [] && !sep(s[0])
    ensures WordStarts(s, sep) == 1 + WordStarts(s[|TakeWord(s, sep)|..], sep)
    decreases |s|
  {
    var w := TakeWord(s, sep);
    if |s| == 1 {
      assert w == s;
    } else if sep(s[1]) {
      assert w == [s[0]];
    } else {
      var w' := TakeWord(s[1..], sep);
      WordStartsAfterWord(s[1..], sep);
      assert s[1..][|w'|..] == s[|w|..];
    }
  }

  /** There are as many words as word starts: the words are the maximal runs. */
  lemma {:induction false} WordsOfCount(s: string, sep: char -> bool)
    ensures |WordsOf(s, sep)| == WordStarts(s, sep)
    decreases |s|
  {
    if s == [] {
    } else if sep(s[0]) {
      WordsOfCount(s[1..], sep);
    } else {
      var w := TakeWord(s, sep);
      WordsOfCount(s[|w|..], sep);
      WordStartsAfterWord(s, sep);
    }
  }

  lemma {:induction false} AllSepNoWords(s: string, sep: char -> bool)
    requires AllSep(s, sep)
    ensures WordsOf(s, sep) == []
    decreases |s|
  {
    if s != [] {
      AllSepNoWords(s[1..], sep);
    }
  }

  /** Leading separators do not change the words. */
  lemma {:induction false} WordsOfDropLeading(s: string, k: nat, sep: char -> bool)
    requires k <= |s| && AllSep(s[..k], sep)
    ensures WordsOf(s[k..], sep) == WordsOf(s, sep)
    decreases k
  {
    if k > 0 {
      assert sep(s[..k][0]);
      assert s[1..][k - 1..] == s[k..];
      assert s[1..][..k - 1] == s[..k][1..];
      WordsOfDropLeading(s[1..], k - 1, sep);
    }
  }

  lemma {:induction false} TakeWordPrefix(s: string, k: nat, sep: char -> bool)
    requires |TakeWord(s, sep)| <= k <= |s|
    ensures TakeWord(s[..k], sep) == TakeWord(s, sep)
    decreases |s|
  {
    if s != [] && !sep(s[0]) {
      assert s[..k][1..] == s[1..][..k - 1];
      TakeWordPrefix(s[1..], k - 1, sep);
    }
  }

  /** Trailing separators do not change the words. */
  lemma {:induction false} WordsOfDropTrailing(s: string, k: nat, sep: char -> bool)
    requires k <= |s| && AllSep(s[k..], sep)
    ensures WordsOf(s[..k], sep) == WordsOf(s, sep)
    decreases |s|
  {
    if s == [] {
    } else if k == 0 {
      assert s[k..] == s;
      AllSepNoWords(s, sep);
    } else if sep(s[0]) {
      assert s[..k][1..] == s[1..][..k - 1];
      assert s[1..][k - 1..] == s[k..];
      WordsOfDropTrailing(s[1..], k - 1, sep);
    } else {
      var w := TakeWord(s, sep);
      assert k < |s| ==> sep(s[k]) by {
        if k < |s| { assert s[k..][0] == s[k]; }
      }
      TakeWordPrefix(s, k, sep);
      assert s[..k][|w|..] == s[|w|..][..k - |w|];
      assert s[|w|..][k - |w|..] == s[k..];
      WordsOfDropTrailing(s[|w|..], k - |w|, sep);
    }
  }

  /** Two separator classes that agree on every character of `s` give the same words. */
  lemma {:induction false} WordsOfSameSeparators(s: string, p: char -> bool, q: char -> bool)
    requires forall i :: 0 <= i < |s| ==> p(s[i]) == q(s[i])
    ensures WordsOf(s, p) == WordsOf(s, q)
    decreases |s|
  {
    if s != [] {
      if p(s[0]) {
        WordsOfSameSeparators(s[1..], p, q);
      } else {
        TakeWordSameSeparators(s, p, q);
        var w := TakeWord(s, p);
        WordsOfSameSeparators(s[|w|..], p, q);
      }
    }
  }

  lemma {:induction false} TakeWordSameSeparators(s: string, p: char -> bool, q: char -> bool)
    requires forall i :: 0 <= i < |s| ==> p(s[i]) == q(s[i])
    ensures TakeWord(s, p) == TakeWord(s, q)
    decreases |s|
  {
    if s != [] {
      TakeWordSameSeparators(s[1..], p, q);
    }
  }

  // ---------------------------------------------------------------------------
  // JavaScript `split(/\s+/)` followed by `filter(w => w.length > 0)`

  /** `s.split(re)` for a regular expression `re` matching maximal runs of
      separators: the pieces between those runs, empty ones included. */
  function SplitRuns(s: string, sep: char -> bool): (parts: seq<string>)
    ensures |parts| >= 1
    decreases |s|
  {
    var w := TakeWord(s, sep);
    var rest := s[|w|..];
    if rest == [] then [w] else [w] + SplitRuns(DropSeps(rest, sep), sep)
  }

  function NonEmptyParts(parts: seq<string>): (r: seq<string>)
    ensures forall k :: 0 <= k < |r| ==> r[k] != []
  {
    if parts == [] then []
    else if parts[0] == [] then NonEmptyParts(parts[1..])
    else [parts[0]] + NonEmptyParts(parts[1..])
  }

  lemma NonEmptyPartsCons(p: string, parts: seq<string>)
    ensures NonEmptyParts([p] + parts) == (if p == [] then [] else [p]) + NonEmptyParts(parts)
  {
    assert ([p] + parts)[1..] == parts;
  }

  /** The words of `s` are its first word, when there is one, and the words
      after it. */
  lemma WordsOfSplitWord(s: string, sep: char -> bool)
    ensures var w := TakeWord(s, sep);
      WordsOf(s, sep) == (if w == [] then [] else [w]) + WordsOf(s[|w|..], sep)
  {
    if s != [] && sep(s[0]) {
      assert s[0..] == s;
    }
  }

  /** Splitting on separator runs and dropping empty pieces yields exactly the words. */
  lemma {:induction false} SplitRunsWords(s: string, sep: char -> bool)
    ensures NonEmptyParts(SplitRuns(s, sep)) == WordsOf(s, sep)
    decreases |s|
  {
    var w := TakeWord(s, sep);
    var rest := s[|w|..];
    WordsOfSplitWord(s, sep);
    if rest == [] {
      NonEmptyPartsCons(w, []);
    } else {
      var d := DropSeps(rest, sep);
      assert sep(rest[0]);
      SplitRunsWords(d, sep);
      NonEmptyPartsCons(w, SplitRuns(d, sep));
      assert rest[|rest| - |d|..] == d;
      WordsOfDropLeading(rest, |rest| - |d|, sep);
    }
  }

  /** `text.trim().split(/\s+/).filter(w => w.length > 0)` is the list of
      JavaScript-white-space words of `text`. */
  lemma TrimSplitWords(text: string)
    ensures NonEmptyParts(SplitRuns(Trim(text), IsJsSpace)) == WordsOf(text, IsJsSpace)
  {
    var t := TrimStart(text);
    WordsOfDropLeading(text, |text| - |t|, IsJsSpace);
    var u := TrimEnd(t);
    WordsOfDropTrailing(t, |u|, IsJsSpace);
    assert t[..|u|] == u;
    SplitRunsWords(u, IsJsSpace);
  }
}
